=== FILE: README.md ===
# RockOS kernel core in Dafny

This project models the sequential core of the RockOS teaching kernel (EightBitBoot/RockOS) in Dafny 4.11 and proves properties of the model. It covers four groups of logic.

1. **The VFS and what sits beneath it.** `resolve_path`/`namey` walk a path through the dirent cache. A cache miss asks the driver's `lookup` and links the answer as a positive or negative entry. The file syscalls `fopen`, `fclose`, `fread`, `fwrite`, `flistdir`, `fioctl`, `fseek` and `fchdir` keep three things:
   - each inode's reader count and writer flag;
   - each handle's 32-bit cursor;
   - the process's fd table.

   Underneath sit the slab allocator that backs `kfile_t` handles, and the `kstr_t` slice utilities (`kstr_strcmp`, `kstr_strtok`, FNV-1 `kstr_hash`). `testfs` is the one concrete driver, over its fixture tree.
2. **Console text logic.**
   - The ANSI SGR colour parser (a restricted form of section 8.3.117 of ECMA-48) and the VGA attributes it produces.
   - The scan-code set 1 keyboard decoder and its 200-slot input ring.
   - `__cio_gets`.
   - Cursor movement, `__cio_putchar` and `__cio_scroll` over a character grid.
3. **ACPI byte validators and the AML name scanner.**
   - The 8-bit table checksum.
   - The SDT header check and the RSDP check (section 5.2.5.3 of ACPI 6.5).
   - The DefName / NameString / DefPackage scanner (sections 20.2.2, 20.2.4, 20.2.5.1 and 20.2.5.4 of ACPI 6.5).
4. **Kernel object pools.**
   - The first-fit PCB table with its available count.
   - The LIFO stack free list.
   - The `_stk_dump` formatter, which elides repeated lines.

Each component is one module, in the file named after it:

| module | models |
|---|---|
| `Base` | shared helpers: `Option`, bytes, `uint32_t` wrap-around, `Reverse`, `Distinct` |
| `Codes` | statuses and syscall codes |
| `KString` | `kstring.c` |
| `Slab` | `slab_cache.c` |
| `Vfs` | the dirent cache and inode table |
| `Namey` | `namey.c` |
| `TestFs` | `testfs.c` and its fixture |
| `Syscalls` | the VFS syscalls and `vfs.c` |
| `VgaText` | `vgatext.c` |
| `Keyboard` | keyboard input in `cio.c` |
| `Console` | screen output in `cio.c` |
| `Acpi` | checksum, SDT header and RSDP |
| `Aml` | `aml.c` |
| `Procs` | `procs.c` |
| `Stacks` | `stacks.c` |
| `Listing` | `flistdir` over `testfs` |

Kernel state is immutable data, and every operation is a pure function from the old state to the new state and its result. The collaborators the model does not contain are supplied as function-valued parameters:
- the driver callbacks (`lookup`, `open`, `read`, `write`, `iterate_shared`, `ioctl`, `get_length`) are `Syscalls.Driver`;
- the page allocator is a parameter of `Stacks.StkAlloc`;
- the free-fd chooser is the `nextFd` argument of `Syscalls.Fopen`.

Statuses are an enumeration, because most of their numeric values are not in the shown headers; the assumptions this needs are listed under "## Left out". Where the C wraps a `uint32_t`, the model says so explicitly with `AddU32` or `% 2^32`.

A dirent is kept in an arena keyed by `DirentId` with the fields `{name, inode: Option, parent, children}`. These are the fields that `namey.c` uses; `struct dirent` in `vfs.h` does not declare `parent` or `children` yet. `_vfs_dirent_lookup_child` is not part of this model. It is taken to return the first child whose name compares equal under `KSTR_IS_EQUAL` (`Vfs.LookupChild`). The root being its own parent is only a comment in the source (src/vfs/namey.c:40). Here it is part of the cache invariant `Vfs.Valid`, and `TestFs.MountedVfs` takes it as given when it builds the mounted cache.

## Model

| member | source | states |
|---|---|---|
| Codes.StatusToSysRet | src/kern/syscalls.c:896-926 | Every status maps to a syscall code. The result is E_FAILURE exactly for the statuses without a code of their own, and E_SUCCESS exactly for S_OK. The mapping never produces E_ALREADY_OPEN or E_MAX_FILES_OPEN, which only `fopen` reports. |
| Codes.StatusToSysRetInverse | src/kern/syscalls.c:896-926 | The seven statuses with their own code can be read back from the code. Every other status collapses to E_FAILURE. |
| KString.MatchLen | src/util/kstring.c:16-22 | The comparison loop stops inside both slices only at a byte where they differ. |
| KString.MatchLenAgree | src/util/kstring.c:16-22 | The two slices agree at every position the loop passed. |
| KString.MatchLenAt | src/util/kstring.c:16-22 | The loop stops exactly at the first mismatch. |
| KString.MatchLenPrefix | src/util/kstring.c:16-22 | The slices have the same prefix up to where the loop stops. |
| KString.StrCmp | src/util/kstring.c:7-48 | Equal slices compare 0. If one slice is a proper prefix of the other, the result is the next byte of the longer slice as a signed `char`, negated when the longer slice is on the right. |
| KString.StrCmpMismatch | src/util/kstring.c:35-47 | At the first mismatch inside both slices, the result is the difference of the two bytes as signed `char`s. |
| KString.StrCmpZeroIffEqual | src/util/kstring.c:7-48 | For slices without NUL bytes, the result is 0 exactly when the slices are equal, so `KSTR_IS_EQUAL` means slice equality. |
| KString.MatchLenSymmetric | src/util/kstring.c:16-22 | Swapping the slices does not change where the loop stops. |
| KString.StrCmpAntisymmetric | src/util/kstring.c:7-48 | Swapping the operands negates the result, for all slices. |
| KString.StrCmpSignIsLexOrder | src/util/kstring.c:7-48 | On 7-bit text the result is negative exactly when the left slice is lexicographically smaller (`LexLess`, an independent definition). |
| KString.SkipDelims | src/util/kstring.c:62-65 | Returns the first non-delimiter at or after the start. Everything skipped is a delimiter. |
| KString.RunEnd | src/util/kstring.c:73-77 | Returns the end of the maximal run of non-delimiters from the start. It stops at a delimiter or at the end of the slice. |
| KString.StrTok | src/util/kstring.c:50-83 | The result is KSTR_EMPTY exactly when only delimiters remain from the start position (slice start, or one past the last end), and then the context is unchanged. Otherwise the token is non-empty and starts after a run of delimiters. It contains no delimiter, ends at a delimiter or at the end of the slice, and its end becomes `last_end`. |
| KString.StrTokEmptyIsSticky | src/util/kstring.c:67-71 | Once a call returns KSTR_EMPTY, the next call does too, with the same context. |
| KString.TokensFrom | src/util/kstring.c:50-83 | From any position, the tokens that successive calls return are the delimiter-separated pieces of the rest of the slice, with the empty pieces dropped. |
| KString.TokensAreNonEmptyPieces | src/util/kstring.c:50-83 | The tokens of a whole slice are its delimiter-separated pieces with the empty ones dropped. `SplitAll` is the independent reference definition. |
| KString.KstrHash | src/util/kstring.c:100-111 | The loop computes 32-bit FNV-1 (`Fnv1`): start from the offset basis, then for each byte multiply by the FNV prime modulo 2^32 and xor in the byte. |
| KString.Fnv1TestVectors | src/util/kstring.c:102-107 | The published FNV-1 32-bit vectors hold for "", "a" and "foobar", so the constants are FNV-1's. |
| Slab.FirstElem | src/util/slab_cache.c:48 | The first element's offset is a multiple of the element size. It is at least the header size and less than the header size plus one element. |
| Slab.HeaderRounding | src/util/slab_cache.c:48 | The header rounds up to 1 element for sizes of at least 4 bytes, 2 elements for sizes 2 and 3, and 4 for size 1. |
| Slab.OffsetsFrom | src/util/slab_cache.c:53-58 | `SLAB_FOR_EACH` visits one offset per element whose end fits in the slab. The offsets are one element apart. |
| Slab.OffsetsFromComplete | src/util/slab_cache.c:53-58 | The iteration visits exactly the element-aligned offsets past the first element whose element fits, and nothing else. |
| Slab.OffsetsDistinct | src/util/slab_cache.c:53-58 | No element is visited twice. |
| Slab.SlabNotEmpty | src/util/slab_cache.c:48-58 | A slab whose element size `slab_init` accepts holds at least one element, and its first element sits one element size in. |
| Slab.Free | src/util/slab_cache.c:208-220 | The element goes to the head of the free list. Its contents are no longer known, because the link is written into its first word. Nothing else changes, and the two branches of the C agree. |
| Slab.FreeAllStacks | src/util/slab_cache.c:208-220 | Freeing a run of elements in turn puts them on the free list in reverse order, above what was already there. Nothing but the free list and the contents changes. |
| Slab.FreeAllForgets | src/util/slab_cache.c:208-220 | Freeing a run of elements forgets exactly their contents, because each free writes a link into its element. Other elements keep theirs. |
| Slab.AddSlab | src/util/slab_cache.c:175-188 | The new slab goes to the head of `all_slabs`. All of its elements are threaded onto the free list, the last one first. |
| Slab.InitAsWritten | src/util/slab_cache.c:122-144 | Refuses with E_BAD_PARAM exactly when the element size is below 4 or above half the slab size that the cache's previous flags select. A refusal leaves the cache as it was. |
| Slab.Init | src/util/slab_cache.c:122-144 | Refuses exactly when the element size is below 4 or above half the slab size of the flags being installed. On success the cache holds the parameters and one slab, and every element of that slab is free. |
| Slab.InitAsWrittenChecksPriorFlags | src/util/slab_cache.c:127-132 | Concrete inputs on which the bound as written refuses a valid size and accepts a size that leaves slabs with no element. |
| Slab.InitConfigures | src/util/slab_cache.c:127-141 | The corrected initialisation only produces caches whose slabs hold elements, whatever the cache held before. |
| Slab.Alloc | src/util/slab_cache.c:173-198 | With free elements, returns the free-list head and drops it from the list. Otherwise it first adds exactly one slab and returns that slab's first free element. With SC_ALLOC_ZERO_MEM the element reads as zeros. Without it nothing becomes known, and with free elements nothing changes. |
| Slab.Deinit | src/util/slab_cache.c:156-163 | The slabs are released in `all_slabs` order. |
| Slab.InitValid | src/util/slab_cache.c:122-144 | A successful initialisation gives a valid cache in which no element is in use. |
| Slab.AddSlabValid | src/util/slab_cache.c:175-188 | Refilling an empty free list keeps the cache valid: the new elements are free and belong to nobody. |
| Slab.PopValid | src/util/slab_cache.c:190-191 | The popped element is not held by any client, and the cache stays valid with it now held. |
| Slab.AllocValid | src/util/slab_cache.c:173-198 | No element is handed out twice: `slab_alloc` returns an element no client holds, and the cache stays valid. Without SC_ALLOC_ZERO_MEM the element's contents are unknown. |
| Slab.FreeValid | src/util/slab_cache.c:208-220 | Freeing an element a client holds keeps the cache valid, and the element is no longer held. |
| Slab.FreeThenAllocReturnsIt | src/util/slab_cache.c:190-220 | LIFO: the element freed last is the next one handed out, and the free list is back as it was. Without SC_ALLOC_ZERO_MEM its old contents do not come back, since the link overwrote them. |
| Slab.DeinitReleasesEverySlab | src/util/slab_cache.c:156-163 | Every slab the cache ever obtained is released exactly once. |
| Slab.FirstElemExamples | src/util/slab_cache.c:232-245 | The self-test's expected first-element offsets: 3→6, 2→4, 7→7, 8→8, 4→4. |
| Slab.InitElementCounts | src/util/slab_cache.c:247-277 | A fresh cache of 7-byte elements has 145 free elements with small slabs and 584 with large slabs. |
| Slab.AllocNFromFreeList | src/util/slab_cache.c:190-191 | While free elements last, allocations take them in order and obtain no slab. |
| Slab.NewSlabOnExhaustion | src/util/slab_cache.c:279-317 | 146 allocations from a fresh small cache of 7-byte elements leave two slabs; so do 585 from a large one. |
| Slab.NewSlabAfterFreeList | src/util/slab_cache.c:175-188 | One allocation past the free list obtains exactly one more slab. |
| Vfs.FirstNamed | src/vfs/namey.c:45 | Returns the position of the first dirent whose name compares equal to the component. No earlier dirent matches, and None means none matches. |
| Vfs.LookupChild | src/vfs/namey.c:45 | A hit is one of the children of the dirent, and is cached. |
| Vfs.FirstNamedExtends | src/vfs/namey.c:79-80 | A first match stays the first match when more children are appended. |
| Vfs.LookupChildExtends | src/vfs/namey.c:45-58 | A cache hit stays a hit on the same dirent in any cache that only grew. |
| Vfs.FirstNamedAppend | src/vfs/namey.c:79-80 | When nothing matched before, an appended child with the name becomes the match. |
| Namey.Link | src/vfs/namey.c:70-80 | The new dirent gets the component's name, the driver's inode and `cur` as its parent, and becomes the last child of `cur`. Nothing else changes, and the next free id advances by one. |
| Namey.LinkValid | src/vfs/namey.c:79-80 | Linking keeps the cache well formed and only adds to it. |
| Namey.SkipIdValid | src/vfs/namey.c:70-77 | A dirent allocated for a lookup the driver refused is never linked, and the cache stays well formed. |
| Namey.StepToken | src/vfs/namey.c:28-88 | One path component: the cache only grows and the walk goes on from a positive dirent. Otherwise it ends with a non-OK status and no result. When the driver's refusal ended it, that status was returned by the one driver call the step made. |
| Namey.WalkTokens | src/vfs/namey.c:28-92 | The cache only grows. The status is OK exactly when there is a result, and the result is a positive dirent. A driver refusal is never OK. There is at most one driver call per component. |
| Namey.ResolvePath | src/vfs/namey.c:10-93 | An empty path is refused with the syscall code E_BAD_PARAM returned as a status (`BadParamCode`, which has no syscall code of its own), with no dirent and the cache unchanged. Otherwise the same facts as for the walk hold. |
| Namey.Namey | src/vfs/namey.c:95-105 | The walk's status is passed on unchanged. `*result` is written exactly on S_OK, with the inode of the dirent found, which the inode table holds. |
| Namey.OnlySeparators | src/vfs/namey.c:18-28 | A path of separators only resolves to the root with S_OK, with no driver call and no change to the cache. |
| Namey.DotDotFromRoot | src/vfs/namey.c:39-43 | Any number of ".." components from the root stay at the root, with no driver call and no change to the cache. |
| Namey.LinkedIsFound | src/vfs/namey.c:45-80 | After a miss is linked, the cache lookup finds the new dirent. |
| Namey.StepHit | src/vfs/namey.c:45-64 | A cached positive child is entered without a driver call. A cached negative child ends the walk with S_NOTFOUND, also without a driver call. |
| Namey.StepMiss | src/vfs/namey.c:70-88 | On a miss the driver is called once and its answer is linked under the current dirent. An answer without an inode ends the walk with S_NOTFOUND. |
| Namey.StepAgain | src/vfs/namey.c:45-58 | A step that went on goes on to the same dirent again, without a driver call, over any later state of the cache. |
| Namey.DoneAgain | src/vfs/namey.c:55-86 | A step that ended other than by a driver refusal ends the same way again over the cache it left, without a driver call. |
| Namey.RewalkIsCached | src/vfs/namey.c:55-86 | Unless the driver refused a lookup, walking the same components again over the cache the first walk left gives the same outcome. The repeat makes no driver call and does not change the cache. This covers success and failure on a negative entry. |
| Namey.ResolveAgainIsCached | src/vfs/namey.c:10-93 | The same holds for whole paths from the same cwd. |
| Namey.StepNoNegative | src/vfs/namey.c:70-86 | With a driver that never answers OK without an inode, a step adds no negative entry, and S_NOTFOUND can only come from the driver. |
| Namey.NoNegativeCaching | src/vfs/namey.c:70-86 | With such a driver a whole walk never caches a negative entry. |
| Namey.DriverStatusIsPassedOn | src/vfs/namey.c:72-77 | A walk ended by the driver ends with a status the driver gave. |
| TestFs.FirstChild | src/vfs/testfs/testfs.c:82-90 | Returns the position of the first name that compares equal. No earlier name does, and None means no name does. |
| TestFs.Lookup | src/vfs/testfs/testfs.c:71-93 | Without a private node the result is E_NO_DATA, and for a childless node E_NO_CHILDREN; both leave `d_inode` untouched. Otherwise the result is the first child whose name compares equal, with E_SUCCESS. E_NOT_FOUND is returned exactly when no child matches. An inode is stored exactly on success. |
| TestFs.Iterate | src/vfs/testfs/testfs.c:55-69 | Without a private node the return value is E_NO_DATA and nothing is written. Otherwise the names of the first `min(count, children)` children are written in order, and the return value is the number of entries written. |
| TestFs.Open | src/vfs/testfs/testfs.c:48-53 | Always succeeds, and the handle's `kf_priv` becomes the inode's node. |
| TestFs.Ioctl | src/vfs/testfs/testfs.c:102-118 | S_OK exactly for TESTFS_SAY_HI with data. Any other action gives S_BAD_ACTION, and NULL data gives S_BAD_PARAM. |
| TestFs.MountedInode | src/vfs/testfs/testfs.c:142-153 | A node with children becomes a directory with `lookup` and the directory operations. A childless node becomes a file without `lookup`. Both start with no reader and no writer, as on the first mount. |
| TestFs.NumberInodes | src/vfs/testfs/testfs.c:135-156 | Every listed node gets the inode of a mounted node, and its `i_num` is the index of its last listing. |
| TestFs.AllNodesListed | src/vfs/testfs/bogus_data.c:34-45 | `bogus_all_nodes` lists every fixture node and nothing else. |
| TestFs.Mount | src/vfs/testfs/testfs.c:122-166 | The superblock is reused when one exists. Every node is queued in list order and numbered by its last listing. The root dirent names the root node's inode. |
| TestFs.MountedVfs | src/vfs/testfs/testfs.c:158-165 | The cache after mounting holds only the root dirent, named after the root node and holding its inode. With the root taken as its own parent, it is a well-formed start for path walks, and the driver's answers stay inside the inode table. |
| TestFs.MountNumbering | src/vfs/testfs/bogus_data.c:34-45 | `passwd` is listed at 2 and 4 and ends with `i_num` 4. Every other node keeps its index. |
| TestFs.SiblingNamesDiffer | src/vfs/testfs/bogus_data.c:47-100 | No two children of a fixture node compare equal. |
| TestFs.IterateThenLookup | src/vfs/testfs/testfs.c:55-93 | Each of the entries the iteration reports writing is a name that `testfs_lookup` finds, on the child at the same position. |
| TestFs.LookupAnswers | src/vfs/testfs/testfs.c:71-93 | The driver answers OK only with an inode, and never answers S_NOTFOUND. |
| TestFs.NoNegativeEntries | src/vfs/testfs/testfs.c:92 | Over testfs, a walk from the mounted root never caches a negative entry and never ends in S_NOTFOUND. |
| Listing.EntriesBound | src/vfs/testfs/testfs.c:63-66 | testfs writes at most `count` entries, and all of the node's children when the buffer has room for them. |
| Listing.StatusOfReturn | src/kern/syscalls.c:1174 | testfs's return value read as a `status_t` is S_OK exactly for a count of 0. A positive count is no status with a code of its own, and E_NO_DATA stays itself. |
| Listing.IterateAsCalled | src/kern/syscalls.c:1171-1179 | Called through the five-argument pointer, testfs's count becomes the status, and `num_written` stays 0. The status is S_OK exactly when the handle has a node and nothing was written. |
| Listing.IterateAsIntended | src/vfs/vfs.h:128-130 | The iteration in the shape `flistdir` calls it: S_OK exactly when the handle has a node, with the number of entries written stored through the `num_written` pointer the interface declares. |
| Listing.ListedAsWritten | src/kern/syscalls.c:1171-1179 | As written, `flistdir` on a readable testfs directory returns 0 entries. The status is E_FAILURE as soon as testfs wrote one. |
| Listing.ListedAsIntended | src/kern/syscalls.c:1138-1180 | With the intended iteration, `flistdir` returns the number of names testfs wrote, with E_SUCCESS. |
| Listing.ListRootExample | src/vfs/testfs/bogus_data.c:47-100 | Listing the fixture's root, which has two children, into ten entries gives 0 entries and E_FAILURE as written, and 2 entries and E_SUCCESS as intended. |
| Syscalls.VfsInit | src/vfs/vfs.c:10-15 | The kfile cache is set up for `kfile_t` elements in large slabs. |
| Syscalls.VfsInitUnaffected | src/vfs/vfs.c:12-14 | For `kfile_t` the bound as written and the corrected bound agree, and the initialisation succeeds, so dropping its status loses nothing. |
| Syscalls.AllocateFile | src/vfs/vfs.c:22-27 | The handle comes zero-filled from the kfile cache. |
| Syscalls.Fopen | src/kern/syscalls.c:929-1000 | A NULL path or a mode with neither O_READ nor O_WRITE gives E_BAD_PARAM with nothing changed. On any error the fd table, the handles and the inode records are unchanged. On success the fd returned is the free slot. |
| Syscalls.OpenInode | src/kern/syscalls.c:950-999 | Once the path has resolved, the open succeeds exactly when all of these hold: the inode has `open`, there is no reader/writer conflict, a free fd exists, and the driver's `open` succeeds. On failure only the kfile cache may differ. |
| Syscalls.OpenInodeRefusals | src/kern/syscalls.c:950-985 | The refusals in the order the source checks them: E_NOT_SUPPORTED, then E_ALREADY_OPEN, then E_MAX_FILES_OPEN, then the driver's `open` status mapped. |
| Syscalls.OpenInodeOpens | src/kern/syscalls.c:975-999 | A successful open puts a new handle in the free slot, with cursor 0, the requested mode and the inode's file operations. The inode counts one more reader, or its writer. |
| Syscalls.FopenWalkFails | src/kern/syscalls.c:941-946 | A path that does not resolve gives E_FAILURE. Only the cache the walk grew is kept. |
| Syscalls.FopenWalkSucceeds | src/kern/syscalls.c:941-953 | A path that resolves continues as opening its inode over the grown cache. |
| Syscalls.FopenOpens | src/kern/syscalls.c:929-1000 | `fopen` succeeds only through a valid mode and a path that resolved to an inode. |
| Syscalls.Fclose | src/kern/syscalls.c:1003-1041 | A bad fd gives E_BAD_PARAM with nothing changed. Otherwise the slot is cleared, the handle dropped, and E_SUCCESS returned. |
| Syscalls.CommitAccounts | src/kern/syscalls.c:987-995 | After a conflict-free open commits, the opened inode's reader count and writer flag match its handles. |
| Syscalls.CloseAccounts | src/kern/syscalls.c:1021-1029 | After `fclose`, the closed handle's inode still matches its handles. |
| Syscalls.ClosedOpened | src/kern/syscalls.c:987-1029 | Closing with the same mode undoes the bookkeeping of opening, including the reader count modulo 2^32. |
| Syscalls.FcloseUndoesCommit | src/kern/syscalls.c:1003-1041 | Closing the handle an open just committed gives back the state before the open, except that the kfile element is back on the free list. |
| Syscalls.FopenKeepsWf | src/kern/syscalls.c:929-1000 | `fopen` keeps the exclusivity invariant. For each file or directory, the reader count is the number of handles open for reading, and the writer flag holds exactly when a handle is open for writing, which is then the only handle on it. The invariant also covers the fd table and the kfile cache. |
| Syscalls.FcloseKeepsWf | src/kern/syscalls.c:1003-1041 | `fclose` keeps the same invariant. |
| Syscalls.Transfer | src/kern/syscalls.c:1044-1135 | Only the cursor of the handle behind `fd` can change. It advances by the count returned, modulo 2^32, whatever the status. A bad fd or NULL buffer gives 0 with E_BAD_PARAM. |
| Syscalls.TransferRefusals | src/kern/syscalls.c:1052-1075 | A handle without the direction gives E_BAD_ACTION, and a missing callback gives E_NOT_SUPPORTED; in both cases nothing moves. A non-zero count means the handle may and can transfer. |
| Syscalls.Fread | src/kern/syscalls.c:1044-1088 | The count and status are what the driver's `read` reports, asked at the cursor (offset 0 for a device). A non-zero count needs a readable handle. |
| Syscalls.Fwrite | src/kern/syscalls.c:1091-1135 | The same for `write` on a writable handle. |
| Syscalls.TransferKeepsWf | src/kern/syscalls.c:1044-1135 | `fread` and `fwrite` keep the invariant. |
| Syscalls.Flistdir | src/kern/syscalls.c:1138-1180 | With the missing `return` restored: a bad fd gives E_BAD_PARAM, a handle that cannot be iterated gives E_NOT_SUPPORTED, and an unreadable one gives E_BAD_ACTION. Entries or success only come through a readable directory handle. |
| Syscalls.FlistdirReadableAgrees | src/kern/syscalls.c:1164-1179 | On a readable handle, the code as written and the corrected call agree, and both return the driver's iteration result. |
| Syscalls.FlistdirAsWrittenIgnoresMode | src/kern/syscalls.c:1164-1169 | On a write-only directory handle, the code as written lists the directory and reports success. The corrected call reports E_BAD_ACTION. |
| Syscalls.Fioctl | src/kern/syscalls.c:1218-1238 | A bad fd gives E_BAD_PARAM, and a missing `ioctl` gives E_NOT_SUPPORTED. Otherwise the result is the driver's answer, mapped. |
| Syscalls.SeekTarget | src/kern/syscalls.c:1293-1310 | The wrap checks are exact: the 32-bit sum is accepted exactly when the integer `base + offset` lies in `[0, len]`, and then equals it. |
| Syscalls.Fseek | src/kern/syscalls.c:1241-1317 | Succeeds exactly when all of these hold: a good fd, a non-device file, `get_length` present, a known `whence`, and a target in `[0, len]`. Then the handle's cursor, and nothing else, becomes the target, which is returned. On failure nothing changes and 0 is returned. |
| Syscalls.FseekKeepsWf | src/kern/syscalls.c:1241-1317 | `fseek` keeps the invariant. |
| Syscalls.Fchdir | src/kern/syscalls.c:1321-1345 | NULL gives E_BAD_PARAM. A path that resolves becomes the cwd, whatever kind of inode it names. On failure the cwd stays. The status is the walk's, mapped. |
| Syscalls.FchdirKeepsWf | src/kern/syscalls.c:1321-1345 | `fchdir` keeps the invariant. |
| Syscalls.FchdirEmptyPath | src/kern/syscalls.c:1321-1335 | `fchdir("")` returns E_FAILURE and changes nothing: the E_BAD_PARAM that `resolve_path` returns as a status goes through `__status_to_sys_ret` like any status without a code of its own. |
| Syscalls.InitialWf | src/vfs/vfs.c:10-15 | Right after `_vfs_init`, the state is well formed: free fd slots, and a cache in which nothing is open. |
| Syscalls.VfsDeinit | src/vfs/vfs.c:17-20 | Every slab the kfile cache obtained goes back to the allocator exactly once. |
| Syscalls.BadFd | src/kern/syscalls.c:893-894 | `IS_BAD_FD`: a negative fd, one past the table, or an empty slot. Every fd-taking call above refuses such an fd with E_BAD_PARAM before it touches a handle (Fclose, Transfer, Flistdir, Fioctl, Fseek). |
| Syscalls.Handle | src/kern/syscalls.c:1154 | A good fd names a live handle whose inode is in the inode table. |
| Syscalls.CommitFrame | src/kern/syscalls.c:987-999 | The commit of `fopen` changes only the slot, the new handle, the kfile cache and the opened inode. The slot holds the handle, and the handle starts at cursor 0 with the requested mode and the inode's file operations. |
| Syscalls.FlistdirAsWritten | src/kern/syscalls.c:1138-1180 | As written, a bad fd gives E_BAD_PARAM and an unlistable handle E_NOT_SUPPORTED. Any listable handle, readable or not, gets the driver's iteration result. |
| VgaText.FgBgDisjoint | src/io/vgatext.c:28-34 | Foreground and background occupy disjoint nibbles. Combining them keeps both colours readable and sets no other bit. |
| VgaText.Fg | src/io/vgatext.c:28-30 | The low four bits of the colour land in the foreground nibble, and nothing else is set. |
| VgaText.Bg | src/io/vgatext.c:32-34 | The low four bits of the colour land in the background nibble, and nothing else is set. |
| VgaText.Ansi | src/io/vgatext.c:36-84 | Codes in the thirties and nineties touch only the foreground, and the forties and hundreds only the background. Any other code gives 0. |
| VgaText.Parse | src/io/vgatext.c:86-248 | The intended parser accepts exactly what the documented reading decodes, and stops just past an 'm'. |
| VgaText.BaseColorBijective | src/io/vgatext.c:41-69 | The ANSI digits 0-7 name the eight base VGA colours, one each. |
| VgaText.AnsiDecodes | src/io/vgatext.c:36-84 | Codes 30-37 and 90-97 set only the foreground, and codes 40-47 and 100-107 only the background. The bright forms add the brighten bit. |
| VgaText.ParseAsWritten | src/io/vgatext.c:86-248 | The parser as written succeeds only on input starting "[0". It returns a position just past an 'm'. |
| VgaText.DecodeFg | src/io/vgatext.c:159-184 | A foreground code is read only from its own text. |
| VgaText.DecodeBg | src/io/vgatext.c:199-228 | A background code is read only from its own text. |
| VgaText.DecodeFgEncode | src/io/vgatext.c:159-184 | Each foreground code is read back from its text, whatever follows it. |
| VgaText.DecodeBgEncode | src/io/vgatext.c:199-228 | Each background code is read back from its text, whatever follows it. |
| VgaText.Decode | src/io/vgatext.c:137-233 | What is read is a documented sequence ending at an 'm'. |
| VgaText.ShadeAttrs | src/io/vgatext.c:36-84 | A code's attribute is its colour in the foreground or background nibble. |
| VgaText.ForeColor | src/io/vgatext.c:186-192 | "[0;FGm" clears the default foreground and sets the new one. The background stays black. |
| VgaText.ColorDecodes | src/io/vgatext.c:147-245 | Every sequence selects the colours its codes name. The reset codes give light gray on black. |
| VgaText.ResetColors | src/io/vgatext.c:236-245 | The foreground reset is code 37, as documented. The background reset is black, code 40, and not code 47. Together the two resets give the default attribute. |
| VgaText.ParseEncode | src/io/vgatext.c:86-248 | Round trip: every documented sequence, whatever follows it, parses to its own attribute and length. |
| VgaText.ParseOnlyEncodings | src/io/vgatext.c:137-233 | Whatever the parser accepts is exactly one documented sequence. |
| VgaText.AttrNumber | src/io/vgatext.c:36-84 | A code other than the reset code gives the attribute of its ANSI colour number. |
| VgaText.FgAsWrittenAgrees | src/io/vgatext.c:159-184 | On codes other than '0', the foreground reader as written agrees with the documented reading. |
| VgaText.BgAsWrittenAgrees | src/io/vgatext.c:199-228 | On codes other than '0', the background reader as written agrees with the documented reading. |
| VgaText.ParseAsWrittenAgrees | src/io/vgatext.c:86-248 | Where neither colour is the reset code, the parser as written reads every input as intended. |
| VgaText.ParseAsWrittenFgReset | src/io/vgatext.c:159-184 | As written, "[0;0m" is refused, and "[0;04m" selects a red background. |
| VgaText.ParseAsWrittenBgReset | src/io/vgatext.c:199-233 | As written, "[0;31;0m" is refused and "[0;31;0xm" is accepted; the intended parser does the opposite. |
| Keyboard.EmptyRing | src/io/cio.c:566-568 | Both ring indices start at the first slot, and the ring is empty. |
| Keyboard.Contents | src/io/cio.c:559-568 | The characters held, oldest first. Their number is the distance from `next_char` to `next_space` around the 200 slots. |
| Keyboard.Pop | src/io/cio.c:672-673 | Taking a character keeps the ring well formed. PopContents states what is taken. |
| Keyboard.Increment | src/io/cio.c:570-575 | The next slot, wrapping to the first after the 200th. |
| Keyboard.InputQueue | src/io/cio.c:698-705 | The corrected pointer difference is the number of characters held, which is at most 199. |
| Keyboard.Push | src/io/cio.c:614-623 | Storing a character keeps both ring indices inside the buffer. |
| Keyboard.PushContents | src/io/cio.c:614-623 | A character is appended behind the others exactly when fewer than 199 are held. Otherwise it is dropped and the ring is unchanged. |
| Keyboard.PopContents | src/io/cio.c:672-673 | Taking from a non-empty ring returns the oldest character and leaves the rest. |
| Keyboard.PushThenPop | src/io/cio.c:614-673 | FIFO: a character pushed onto an empty ring is the next one taken. |
| Keyboard.Getchar | src/io/cio.c:656-676 | The character is returned through a signed `char`, so the value is in [-128, 127]. |
| Keyboard.Mask | src/io/cio.c:619 | With control held the character keeps its low five bits. Otherwise it is unchanged. |
| Keyboard.Translate | src/io/cio.c:484-522 | The `scan_code` table entry for a press code, unshifted or shifted. TranslateExamples pins entries down. |
| Keyboard.ScanStep | src/io/cio.c:577-628 | One scan code, with the value undefined table entries are compared against as a parameter, keeps the ring well formed. |
| Keyboard.InputScanCodeAsWritten | src/io/cio.c:611-613 | The decoder as written, comparing against '\377' read as -1, keeps the ring well formed. UndefinedKeyQueuedAsWritten states what it queues. |
| Keyboard.InputScanCode | src/io/cio.c:577-628 | The decoder as intended, which ignores undefined keys, keeps the ring well formed. ModifierKeys, ReleaseIgnored, PressQueues and NoUndefinedQueued state its behaviour. |
| Keyboard.ModifierKeys | src/io/cio.c:585-603 | Shift and control presses and releases only change the modifier state. Nothing is queued and -1 is returned. |
| Keyboard.ReleaseIgnored | src/io/cio.c:605-611 | Releases of ordinary keys change nothing and return -1, both as written and as intended. |
| Keyboard.PressQueues | src/io/cio.c:611-624 | A defined key's press returns its masked character. The character is queued behind the others when there is room; otherwise it is dropped but still returned. |
| Keyboard.NoUndefinedQueued | src/io/cio.c:609-613 | As intended, undefined keys are ignored: 0xFF is never queued or returned. |
| Keyboard.UndefinedKeyQueuedAsWritten | src/io/cio.c:612-613 | As written, Caps Lock (an undefined entry) queues 0xFF and returns 255. The intended decoder ignores it. |
| Keyboard.TranslateExamples | src/io/cio.c:484-522 | The table gives 'a' for 0x1E, 'A' when shifted, and 3 for control-C. |
| Keyboard.Gets | src/io/cio.c:678-696 | Copies at most `size - 1` characters, followed by a NUL, and returns the count. It stops after a newline, which is kept, or at EOT, which is not. A size below 2 reads nothing. It blocks exactly when the input ends before any of these happen. |
| Console.Bound | src/io/cio.c:113-116 | The value is clamped to `[min, max]` and kept when already inside. |
| Console.Init | src/io/cio.c:710-731 | The whole screen scrolls and the cursor is at the top left. |
| Console.SetScroll | src/io/cio.c:111-120 | Each corner is clamped to the screen, with the maxima no smaller than the minima. The cursor goes to the region's top left, and coordinates already in range are kept. |
| Console.MoveTo | src/io/cio.c:140-144 | The region-relative position is clamped into the region, and kept when it fits. |
| Console.CellValue | src/io/cio.c:97-107 | A plain byte gets light gray on black. A wider value keeps its own attribute, cut to 16 bits. |
| Console.PutAt | src/io/cio.c:90-109 | Exactly one cell is written, when it is on the screen. |
| Console.ScrollCells | src/io/cio.c:294-307 | Inside the region each cell shows the one `lines` rows below it, or a blank past the region's bottom. Outside the region nothing changes. |
| Console.Scroll | src/io/cio.c:274-308 | Scrolling by the region's height or more clears it and homes the cursor. Less shifts the rows and keeps the cursor. |
| Console.ScrollClears | src/io/cio.c:283-289 | Scrolling by the whole height or more leaves the region blank. |
| Console.ScrollAdds | src/io/cio.c:294-307 | Scrolling by `a` and then by `b` is scrolling by `a + b`. |
| Console.ScrollInPlace | src/io/cio.c:294-307 | The in-place row copy, top row first, gives the scrolled screen. |
| Console.Putchar | src/io/cio.c:178-215 | The cursor stays in the region or on the line just below it, and the region and colour are unchanged. |
| Console.PutcharWrites | src/io/cio.c:205-212 | An ordinary character changes only its own cell, in the active colour. The cursor moves right, or to the start of the next line past the right edge. |
| Console.PutcharNewline | src/io/cio.c:188-199 | A newline blanks the rest of the line and moves to the start of the next. |
| Console.PutcharScrollsFirst | src/io/cio.c:182-185 | A cursor below the region first scrolls it up by one line and returns to the bottom line. |
| Acpi.RunningIsSum | src/acpi/checksum.c:8-11 | The wrapping `uint8_t` running sum is the sum of the bytes modulo 256. |
| Acpi.ChecksumValid | src/acpi/checksum.c:3-14 | True exactly for a non-NULL pointer and either an empty range or bytes `start..length-1` that sum to 0 modulo 256. `length` is an end index. |
| Acpi.FixByteValid | src/acpi/checksum.c:3-14 | Exactly one value of a checksum byte makes a table valid. |
| Acpi.ValidateSdt | src/acpi/tables/sdt.c:5-15 | Valid exactly when the bytes up to the header's own `length` sum to 0 modulo 256. No other field is looked at. |
| Acpi.SdtChecksumFixes | src/acpi/tables/sdt.c:5-15 | The length and checksum fields lie inside the summed range, so the checksum byte alone can make a table valid. |
| Acpi.SdtCoveredOnly | src/acpi/tables/sdt.c:5-15 | Bytes past `length` do not affect the verdict. |
| Acpi.ValidateRsdpComparing | src/acpi/tables/rsdp.c:15-57 | Accepts exactly when all of these hold: the compared signature bytes match, the first 20 bytes sum to 0, revision 2 and above also has a 36-byte sum of 0, and the revision is not 1. |
| Acpi.ValidateRsdpAsWritten | src/acpi/tables/rsdp.c:17-27 | As written, only "RSD " is checked. |
| Acpi.ValidateRsdp | src/acpi/tables/rsdp.c:15-57 | As intended, the whole "RSD PTR " signature is checked. |
| Acpi.RevisionOneRefused | src/acpi/tables/rsdp.c:50-54 | Revision 1 is refused even when both checksums hold. |
| Acpi.RevisionZeroIgnoresExtension | src/acpi/tables/rsdp.c:30-56 | Revision 0 is decided by the first 20 bytes alone. |
| Acpi.ShortSignatureAccepted | src/acpi/tables/rsdp.c:17-27 | As written, a structure signed "RSD XXXX" with a correct checksum is accepted. The full comparison refuses it. |
| Acpi.ValidateRsdpStricter | src/acpi/tables/rsdp.c:17-27 | The intended check only accepts what the check as written accepts. |
| Aml.SkipPkgLengthEncoding | src/acpi/aml.c:33-45 | A PkgLength whose lead byte gives in bits 7-6 the number of bytes after it is skipped whole, whatever precedes or follows it. |
| Aml.PackageAsWritten | src/acpi/aml.c:15-63 | Only DefPackage (0x12) stores anything. |
| Aml.Package | src/acpi/aml.c:27-56 | The intended package parser, which reads each element as its own data object, accepts only DefPackage. |
| Aml.PackageEncode | src/acpi/aml.c:27-56 | Round trip: the intended parser reads back every package of bytes, whatever precedes or follows it. |
| Aml.PackageAsWrittenKeepsPrefixes | src/acpi/aml.c:50-55 | As written, `Package() {5, 5}` comes out as 5, 0x0A, where the intended parser gives 5, 5. |
| Aml.CString | src/acpi/aml.c:129-153 | A NameSeg read as a C string is the bytes before the first NUL. |
| Aml.AnySegMatchesExists | src/acpi/aml.c:131-157 | A name matches exactly when one of its NameSegs, read as a C string, equals the key. |
| Aml.NamePath | src/acpi/aml.c:91-126 | The NameSegs start at most three bytes after the NameString: one prefix byte and at most two counting bytes. |
| Aml.NamePathEncoding | src/acpi/aml.c:91-126 | Each NameString form, from its bytes. One RootChar or ParentPrefixChar is skipped, and a second one starts a NameSeg. DualNamePath gives two NameSegs after its prefix, MultiNamePath gives SegCount NameSegs after the count, NullName gives none, and any other byte starts one NameSeg. |
| Aml.MatchName | src/acpi/aml.c:72-159 | A match needs NameOp, and its data object starts right after the last NameSeg. Over NullName, the key matches exactly when it is empty. |
| Aml.NullNameMatchesEmptyKey | src/acpi/aml.c:121-124 | Over a NullName, with or without a prefix byte, the result is a null match exactly when the key is empty. |
| Aml.MatchNameSegs | src/acpi/aml.c:127-159 | Over NameSegs inside the block, the name matches exactly when one NameSeg equals the key. The data object then starts right after the last NameSeg. |
| Aml.ParseDefName | src/acpi/aml.c:72-165 | True exactly when the name matches. Data is stored exactly when a NameSeg matches, and it is the package parse at the offset following the name; the truth value does not depend on the data parse. |
| Aml.FindValue | src/acpi/aml.c:167-183 | Succeeds exactly when a DefName parse succeeds at some index below `length`; an index past the end of the block is a failed parse. It stops at the first such index and returns that parse's output, and outputs nothing on failure. |
| Aml.FindDefinedName | src/acpi/aml.c:72-183 | A block that starts with `Name(NAME, Package() {...})` finds the package's bytes for that name. |
| Procs.Init | src/procs.c:57-70 | Every PCB is cleared and available, the count is N_PROCS (25), PIDs start at FIRST_USER_PID (2), and the table is consistent. |
| Procs.FirstUnused | src/procs.c:87-90 | Returns the lowest Unused index; every PCB below it is in use. |
| Procs.FirstUnusedFound | src/procs.c:87-96 | The search finds a PCB exactly when some PCB is Unused. |
| Procs.PcbAlloc | src/procs.c:79-107 | NULL exactly when the count is below 1. Otherwise the lowest Unused PCB is cleared and marked New, the count drops by one, and nothing else changes. |
| Procs.PcbDealloc | src/procs.c:116-128 | The PCB becomes Unused with its other fields kept, and the count rises by one. |
| Procs.AllocKeepsConsistent | src/procs.c:82-103 | On a consistent table the assertion never fails, allocation succeeds exactly when some PCB is Unused, and the table stays consistent. |
| Procs.DeallocKeepsConsistent | src/procs.c:116-128 | Releasing a PCB in use keeps the count equal to the number of Unused PCBs. |
| Procs.DoubleDeallocInconsistent | src/procs.c:116-128 | Releasing an Unused PCB breaks that equality. |
| Procs.DeallocThenAlloc | src/procs.c:79-128 | A PCB released below every other Unused one is the next one handed out. |
| Procs.AllocAll | src/procs.c:79-107 | From a table whose first `n` PCBs are in use, the next allocation hands out PCB `n`, and NULL comes only when all 25 are in use. |
| Stacks.StkAlloc | src/stacks.c:217-246 | Reuses the free-list head if there is one, and otherwise asks for PGS_PER_STACK pages. A stack handed out is cleared. A failure changes nothing. |
| Stacks.StkDealloc | src/stacks.c:253-261 | The stack becomes the free-list head. Its words are no longer known, because the link is written into its first word. Other stacks keep their words. |
| Stacks.DeallocThenAlloc | src/stacks.c:226-261 | LIFO: a stack just released is the next handed out, and the free list is back as it was. |
| Stacks.DeallocAllThenAlloc | src/stacks.c:217-261 | Releasing stacks and then asking for as many hands them back in reverse order, without the page allocator. |
| Stacks.HexWordRoundTrip | src/stacks.c:340-344 | Round trip: eight upper-case hex digits read back give the word. |
| Stacks.CharOf | src/stacks.c:352-355 | A printable byte is shown as itself, and anything else as '.'. |
| Stacks.HexFieldInjective | src/stacks.c:365-368 | Different words give different hex fields, so comparing fields compares the words. |
| Stacks.Render | src/stacks.c:373-377 | A line is 71 characters for four words. It carries '*' after the address exactly when lines before it were elided, and it ends with a newline. |
| Stacks.Window | src/stacks.c:292-301 | With a limit, the last `limit` words are shown, rounded up to a multiple of four. Without one, the whole stack is shown. |
| Stacks.StkDump | src/stacks.c:281-382 | The output is the header followed by the rendered kept lines. |
| Stacks.DumpLines | src/stacks.c:321-381 | The loop, with its buffer and elision counter, prints exactly the kept lines, each marked when the line before it was elided. |
| Stacks.DumpPass | src/stacks.c:323-381 | One pass keeps the loop invariant. |
| Stacks.ShownAt | src/stacks.c:365-368 | Every line is shown at or before itself, on a printed line. |
| Stacks.ElidedRepeatsShown | src/stacks.c:365-368 | Eliding loses no words: a line that is not printed repeats the printed line it is shown at. |
| Stacks.KeptIffFieldChanged | src/stacks.c:365-374 | A line is printed exactly when it is the first or its hex field differs from the previous line's. |
| Stacks.DumpExample | src/stacks.c:321-381 | Two zero lines and then two equal non-zero lines: the second line of each pair is elided, and only the third line carries the mark. |

## Left out

- `_pcb_get_next_fd` is not part of this model. The free slot it would return is the `nextFd` argument of `Syscalls.Fopen`, with a negative value meaning none is free.
- `VFS_MAX_OPEN_FILES`: the fd table's size is the length of the sequence, below 2^32.
- The `status` out-pointers of `fread`, `fwrite`, `flistdir` and `fseek`: the status is always returned. A NULL status pointer, which the C skips, is not modelled.
- The driver's `close` callback: its status is dropped and it has no effect the VFS can see. A driver's own state is not modelled.
- The `flags` arguments of `fopen`, `fread` and `fwrite` are not modelled; the C only passes them on.
- `iterate_shared` has three arities in the source. `Syscalls.Driver` uses the one `flistdir` calls (a status, and the count stored through `num_written`). `TestFs.Iterate` returns what testfs returns, the count or E_NO_DATA, and `Listing` composes the two.
- TESTFS_SAY_HI has no value in the shown headers. It is a parameter of `TestFs.Ioctl`.
- `_que_insert` and the superblock's inode queue are a sequence in list order (`Mount`'s `queue`).
- `_vfs_dirent_lookup_child` is not part of this model. It is taken to return the first child whose name compares equal.
- `fgetcwd`, `fcreate` and `fdelete`: the first needs `_vfs_dirent_to_pathname`, which is not part of this model. The other two only return E_NOT_SUPPORTED.
- `fioctl` passes the driver's answer through and is modelled as exactly that.
- Reads past the end of a byte sequence: the C reads without bounds checks, and the model treats such a read as a failed parse (VgaText, Aml, Acpi).
- VGA_TEXT_COLOR_WHITE and VGA_TEXT_COLOR_LIGHTEN are not defined in the shown headers. They are taken to be 7 and 8.
- VGA hardware, the blink and colour-test code, the hardware cursor (`__c_setcursor`), the video memory layout and the console side of the `__cio_printf` family are not modelled. The screen is a grid of 16-bit cell values. The text the stack dump formats with `%08x`, `%c` and `%s` is modelled in Stacks.Render.
- Stacks.Render: `__cvthex` (src/io/cio.c:428), which formats `%08x`, is not part of this model. The address is taken to print as eight zero-padded lower-case hex digits, and `%c` and `%s` to copy their argument.
- The keyboard ISR is modelled as sequential calls to `Keyboard.InputScanCode`. Interrupts and port I/O are not modelled. The arrow-key flag of the ISR is not modelled.
- `__cio_getchar` waits for a keystroke on an empty ring. The model returns None there, and `Keyboard.Gets` reports that it would block.
- EOT is taken to be 4; its definition is not part of this model.
- `__bound` is not part of this model. It is taken to clamp its value into `[min, max]`.
- The message `__cio_init` prints and its notification function pointer are not modelled.
- Aml.SkipPkgLength: the PkgLength value the C computes is not modelled, because the C never uses it.
- Aml.NamePath: like the C, it skips only one ParentPrefixChar, where section 20.2.2 of ACPI 6.5 allows a run of them.
- VgaText.BgAttr: the background reset gives black, as src/io/vgatext.c:244 sets it and as the default attribute 0x0700 has it. The parser's comment at src/io/vgatext.c:114 calls it equivalent to 47, light gray. The model follows the code, and VgaText.ResetColors states the difference.
- The AML NameSeg character checks only print warnings and are not modelled. The NULL-pointer checks of the AML parsers are not modelled either, since sequences are never NULL.
- `_acpi_aml_find_value` is given the DefPackage parser as a parameter, so the as-written and intended package parsers can both be plugged in.
- `procs.h` is not part of this model. `Unused` is taken as the zero state, the scheduler's later states are one `Later` case, and a failing `assert` is the `AssertFails` outcome.
- The page and slice allocators are not part of this model: a slab is named by the order in which the cache obtained it. The page size is taken to be 4096 bytes and the slice size 1024.
- The stack and slab free lists keep their link word inside the released stack or element. The model keeps each list as a sequence, and it forgets the contents of what is released rather than modelling that word.
- Stacks.Window: a window that would start before the stack gives None.
- Stacks.StkAlloc: the stack length is the length of the sequence; STACK_WORDS is a constant.
- `_stk_init` and the static-stacks variant of `_stk_alloc`/`_stk_dealloc` are not modelled.
- Slab.Deinit: the C reads each slab's next link after freeing that slab, which the model does not reproduce (it releases the slabs in list order).
- Keyboard.InputScanCode: its own contract only keeps the ring well formed. Its behaviour is stated by ModifierKeys, ReleaseIgnored, PressQueues and NoUndefinedQueued.
- Console.Putchar: its own contract only keeps the cursor and region well formed. Its behaviour is stated by PutcharWrites, PutcharNewline and PutcharScrollsFirst, and a carriage return is not stated separately.
- Syscalls.OpenInode: on failure the kfile cache may differ, because the C frees the handle it allocated. The free list is stated only through the invariant.
- Syscalls.FopenKeepsWf: the exclusivity invariant is proved over one process's fd table. In the kernel, `i_nr_readers` and `i_has_writer` count the handles of every process, and handles held by other processes are not modelled. The same limit applies to FcloseKeepsWf, TransferKeepsWf, FseekKeepsWf, FchdirKeepsWf, CommitAccounts and CloseAccounts.
- Syscalls.CommitAccounts: the inode's counts are matched against this process's handles only, as for FopenKeepsWf.
- TestFs.MountedInode: mount is modelled as the first mount. The reader and writer counts are the zeros the static fixture starts with. `testfs_mount` does not write them, so a re-mount while handles are open keeps the old counts, which the model does not.
- TestFs.MountedVfs: the root dirent being its own parent is an assumption. `testfs_mount` sets only the root's name and inode, and the shown `struct dirent` has no parent field. The path walk's ".." handling relies on it (src/vfs/namey.c:39-43).
- TestFs.Iterate: the E_NO_DATA it returns as an `int` is kept as a status; its numeric value is not shown.
- Codes.StatusToSysRet: E_SUCCESS is taken to equal S_OK; neither E_ value is defined in the shown headers. E_NO_DATA, E_NO_CHILDREN and E_NOT_FOUND, which testfs returns as `status_t`, and E_BAD_PARAM, which `resolve_path` returns as `status_t` for an empty path (Namey.ResolvePath, Syscalls.FchdirEmptyPath), are taken to differ from every S_ status, S_NOTFOUND included. TestFs.LookupAnswers and TestFs.NoNegativeEntries depend on this.
- Listing.StatusOfReturn: a positive `status_t` is taken to be none of the S_ statuses with a syscall code of their own. The S_ values shown are 0 and negative, and the others are not shown.

## Findings

| source | as written | input that shows it | evidently intended | confidence | as-written member | corrected member |
|---|---|---|---|---|---|---|
| src/util/slab_cache.c:127-132 | The size bound uses `SLAB_SIZE(cache)` before `cache->flags` is assigned, so it takes the slab size from the cache's previous flags. | `slab_init` of a zero-filled cache with element size 1024 and SC_INIT_LARGE_SLABS is refused, although a 4096-byte slab holds three such elements. Re-initialising a large-slab cache with small slabs accepts 1000-byte elements, and the resulting slabs hold no element. | Check against the slab size of the flags being installed. | not executed; high | Slab.InitAsWrittenChecksPriorFlags | Slab.InitConfigures |
| src/kern/syscalls.c:1164-1169 | The O_READ check stores E_BAD_ACTION but does not return. The directory is iterated anyway, and the iteration's status overwrites the stored value. | A directory handle opened with O_WRITE only, on a driver whose iteration succeeds: it is listed with E_SUCCESS. | Return E_BAD_ACTION without iterating. | not executed; high | Syscalls.FlistdirAsWrittenIgnoresMode | Syscalls.Flistdir |
| src/io/vgatext.c:159-184 | After a foreground '0' a second digit is always required, because `fgcolor` is never 0. That digit is added to 37. | "[0;0m", which the comment documents, is refused. "[0;04m" gives a red background. | '0' stands alone as the foreground reset. | not executed; high | VgaText.ParseAsWrittenFgReset | VgaText.ParseEncode |
| src/io/vgatext.c:199-233 | After a background '0', the next byte is consumed unread before the 'm' is checked. | "[0;31;0m" is refused, while "[0;31;0xm" is accepted. | '0' stands alone as the background reset. | not executed; high | VgaText.ParseAsWrittenBgReset | VgaText.ParseOnlyEncodings |
| src/io/cio.c:611-613 | The table entry, an `unsigned char` (0-255), is compared with '\377', which is -1 when plain `char` is signed, so the test never rejects anything. | Pressing Caps Lock (0x3A, an undefined entry) queues 0xFF and returns 255. | Undefined keys are ignored, as the comment says. | not executed; medium (depends on `char` being signed) | Keyboard.UndefinedKeyQueuedAsWritten | Keyboard.NoUndefinedQueued |
| src/acpi/tables/rsdp.c:17-27 | The loop compares `sizeof(expected_signature)` bytes, which is the size of a `char *` (4 on this target), so only "RSD " is checked. | A revision 0 structure signed "RSD XXXX" with a correct checksum is accepted. | Compare all eight bytes of "RSD PTR ". | not executed; high | Acpi.ShortSignatureAccepted | Acpi.ValidateRsdpStricter |
| src/kern/syscalls.c:1171-1179 | `flistdir` calls `iterate_shared` with a `num_written` pointer and reads its return value as a status. `testfs_iterate_shared` takes no such pointer and returns the number of entries it wrote. | Listing a readable testfs directory with two children into a ten-entry buffer returns 0 entries and E_FAILURE, although two names were written. | `flistdir` returns the number of entries written, with E_SUCCESS: the driver reports S_OK and stores the count through the `num_written` pointer that src/vfs/vfs.h:130 declares. | not executed; high | Listing.ListedAsWritten | Listing.ListedAsIntended |
| src/acpi/aml.c:50-55 | One BytePrefix is skipped, and then NumElements raw bytes are copied, so every element after the first contributes its own prefix byte. | `Package() {5, 5}` (12 06 02 0A 05 0A 05) comes out as 5, 0x0A. | Read each element as its own data object. | not executed; high | Aml.PackageAsWrittenKeepsPrefixes | Aml.PackageEncode |

=== FILE: acpi.dfy ===
/** The ACPI byte validators: the 8-bit checksum (src/acpi/checksum.c), the
    system description table header check (src/acpi/tables/sdt.c) and the
    Root System Description Pointer check (src/acpi/tables/rsdp.c). A table
    is the sequence of bytes readable from its first byte on; a read past
    the end of that sequence fails the check. */
module Acpi {
  import opened Base

  // ---------------------------------------------------------------------------
  // The checksum

  /** The arithmetic sum of some bytes. */
  function Sum(s: seq<byte>): nat {
    if |s| == 0 then 0 else s[0] + Sum(s[1..])
  }

  /** The `uint8_t checksum` the loop of `_acpi_checksum_valid` keeps: each
      byte added in turn, wrapping at 256. */
  function Running(s: seq<byte>): byte {
    if |s| == 0 then 0 else (Running(s[..|s| - 1]) + s[|s| - 1]) % 256
  }

  lemma {:induction false} SumSnoc(s: seq<byte>)
    requires |s| > 0
    ensures Sum(s) == Sum(s[..|s| - 1]) + s[|s| - 1]
  {
    if |s| > 1 {
      assert s[1..][..|s| - 2] == s[..|s| - 1][1..];
      SumSnoc(s[1..]);
    }
  }

  /** The wrapping running sum is the sum modulo 256. */
  lemma {:induction false} RunningIsSum(s: seq<byte>)
    ensures Running(s) == Sum(s) % 256
  {
    if |s| > 0 {
      var t := s[..|s| - 1];
      RunningIsSum(t);
      SumSnoc(s);
      ModAdd(Sum(t), s[|s| - 1]);
    }
  }

  lemma ModAdd(a: nat, b: nat)
    ensures (a % 256 + b) % 256 == (a + b) % 256
  {
    DivModUnique(a + b, 256, a / 256 + (a % 256 + b) / 256, (a % 256 + b) % 256);
  }

  /** `_acpi_checksum_valid(ptr, start, length)`: the bytes from `start` up
      to (not including) `length` sum to 0 modulo 256. `length` is an end
      index, so an empty range is valid; a NULL pointer is not. */
  function ChecksumValid(ptr: Option<seq<byte>>, start: u32, length: u32): (ok: bool)
    ensures ok <==> ptr.Some? && (start >= length || (length <= |ptr.value| && Sum(ptr.value[start..length]) % 256 == 0))
  {
    if ptr.None? then false
    else if start >= length then true
    else if length > |ptr.value| then false
    else
      RunningIsSum(ptr.value[start..length]);
      Running(ptr.value[start..length]) == 0
  }

  /** Changing one byte changes the sum by the difference. */
  lemma {:induction false} SumUpdate(s: seq<byte>, k: nat, v: byte)
    requires k < |s|
    ensures Sum(s[k := v]) + s[k] == Sum(s) + v
  {
    if k > 0 {
      assert s[k := v][1..] == s[1..][k - 1 := v];
      SumUpdate(s[1..], k - 1, v);
    }
  }

  /** The checksum byte at `k`: the value that makes the bytes sum to 0. */
  function FixByte(s: seq<byte>, k: nat): byte
    requires k < |s|
  {
    (256 - (Sum(s) - s[k]) % 256) % 256
  }

  /** Every table has exactly one checksum byte value that makes it valid,
      whatever the byte held before. */
  lemma FixByteValid(s: seq<byte>, k: nat, v: byte)
    requires k < |s|
    ensures Sum(s[k := FixByte(s, k)]) % 256 == 0
    ensures Sum(s[k := v]) % 256 == 0 ==> v == FixByte(s, k)
  {
    SumUpdate(s, k, FixByte(s, k));
    SumUpdate(s, k, v);
  }

  // ---------------------------------------------------------------------------
  // System description table header

  /** A little-endian `uint32_t` at `i`. */
  function Le32(s: seq<byte>, i: nat): u32
    requires i + 4 <= |s|
  {
    var b0: int, b1: int, b2: int, b3: int := s[i], s[i + 1], s[i + 2], s[i + 3];
    b0 + 0x100 * b1 + 0x1_0000 * b2 + 0x100_0000 * b3
  }

  /** The offset of `length` in `struct acpi_sdt_header`, and of `checksum`. */
  const SDT_LENGTH_OFFSET: nat := 4
  const SDT_CHECKSUM_OFFSET: nat := 9

  /** `_acpi_validate_sdt`: the header's own `length` field says how many
      bytes the checksum covers. Signature, revision and OEM fields are not
      looked at. */
  function ValidateSdt(header: Option<seq<byte>>): (ok: bool)
    ensures ok <==> header.Some? && |header.value| >= 8 &&
                    var len := Le32(header.value, SDT_LENGTH_OFFSET);
                    len <= |header.value| && Sum(header.value[..len]) % 256 == 0
  {
    if header.None? || |header.value| < SDT_LENGTH_OFFSET + 4 then false
    else ChecksumValid(header, 0, Le32(header.value, SDT_LENGTH_OFFSET))
  }

  /** A table whose length covers its checksum byte can always be made
      valid by that byte alone: the length and checksum fields lie inside
      the range they describe. */
  lemma SdtChecksumFixes(h: seq<byte>)
    requires |h| >= 10 && 10 <= Le32(h, SDT_LENGTH_OFFSET) <= |h|
    ensures ValidateSdt(Some(h[SDT_CHECKSUM_OFFSET := FixByte(h[..Le32(h, SDT_LENGTH_OFFSET)], SDT_CHECKSUM_OFFSET)]))
  {
    var len := Le32(h, SDT_LENGTH_OFFSET);
    var v := FixByte(h[..len], SDT_CHECKSUM_OFFSET);
    var g := h[SDT_CHECKSUM_OFFSET := v];
    assert g[..len] == h[..len][SDT_CHECKSUM_OFFSET := v];
    assert Le32(g, SDT_LENGTH_OFFSET) == len;
    FixByteValid(h[..len], SDT_CHECKSUM_OFFSET, v);
  }

  /** Only the covered bytes matter: two headers that agree on them get the
      same verdict, whatever follows. */
  lemma SdtCoveredOnly(h: seq<byte>, g: seq<byte>)
    requires |h| >= 8 && |g| >= 8 && h[..8] == g[..8]
    requires Le32(h, SDT_LENGTH_OFFSET) <= |h| && Le32(h, SDT_LENGTH_OFFSET) <= |g|
    requires h[..Le32(h, SDT_LENGTH_OFFSET)] == g[..Le32(h, SDT_LENGTH_OFFSET)]
    ensures ValidateSdt(Some(h)) == ValidateSdt(Some(g))
  {
    assert h[4..8] == g[4..8];
    assert Le32(h, SDT_LENGTH_OFFSET) == Le32(g, SDT_LENGTH_OFFSET);
  }

  // ---------------------------------------------------------------------------
  // Root System Description Pointer

  /** ACPI_RSDP_SIGNATURE. */
  const RSDP_SIGNATURE: seq<byte> := [0x52, 0x53, 0x44, 0x20, 0x50, 0x54, 0x52, 0x20]

  /** The size of the ACPI 1.0 part of `struct acpi_rsdp` and of the whole
      packed structure (section 5.2.5.3 of ACPI 6.5). */
  const RSDP_V1_SIZE: u32 := 20
  const RSDP_SIZE: u32 := 36

  /** The offset of `revision`. */
  const RSDP_REVISION_OFFSET: nat := 15

  /** The bytes the signature loop compares: `sizeof(expected_signature)`,
      the size of a `char *`, which is 4 on this target. */
  const POINTER_SIZE: nat := 4

  /** `_acpi_validate_rsdp` comparing the first `n` signature bytes. */
  function ValidateRsdpComparing(rsdp: seq<byte>, n: nat): (ok: bool)
    requires n <= |RSDP_SIGNATURE|
    ensures ok <==> n <= |rsdp| && rsdp[..n] == RSDP_SIGNATURE[..n] &&
                    |rsdp| >= 20 && Sum(rsdp[..20]) % 256 == 0 &&
                    rsdp[RSDP_REVISION_OFFSET] != 1 &&
                    (rsdp[RSDP_REVISION_OFFSET] >= 2 ==> |rsdp| >= 36 && Sum(rsdp[..36]) % 256 == 0)
  {
    if |rsdp| < n || rsdp[..n] != RSDP_SIGNATURE[..n] then false
    else if !ChecksumValid(Some(rsdp), 0, RSDP_V1_SIZE) then false
    else if rsdp[RSDP_REVISION_OFFSET] >= 2 && !ChecksumValid(Some(rsdp), 0, RSDP_SIZE) then false
    else rsdp[RSDP_REVISION_OFFSET] != 1
  }

  /** `_acpi_validate_rsdp` as written: only "RSD " is compared. */
  function ValidateRsdpAsWritten(rsdp: seq<byte>): (ok: bool)
    ensures ok ==> |rsdp| >= 4 && rsdp[..4] == [0x52, 0x53, 0x44, 0x20]
  {
    ValidateRsdpComparing(rsdp, POINTER_SIZE)
  }

  /** `_acpi_validate_rsdp` as evidently intended: the whole eight-byte
      signature "RSD PTR " is compared. */
  function ValidateRsdp(rsdp: seq<byte>): (ok: bool)
    ensures ok ==> |rsdp| >= 8 && rsdp[..8] == RSDP_SIGNATURE
  {
    ValidateRsdpComparing(rsdp, |RSDP_SIGNATURE|)
  }

  /** Revision 1 is refused even when both checksums hold. */
  lemma RevisionOneRefused(rsdp: seq<byte>)
    requires |rsdp| >= 36 && rsdp[RSDP_REVISION_OFFSET] == 1
    ensures !ValidateRsdp(rsdp) && !ValidateRsdpAsWritten(rsdp)
  {
  }

  /** Revision 0 is accepted on the 20-byte checksum alone: bytes 20-35 are
      never read, and need not even be there. */
  lemma RevisionZeroIgnoresExtension(rsdp: seq<byte>, other: seq<byte>)
    requires |rsdp| >= 20 && |other| >= 20 && rsdp[..20] == other[..20]
    requires rsdp[RSDP_REVISION_OFFSET] == 0
    ensures ValidateRsdp(rsdp) == ValidateRsdp(other)
  {
    assert rsdp[..8] == rsdp[..20][..8] && other[..8] == other[..20][..8];
    assert other[RSDP_REVISION_OFFSET] == other[..20][RSDP_REVISION_OFFSET];
  }

  /** As written, "RSD " followed by anything passes the signature check: a
      revision 0 structure signed "RSD XXXX" with a correct checksum is
      accepted, where the full comparison refuses it. */
  lemma ShortSignatureAccepted()
    ensures var s := [0x52, 0x53, 0x44, 0x20, 0x58, 0x58, 0x58, 0x58] + Zeros(12);
            var rsdp := s[8 := FixByte(s, 8)];
            ValidateRsdpAsWritten(rsdp) && !ValidateRsdp(rsdp)
  {
    var s := [0x52, 0x53, 0x44, 0x20, 0x58, 0x58, 0x58, 0x58] + Zeros(12);
    var rsdp := s[8 := FixByte(s, 8)];
    FixByteValid(s, 8, FixByte(s, 8));
    assert rsdp[..20] == rsdp;
    assert rsdp[..4] == RSDP_SIGNATURE[..4];
    assert rsdp[4] != RSDP_SIGNATURE[4];
  }

  /** The intended check only ever accepts what the check as written
      accepts. */
  lemma ValidateRsdpStricter(rsdp: seq<byte>)
    ensures ValidateRsdp(rsdp) ==> ValidateRsdpAsWritten(rsdp)
  {
    if ValidateRsdp(rsdp) {
      assert rsdp[..4] == rsdp[..8][..4];
    }
  }
}

=== FILE: aml.dfy ===
/** The AML scanner of src/acpi/aml.c: a search of a definition block for
    `Name(KEY, Package(...))` (DefName, section 20.2.5.1 of ACPI 6.5, with
    the NameString of section 20.2.2, the PkgLength of section 20.2.4 and
    the DefPackage of section 20.2.5.4).

    The block is the sequence of bytes readable from its start; the C reads
    without bounds checks, and here a read past the end of that sequence
    fails the step that makes it. What the parser stores through `output`
    is returned: None when nothing is stored. */
module Aml {
  import opened Base

  const NAME_OP: byte := 0x08
  const PACKAGE_OP: byte := 0x12
  const BYTE_PREFIX: byte := 0x0A
  const ZERO_OP: byte := 0x00
  const ONE_OP: byte := 0x01
  const ONES_OP: byte := 0xFF
  const ROOT_CHAR: byte := 0x5C
  const PARENT_PREFIX_CHAR: byte := 0x5E
  const DUAL_NAME_PREFIX: byte := 0x2E
  const MULTI_NAME_PREFIX: byte := 0x2F
  const NULL_NAME: byte := 0x00

  /** A package parser: the bytes stored through `output` for the package
      at an index, if any. */
  type PackageParser = (seq<byte>, nat) -> Option<seq<byte>>

  /** The PkgLength at `i`: bits 7-6 of the lead byte count the bytes that
      follow it. The index after the encoding. (The length value the C
      computes from these bytes is never used.) */
  function SkipPkgLength(aml: seq<byte>, i: nat): (r: Option<nat>)
    ensures r.Some? ==> i < |aml| && r.value == i + 1 + aml[i] / 64 <= |aml|
  {
    if i >= |aml| then None
    else
      var next := i + 1 + aml[i] / 64;
      if next > |aml| then None else Some(next)
  }

  /** A PkgLength whose lead byte announces, in bits 7-6, the number of
      bytes that follow it is skipped whole, whatever surrounds it. */
  lemma SkipPkgLengthEncoding(pre: seq<byte>, lead: byte, follow: seq<byte>, rest: seq<byte>)
    requires lead / 64 == |follow|
    ensures SkipPkgLength(pre + [lead] + follow + rest, |pre|) == Some(|pre| + 1 + |follow|)
  {
    var aml := pre + [lead] + follow + rest;
    assert aml[|pre|] == lead;
  }

  /** `_acpi_aml_parse_datarefobject` as written: only DefPackage is
      handled; after PkgLength and NumElements one byte is expected to be
      BytePrefix (any other value only draws a warning), and then
      NumElements raw bytes are stored. It always returns false. */
  function PackageAsWritten(aml: seq<byte>, i: nat): (r: Option<seq<byte>>)
    ensures r.Some? ==> i < |aml| && aml[i] == PACKAGE_OP
  {
    if i >= |aml| || aml[i] != PACKAGE_OP then None
    else match SkipPkgLength(aml, i + 1)
      case None => None
      case Some(j) =>
        if j + 2 > |aml| then None
        else
          var n := aml[j];
          if j + 2 + n > |aml| then None else Some(aml[j + 2..j + 2 + n])
  }

  /** One package element holding a byte: a ByteConst (BytePrefix and the
      byte) or one of the constants Zero, One and Ones. The byte and the
      index after the element. */
  function ByteElement(aml: seq<byte>, i: nat): (r: Option<(byte, nat)>)
    ensures r.Some? ==> i < r.value.1 <= |aml|
  {
    if i >= |aml| then None
    else if aml[i] == BYTE_PREFIX then (if i + 1 < |aml| then Some((aml[i + 1], i + 2)) else None)
    else if aml[i] == ZERO_OP then Some((0, i + 1))
    else if aml[i] == ONE_OP then Some((1, i + 1))
    else if aml[i] == ONES_OP then Some((0xFF, i + 1))
    else None
  }

  /** `n` byte elements from `i` on. */
  function ByteElements(aml: seq<byte>, i: nat, n: nat): (r: Option<seq<byte>>)
    ensures r.Some? ==> |r.value| == n
    decreases n
  {
    if n == 0 then Some([])
    else match ByteElement(aml, i)
      case None => None
      case Some((b, j)) =>
        match ByteElements(aml, j, n - 1)
        case None => None
        case Some(bs) => Some([b] + bs)
  }

  /** The package parser as evidently intended: each of the NumElements
      elements is a byte data object with its own encoding. */
  function Package(aml: seq<byte>, i: nat): (r: Option<seq<byte>>)
    ensures r.Some? ==> i < |aml| && aml[i] == PACKAGE_OP
  {
    if i >= |aml| || aml[i] != PACKAGE_OP then None
    else match SkipPkgLength(aml, i + 1)
      case None => None
      case Some(j) =>
        if j >= |aml| then None else ByteElements(aml, j + 1, aml[j])
  }

  /** The encoding of a byte as a ByteConst. */
  function EncodeByteElements(bs: seq<byte>): (e: seq<byte>)
    ensures |e| == 2 * |bs|
  {
    if |bs| == 0 then [] else [BYTE_PREFIX, bs[0]] + EncodeByteElements(bs[1..])
  }

  /** `Package() {b0, b1, ...}` with each byte a ByteConst, PkgLength in one
      byte (it counts itself, NumElements and the elements). */
  function EncodePackage(bs: seq<byte>): (e: seq<byte>)
    requires |bs| < 31
  {
    [PACKAGE_OP, 2 + 2 * |bs|, |bs|] + EncodeByteElements(bs)
  }

  lemma {:induction false} ByteElementsEncode(bs: seq<byte>, pre: seq<byte>, rest: seq<byte>)
    ensures ByteElements(pre + EncodeByteElements(bs) + rest, |pre|, |bs|) == Some(bs)
    decreases |bs|
  {
    if |bs| > 0 {
      var aml := pre + EncodeByteElements(bs) + rest;
      var pre' := pre + [BYTE_PREFIX, bs[0]];
      assert aml == pre' + EncodeByteElements(bs[1..]) + rest;
      assert aml[|pre|] == BYTE_PREFIX && aml[|pre| + 1] == bs[0];
      ByteElementsEncode(bs[1..], pre', rest);
      assert [bs[0]] + bs[1..] == bs;
    }
  }

  /** The intended parser reads back every package of bytes, whatever
      precedes or follows it. */
  lemma PackageEncode(bs: seq<byte>, pre: seq<byte>, rest: seq<byte>)
    requires |bs| < 31
    ensures Package(pre + EncodePackage(bs) + rest, |pre|) == Some(bs)
  {
    var aml := pre + EncodePackage(bs) + rest;
    var pre' := pre + [PACKAGE_OP, 2 + 2 * |bs|, |bs|];
    assert aml == pre' + EncodeByteElements(bs) + rest;
    assert aml[|pre|] == PACKAGE_OP && aml[|pre| + 1] == 2 + 2 * |bs| && aml[|pre| + 2] == |bs|;
    ByteElementsEncode(bs, pre', rest);
  }

  /** As written, the BytePrefix of every element after the first is
      stored as data: `Package() {5, 5}` comes out as 5, 0x0A. */
  lemma PackageAsWrittenKeepsPrefixes()
    ensures EncodePackage([5, 5]) == [PACKAGE_OP, 6, 2, BYTE_PREFIX, 5, BYTE_PREFIX, 5]
    ensures PackageAsWritten(EncodePackage([5, 5]), 0) == Some([5, BYTE_PREFIX])
    ensures Package(EncodePackage([5, 5]), 0) == Some([5, 5])
  {
    var e := EncodePackage([5, 5]);
    assert e[4..6] == [5, BYTE_PREFIX];
    PackageEncode([5, 5], [], []);
    assert [] + e + [] == e;
  }

  // ---------------------------------------------------------------------------
  // NameString

  /** A C string: the bytes before the first NUL. */
  function CString(s: seq<byte>): (r: seq<byte>)
    ensures |r| <= |s| && r == s[..|r|] && 0 !in r
    ensures |r| < |s| ==> s[|r|] == 0
  {
    if |s| == 0 || s[0] == 0 then [] else [s[0]] + CString(s[1..])
  }

  /** The `s`-th four-byte NameSeg from `k` on. */
  function Seg(aml: seq<byte>, k: nat, s: nat): seq<byte>
    requires k + 4 * s + 4 <= |aml|
  {
    aml[k + 4 * s..k + 4 * s + 4]
  }

  /** Whether one of the `n` NameSegs from `k` on, read as a C string,
      equals the key. */
  function AnySegMatches(aml: seq<byte>, k: nat, n: nat, key: seq<byte>): bool
    requires k + 4 * n <= |aml|
    decreases n
  {
    n > 0 && (CString(Seg(aml, k, 0)) == CString(key) || AnySegMatches(aml, k + 4, n - 1, key))
  }

  /** A match names the NameSeg that matched. */
  lemma {:induction false} AnySegMatchesWitness(aml: seq<byte>, k: nat, n: nat, key: seq<byte>) returns (s: nat)
    requires k + 4 * n <= |aml| && AnySegMatches(aml, k, n, key)
    ensures s < n && CString(Seg(aml, k, s)) == CString(key)
    decreases n
  {
    if CString(Seg(aml, k, 0)) == CString(key) {
      s := 0;
    } else {
      var t := AnySegMatchesWitness(aml, k + 4, n - 1, key);
      assert Seg(aml, k + 4, t) == Seg(aml, k, t + 1);
      s := t + 1;
    }
  }

  /** Any NameSeg equal to the key makes a match. */
  lemma {:induction false} SegMatchesAny(aml: seq<byte>, k: nat, n: nat, key: seq<byte>, s: nat)
    requires k + 4 * n <= |aml| && s < n && CString(Seg(aml, k, s)) == CString(key)
    ensures AnySegMatches(aml, k, n, key)
    decreases n
  {
    if s > 0 {
      assert Seg(aml, k + 4, s - 1) == Seg(aml, k, s);
      SegMatchesAny(aml, k + 4, n - 1, key, s - 1);
    }
  }

  lemma AnySegMatchesExists(aml: seq<byte>, k: nat, n: nat, key: seq<byte>)
    requires k + 4 * n <= |aml|
    ensures AnySegMatches(aml, k, n, key) <==> exists s :: 0 <= s < n && CString(Seg(aml, k, s)) == CString(key)
  {
    if AnySegMatches(aml, k, n, key) {
      var s := AnySegMatchesWitness(aml, k, n, key);
    }
    if exists s :: 0 <= s < n && CString(Seg(aml, k, s)) == CString(key) {
      var s :| 0 <= s < n && CString(Seg(aml, k, s)) == CString(key);
      SegMatchesAny(aml, k, n, key, s);
    }
  }

  /** The outcome of the name part of a DefName: no match; a NullName,
      which the key matches when it is empty; or a NameSeg equal to the
      key, with the index of the data object after the last NameSeg. */
  datatype NameMatch = NoMatch | NullMatch | Match(data: nat)

  /** The NameString after `i`: at most one RootChar or ParentPrefixChar
      is skipped; DualNamePrefix means two NameSegs, MultiNamePrefix a
      SegCount byte, NullName none, and anything else one NameSeg. The
      index of the NamePath, the number of NameSegs and where they start;
      None for NullName. */
  function NamePath(aml: seq<byte>, i: nat): (r: Option<Option<(nat, nat)>>)
    ensures r.Some? && r.value.Some? ==> var p := r.value.value; i <= p.1 <= i + 3
  {
    if i >= |aml| then None
    else
      var j := if aml[i] == ROOT_CHAR || aml[i] == PARENT_PREFIX_CHAR then i + 1 else i;
      if j >= |aml| then None
      else if aml[j] == DUAL_NAME_PREFIX then Some(Some((2, j + 1)))
      else if aml[j] == MULTI_NAME_PREFIX then (if j + 1 < |aml| then Some(Some((aml[j + 1], j + 2))) else None)
      else if aml[j] == NULL_NAME then Some(None)
      else Some(Some((1, j)))
  }

  /** `_acpi_aml_parse_defname` up to the data object: the name check. */
  function MatchName(aml: seq<byte>, i: nat, key: seq<byte>): (r: NameMatch)
    ensures r.Match? ==> i < |aml| && aml[i] == NAME_OP && i < r.data <= |aml|
    ensures r.Match? ==> var p := NamePath(aml, i + 1);
                         p.Some? && p.value.Some? && r.data == p.value.value.1 + 4 * p.value.value.0
    ensures r.NullMatch? ==> i < |aml| && aml[i] == NAME_OP && CString(key) == []
    ensures i < |aml| && aml[i] == NAME_OP && NamePath(aml, i + 1) == Some(None) ==>
              (r.NullMatch? <==> CString(key) == [])
  {
    if i >= |aml| || aml[i] != NAME_OP then NoMatch
    else match NamePath(aml, i + 1)
      case None => NoMatch
      case Some(None) => if CString(key) == [] then NullMatch else NoMatch
      case Some(Some((n, k))) =>
        if k + 4 * n > |aml| || !AnySegMatches(aml, k, n, key) then NoMatch
        else Match(k + 4 * n)
  }

  /** A byte that may open a NameString as a RootChar or a
      ParentPrefixChar. */
  predicate PathPrefix(b: byte) {
    b == ROOT_CHAR || b == PARENT_PREFIX_CHAR
  }

  /** A byte after the prefix that names none of the other NamePath forms,
      so it is the first byte of a lone NameSeg. */
  predicate SegLead(b: byte) {
    b != DUAL_NAME_PREFIX && b != MULTI_NAME_PREFIX && b != NULL_NAME
  }

  /** Every NameString form, from its bytes: one optional prefix byte, then
      a DualNamePath (two NameSegs after the prefix byte), a MultiNamePath
      (SegCount NameSegs after the count byte), a NullName, or a single
      NameSeg. A second prefix byte is not skipped: it is read as the start
      of a NameSeg. */
  lemma NamePathEncoding(pre: seq<byte>, prefix: seq<byte>, rest: seq<byte>)
    requires |prefix| <= 1 && (|prefix| == 1 ==> PathPrefix(prefix[0]))
    requires |rest| >= 1
    ensures var aml := pre + prefix + rest;
            var j := |pre| + |prefix|;
            && (rest[0] == DUAL_NAME_PREFIX ==> NamePath(aml, |pre|) == Some(Some((2, j + 1))))
            && (rest[0] == MULTI_NAME_PREFIX && |rest| >= 2 ==> NamePath(aml, |pre|) == Some(Some((rest[1] as nat, j + 2))))
            && (rest[0] == MULTI_NAME_PREFIX && |rest| == 1 ==> NamePath(aml, |pre|).None?)
            && (rest[0] == NULL_NAME ==> NamePath(aml, |pre|) == Some(None))
            && (SegLead(rest[0]) && (|prefix| == 1 || !PathPrefix(rest[0])) ==>
                  NamePath(aml, |pre|) == Some(Some((1, j))))
  {
    var aml := pre + prefix + rest;
    var j := |pre| + |prefix|;
    assert aml[j] == rest[0];
    if |rest| >= 2 {
      assert aml[j + 1] == rest[1];
    }
    if |prefix| == 1 {
      assert aml[|pre|] == prefix[0];
    }
  }

  /** Over a NullName the key matches exactly when it is empty, whatever
      prefix byte comes before. */
  lemma NullNameMatchesEmptyKey(pre: seq<byte>, prefix: seq<byte>, rest: seq<byte>, key: seq<byte>)
    requires |prefix| <= 1 && (|prefix| == 1 ==> PathPrefix(prefix[0]))
    requires |rest| >= 1 && rest[0] == NULL_NAME
    ensures MatchName(pre + [NAME_OP] + prefix + rest, |pre|, key)
            == (if CString(key) == [] then NullMatch else NoMatch)
  {
    var aml := pre + [NAME_OP] + prefix + rest;
    assert aml == (pre + [NAME_OP]) + prefix + rest;
    NamePathEncoding(pre + [NAME_OP], prefix, rest);
    assert aml[|pre|] == NAME_OP;
  }

  /** Over NameSegs that lie inside the block, the name matches exactly
      when one of them equals the key, and the data object follows the
      last NameSeg. */
  lemma MatchNameSegs(aml: seq<byte>, i: nat, key: seq<byte>, n: nat, k: nat)
    requires i < |aml| && aml[i] == NAME_OP
    requires NamePath(aml, i + 1) == Some(Some((n, k))) && k + 4 * n <= |aml|
    ensures MatchName(aml, i, key).Match? <==> exists s :: 0 <= s < n && CString(Seg(aml, k, s)) == CString(key)
    ensures MatchName(aml, i, key) != NullMatch
    ensures MatchName(aml, i, key).Match? ==> MatchName(aml, i, key).data == k + 4 * n
  {
    AnySegMatchesExists(aml, k, n, key);
  }

  /** `_acpi_aml_parse_defname`: whether it returns true, and what the
      package parser stored. The data object is parsed only after a
      matching NameSeg, and its outcome does not change the result. */
  function ParseDefName(aml: seq<byte>, i: nat, key: seq<byte>, pkg: PackageParser): (r: (bool, Option<seq<byte>>))
    ensures r.0 <==> !MatchName(aml, i, key).NoMatch?
    ensures r.1.Some? ==> MatchName(aml, i, key).Match?
    ensures MatchName(aml, i, key).Match? ==> r.1 == pkg(aml, MatchName(aml, i, key).data)
  {
    match MatchName(aml, i, key)
    case NoMatch => (false, None)
    case NullMatch => (true, None)
    case Match(d) => (true, pkg(aml, d))
  }

  /** `_acpi_aml_find_value(start, length, key, output)`: a DefName parse is
      tried at every index below `length` holding NameOp, in order; the
      first that succeeds ends the search. `at` is where it succeeded. */
  method FindValue(aml: seq<byte>, length: u32, key: seq<byte>, pkg: PackageParser)
    returns (found: bool, output: Option<seq<byte>>, ghost at: nat)
    ensures found <==> exists k :: 0 <= k < length && ParseDefName(aml, k, key, pkg).0
    ensures found ==> at < length && ParseDefName(aml, at, key, pkg) == (true, output)
    ensures found ==> forall k :: 0 <= k < at ==> !ParseDefName(aml, k, key, pkg).0
    ensures !found ==> output.None?
  {
    var i: nat := 0;
    while i < length
      invariant i <= length
      invariant forall k :: 0 <= k < i ==> !ParseDefName(aml, k, key, pkg).0
    {
      if i < |aml| && aml[i] == NAME_OP {
        var r := ParseDefName(aml, i, key, pkg);
        if r.0 {
          return true, r.1, i;
        }
      }
      i := i + 1;
    }
    return false, None, 0;
  }

  /** `Name(NAME, Package() {...})` with a single NameSeg. */
  function EncodeDefName(seg: seq<byte>, bs: seq<byte>): (e: seq<byte>)
    requires |seg| == 4 && |bs| < 31
  {
    [NAME_OP] + seg + EncodePackage(bs)
  }

  /** A block that starts with the definition of a name finds its value:
      the search succeeds at once and stores the package's bytes. */
  lemma FindDefinedName(seg: seq<byte>, bs: seq<byte>, rest: seq<byte>, key: seq<byte>)
    requires |seg| == 4 && |bs| < 31
    requires seg[0] != ROOT_CHAR && seg[0] != PARENT_PREFIX_CHAR && seg[0] != DUAL_NAME_PREFIX
    requires seg[0] != MULTI_NAME_PREFIX && seg[0] != NULL_NAME
    requires CString(seg) == CString(key)
    ensures MatchName(EncodeDefName(seg, bs) + rest, 0, key) == Match(5)
    ensures ParseDefName(EncodeDefName(seg, bs) + rest, 0, key, Package) == (true, Some(bs))
  {
    var aml := EncodeDefName(seg, bs) + rest;
    assert aml[1..5] == seg;
    assert aml == [NAME_OP] + seg + EncodePackage(bs) + rest;
    PackageEncode(bs, [NAME_OP] + seg, rest);
  }
}

=== FILE: base.dfy ===
/** Small shared vocabulary: an optional value, bytes, and 32-bit unsigned
    arithmetic as the kernel's C code performs it. */
module Base {

  /** A present-or-absent value; stands in for a possibly-NULL pointer. */
  datatype Option<+T> = None | Some(value: T)

  /** An unsigned 8-bit value. */
  type byte = b: int | 0 <= b < 256

  /** 2^32: the modulus of every `uint32_t` computation. */
  const TWO_32: int := 0x1_0000_0000

  /** An unsigned 32-bit value. */
  type u32 = x: int | 0 <= x < TWO_32

  /** The value a signed C `char` holding the byte `b` has when widened to
      `int` (the target's plain `char` is signed). */
  function SignedChar(b: byte): (r: int)
    ensures -128 <= r < 128
    ensures r % 256 == b
    ensures r == 0 <==> b == 0
  {
    if b < 128 then b else b - 256
  }

  /** `a + b` in `uint32_t`: wraps modulo 2^32. */
  function AddU32(a: int, b: int): (r: u32)
    ensures 0 <= a + b < TWO_32 ==> r == a + b
    ensures (r - (a + b)) % TWO_32 == 0
  {
    (a + b) % TWO_32
  }

  /** `n` zero bytes. */
  function Zeros(n: nat): (z: seq<byte>)
    ensures |z| == n
    ensures forall i :: 0 <= i < n ==> z[i] == 0
  {
    seq(n, _ => 0)
  }

  /** The characters of a string literal as bytes (all literals used here
      are ASCII). */
  function Bytes(s: string): (r: seq<byte>)
    requires forall i :: 0 <= i < |s| ==> s[i] as int < 256
    ensures |r| == |s|
    ensures forall i :: 0 <= i < |s| ==> r[i] == s[i] as int
  {
    seq(|s|, i requires 0 <= i < |s| => s[i] as int)
  }

  /** The elements of `s` in the opposite order. */
  function Reverse<T>(s: seq<T>): (r: seq<T>)
    ensures |r| == |s|
    ensures forall i :: 0 <= i < |s| ==> r[i] == s[|s| - 1 - i]
  {
    if |s| == 0 then [] else Reverse(s[1..]) + [s[0]]
  }

  /** No element occurs twice. */
  predicate Distinct<T(==)>(s: seq<T>) {
    forall i, j :: 0 <= i < j < |s| ==> s[i] != s[j]
  }

  // ---------------------------------------------------------------------------
  // Division facts, proved from the definition of Euclidean division so that
  // callers need no nonlinear reasoning from the solver.

  lemma MulAtLeast(d: int, e: int)
    requires d >= 1 && e > 0
    ensures d * e >= e
    decreases d
  {
    if d > 1 {
      MulAtLeast(d - 1, e);
      assert d * e == (d - 1) * e + e;
    }
  }

  /** Quotient and remainder are determined by `x == q * e + r`, `0 <= r < e`. */
  lemma DivModUnique(x: int, e: int, q: int, r: int)
    requires e > 0 && 0 <= r < e && x == q * e + r
    ensures x / e == q && x % e == r
  {
    var q0 := x / e;
    var r0 := x % e;
    assert x == q0 * e + r0;
    assert (q - q0) * e == r0 - r;
    if q > q0 {
      MulAtLeast(q - q0, e);
      assert false;
    } else if q < q0 {
      MulAtLeast(q0 - q, e);
      assert false;
    }
  }

  /** Taking one divisor off the dividend takes one off the quotient and
      leaves the remainder. */
  lemma DivModStep(x: int, e: int)
    requires 0 < e <= x
    ensures x / e == (x - e) / e + 1
    ensures x % e == (x - e) % e
  {
    var q := (x - e) / e;
    var r := (x - e) % e;
    assert x - e == q * e + r;
    assert x == (q + 1) * e + r;
    DivModUnique(x, e, q + 1, r);
  }
}

=== FILE: codes.dfy ===
/** Kernel status codes (`status_t`, the S_ family) and the syscall return
    codes user space sees (the E_ family). Their numeric values are not part
    of this model, so both are enumerations. */
module Codes {
  import opened Base

  /** Status values passed between kernel components. `NoData`, `NoChildren`
      and `NoSuchChild` are the E_NO_DATA, E_NO_CHILDREN and E_NOT_FOUND codes
      the test filesystem returns as statuses; `Ok` is both S_OK and
      E_SUCCESS (resolve_path compares a driver's E_SUCCESS against S_OK).
      `BadParamCode` is the syscall code E_BAD_PARAM returned as a status,
      as resolve_path does for an empty path; like the test filesystem's
      codes it is taken to differ from every S_ value.
      `Unnamed` is a `status_t` value that is none of these: a positive
      number, as the S_ values shown are 0 and negative. */
  datatype Status =
    | Ok
    | NotSupp
    | BadParam
    | BadAction
    | Eof
    | NoMem
    | TooSmall
    | NotFound
    | NotADir
    | Err
    | Empty
    | NoData
    | NoChildren
    | NoSuchChild
    | BadParamCode
    | Unnamed

  /** Syscall return codes. */
  datatype SysRet =
    | ESuccess
    | EFailure
    | ENotSupported
    | EBadParam
    | EBadAction
    | EEof
    | ENoMem
    | ETooSmall
    | EAlreadyOpen
    | EMaxFilesOpen

  /** The statuses that have a syscall code of their own. */
  predicate HasOwnCode(s: Status) {
    s in {Ok, NotSupp, BadParam, BadAction, Eof, NoMem, TooSmall}
  }

  /** `__status_to_sys_ret`: total; seven statuses have their own code and
      every other status becomes E_FAILURE. */
  function StatusToSysRet(s: Status): (r: SysRet)
    ensures r == EFailure <==> !HasOwnCode(s)
    ensures r == ESuccess <==> s == Ok
    ensures r != EAlreadyOpen && r != EMaxFilesOpen
  {
    match s
    case NotSupp => ENotSupported
    case BadParam => EBadParam
    case BadAction => EBadAction
    case Eof => EEof
    case NoMem => ENoMem
    case TooSmall => ETooSmall
    case Ok => ESuccess
    case _ => EFailure
  }

  /** Which status a syscall code came from, for the codes that have one. */
  function OwnCodeSource(r: SysRet): Option<Status> {
    match r
    case ENotSupported => Some(NotSupp)
    case EBadParam => Some(BadParam)
    case EBadAction => Some(BadAction)
    case EEof => Some(Eof)
    case ENoMem => Some(NoMem)
    case ETooSmall => Some(TooSmall)
    case ESuccess => Some(Ok)
    case _ => None
  }

  /** The mapping loses nothing on the seven statuses with their own code:
      it is injective there, and collapses only the rest. */
  lemma StatusToSysRetInverse(s: Status)
    ensures HasOwnCode(s) ==> OwnCodeSource(StatusToSysRet(s)) == Some(s)
    ensures !HasOwnCode(s) ==> OwnCodeSource(StatusToSysRet(s)) == None
  {
  }
}

=== FILE: console.dfy ===
/** The console's cursor and scrolling logic (src/io/cio.c): a cursor that
    moves inside a scroll region of the 80x25 text screen, `__cio_putchar`
    and `__cio_scroll`. The screen is a grid of 16-bit cells, row by row,
    standing in for video memory; the hardware cursor is left out. */
module Console {
  import opened Base

  const SCREEN_X_SIZE: nat := 80
  const SCREEN_Y_SIZE: nat := 25
  const SCREEN_MAX_X: nat := SCREEN_X_SIZE - 1
  const SCREEN_MAX_Y: nat := SCREEN_Y_SIZE - 1

  /** A blank cell: a space in light gray on black. */
  const BLANK: int := 0x0720

  /** The screen's cells, `cells[y][x]`. */
  type Grid = seq<seq<int>>

  predicate GridOk(g: Grid) {
    |g| == SCREEN_Y_SIZE && forall j :: 0 <= j < |g| ==> |g[j]| == SCREEN_X_SIZE
  }

  /** The scroll region's corners, inclusive. */
  datatype Region = Region(minX: nat, minY: nat, maxX: nat, maxY: nat)

  predicate RegionOk(rg: Region) {
    rg.minX <= rg.maxX <= SCREEN_MAX_X && rg.minY <= rg.maxY <= SCREEN_MAX_Y
  }

  /** The console: the region, the cursor (`curr_x`, `curr_y`), the screen
      and `active_color`. */
  datatype Console = Console(region: Region, x: nat, y: nat, cells: Grid, color: u32)

  /** The cursor is inside the region, except that it may sit on the line
      just below it: a newline on the last line moves it there and the
      scroll waits for the next character. */
  predicate Ok(c: Console) {
    && RegionOk(c.region) && GridOk(c.cells)
    && c.region.minX <= c.x <= c.region.maxX
    && c.region.minY <= c.y <= c.region.maxY + 1
  }

  /** `__bound(min, value, max)`: the value clamped to `[min, max]`. */
  function Bound(lo: int, v: int, hi: int): (r: int)
    requires lo <= hi
    ensures lo <= r <= hi
    ensures lo <= v <= hi ==> r == v
    ensures v < lo ==> r == lo
    ensures v > hi ==> r == hi
  {
    if v < lo then lo else if v > hi then hi else v
  }

  /** `__cio_init` for the screen: the whole screen scrolls, the cursor is
      at the top left and the colour is light gray on black; the screen
      keeps what it shows. */
  function Init(cells: Grid): (c: Console)
    requires GridOk(cells)
    ensures Ok(c) && c.x == 0 && c.y == 0
    ensures c.region == Region(0, 0, SCREEN_MAX_X, SCREEN_MAX_Y) && c.cells == cells
  {
    Console(Region(0, 0, SCREEN_MAX_X, SCREEN_MAX_Y), 0, 0, cells, 0x700)
  }

  /** `__cio_setscroll`: each corner clamped to the screen, the maxima no
      smaller than the minima; the cursor goes to the region's top left. */
  function SetScroll(c: Console, minX: u32, minY: u32, maxX: u32, maxY: u32): (r: Console)
    requires GridOk(c.cells)
    ensures Ok(r) && r.x == r.region.minX && r.y == r.region.minY
    ensures r.cells == c.cells && r.color == c.color
    ensures minX <= SCREEN_MAX_X ==> r.region.minX == minX
    ensures minY <= SCREEN_MAX_Y ==> r.region.minY == minY
    ensures r.region.minX <= maxX <= SCREEN_MAX_X ==> r.region.maxX == maxX
    ensures r.region.minY <= maxY <= SCREEN_MAX_Y ==> r.region.maxY == maxY
  {
    var x0 := Bound(0, minX, SCREEN_MAX_X);
    var y0 := Bound(0, minY, SCREEN_MAX_Y);
    var x1 := Bound(x0, maxX, SCREEN_MAX_X);
    var y1 := Bound(y0, maxY, SCREEN_MAX_Y);
    c.(region := Region(x0, y0, x1, y1), x := x0, y := y0)
  }

  /** `__cio_moveto`: region-relative coordinates, the sum taken in
      `unsigned int` and clamped to the region. */
  function MoveTo(c: Console, x: u32, y: u32): (r: Console)
    requires Ok(c)
    ensures Ok(r) && r.y <= r.region.maxY
    ensures r.region == c.region && r.cells == c.cells && r.color == c.color
    ensures c.region.minX + x <= c.region.maxX ==> r.x == c.region.minX + x
    ensures c.region.minY + y <= c.region.maxY ==> r.y == c.region.minY + y
  {
    var rg := c.region;
    c.(x := Bound(rg.minX, AddU32(x, rg.minX), rg.maxX), y := Bound(rg.minY, AddU32(y, rg.minY), rg.maxY))
  }

  /** What `__c_putchar_at` stores for `c`: a value above 0xFF carries its
      own attribute (cut to 16 bits), a plain byte gets light gray on
      black. */
  function CellValue(c: u32): (v: int)
    ensures 0 <= v < 0x1_0000
    ensures c <= 0xFF ==> v == c + 0x0700
    ensures c > 0xFF ==> v == c % 0x1_0000
  {
    if c > 0xFF then c % 0x1_0000 else c + 0x0700
  }

  /** `__c_putchar_at`: one cell written, when it is on the screen. */
  function PutAt(g: Grid, x: nat, y: nat, c: u32): (h: Grid)
    requires GridOk(g)
    ensures GridOk(h)
    ensures forall j, i :: 0 <= j < SCREEN_Y_SIZE && 0 <= i < SCREEN_X_SIZE ==>
              h[j][i] == if i == x && j == y then CellValue(c) else g[j][i]
  {
    if x <= SCREEN_MAX_X && y <= SCREEN_MAX_Y then g[y := g[y][x := CellValue(c)]] else g
  }

  /** Row `dst` with columns `lo..hi` taken from `src`. */
  function CopyRow(dst: seq<int>, src: seq<int>, lo: nat, hi: nat): (r: seq<int>)
    requires |dst| == SCREEN_X_SIZE && |src| == SCREEN_X_SIZE
    ensures |r| == SCREEN_X_SIZE
  {
    seq(SCREEN_X_SIZE, i requires 0 <= i < SCREEN_X_SIZE => if lo <= i <= hi then src[i] else dst[i])
  }

  /** Row `dst` with columns `lo..hi` blank. */
  function BlankRow(dst: seq<int>, lo: nat, hi: nat): (r: seq<int>)
    requires |dst| == SCREEN_X_SIZE
    ensures |r| == SCREEN_X_SIZE
  {
    seq(SCREEN_X_SIZE, i requires 0 <= i < SCREEN_X_SIZE => if lo <= i <= hi then BLANK else dst[i])
  }

  /** Row `j` after the region scrolls up by `lines`. */
  function ScrolledRow(g: Grid, rg: Region, lines: nat, j: nat): (r: seq<int>)
    requires GridOk(g) && RegionOk(rg) && j < SCREEN_Y_SIZE
    ensures |r| == SCREEN_X_SIZE
  {
    if j < rg.minY || j > rg.maxY then g[j]
    else if j + lines <= rg.maxY then CopyRow(g[j], g[j + lines], rg.minX, rg.maxX)
    else BlankRow(g[j], rg.minX, rg.maxX)
  }

  /** The screen after the region scrolls up by `lines`: inside the region
      each cell shows the one `lines` rows below it, or a blank where that
      is past the region's bottom; outside the region nothing changes. */
  function ScrollCells(g: Grid, rg: Region, lines: nat): (h: Grid)
    requires GridOk(g) && RegionOk(rg)
    ensures GridOk(h)
    ensures forall j, i :: 0 <= j < SCREEN_Y_SIZE && 0 <= i < SCREEN_X_SIZE ==>
              h[j][i] == if rg.minY <= j <= rg.maxY && rg.minX <= i <= rg.maxX then
                           (if j + lines <= rg.maxY then g[j + lines][i] else BLANK)
                         else g[j][i]
  {
    seq(SCREEN_Y_SIZE, j requires 0 <= j < SCREEN_Y_SIZE => ScrolledRow(g, rg, lines, j))
  }

  /** `__cio_scroll`. Scrolling by the region's height or more clears the
      region and sends the cursor to its top left; less shifts the rows up
      and leaves the cursor where it is. */
  function Scroll(c: Console, lines: u32): (r: Console)
    requires Ok(c)
    ensures Ok(r) && r.region == c.region && r.color == c.color
    ensures r.cells == ScrollCells(c.cells, c.region, lines)
    ensures lines > c.region.maxY - c.region.minY ==> r.x == c.region.minX && r.y == c.region.minY
    ensures lines <= c.region.maxY - c.region.minY ==> r.x == c.x && r.y == c.y
  {
    var rg := c.region;
    if lines > rg.maxY - rg.minY then
      c.(cells := ScrollCells(c.cells, rg, lines), x := rg.minX, y := rg.minY)
    else
      c.(cells := ScrollCells(c.cells, rg, lines))
  }

  /** Scrolling by the whole height or more leaves the region blank. */
  lemma ScrollClears(c: Console, lines: u32)
    requires Ok(c) && lines > c.region.maxY - c.region.minY
    ensures var g := Scroll(c, lines).cells;
            forall j, i :: c.region.minY <= j <= c.region.maxY && c.region.minX <= i <= c.region.maxX ==> g[j][i] == BLANK
  {
  }

  /** Scrolling by `a` and then by `b` is scrolling by `a + b`. */
  lemma {:induction false} ScrollAdds(g: Grid, rg: Region, a: nat, b: nat)
    requires GridOk(g) && RegionOk(rg)
    ensures ScrollCells(ScrollCells(g, rg, a), rg, b) == ScrollCells(g, rg, a + b)
  {
    var h := ScrollCells(ScrollCells(g, rg, a), rg, b);
    var k := ScrollCells(g, rg, a + b);
    forall j | 0 <= j < SCREEN_Y_SIZE
      ensures h[j] == k[j]
    {
      assert |h[j]| == |k[j]|;
      forall i | 0 <= i < SCREEN_X_SIZE
        ensures h[j][i] == k[j][i]
      {
      }
    }
  }

  /** The copy loops of `__cio_scroll`, row by row from the top of the
      region: each row is overwritten only after the rows it feeds have
      been read, so the in-place copy gives the scrolled screen. */
  method ScrollInPlace(g: Grid, rg: Region, lines: nat) returns (h: Grid)
    requires GridOk(g) && RegionOk(rg) && lines <= rg.maxY - rg.minY
    ensures h == ScrollCells(g, rg, lines)
  {
    h := g;
    var line := rg.minY;
    while line + lines <= rg.maxY
      invariant rg.minY <= line <= rg.maxY - lines + 1
      invariant |h| == SCREEN_Y_SIZE
      invariant forall j :: 0 <= j < SCREEN_Y_SIZE ==>
                  h[j] == if rg.minY <= j < line then ScrolledRow(g, rg, lines, j) else g[j]
    {
      h := h[line := CopyRow(h[line], h[line + lines], rg.minX, rg.maxX)];
      line := line + 1;
    }
    while line <= rg.maxY
      invariant rg.minY <= line <= rg.maxY + 1
      invariant |h| == SCREEN_Y_SIZE
      invariant forall j :: 0 <= j < SCREEN_Y_SIZE ==>
                  h[j] == if rg.minY <= j < line then ScrolledRow(g, rg, lines, j) else g[j]
    {
      h := h[line := BlankRow(h[line], rg.minX, rg.maxX)];
      line := line + 1;
    }
    var target := ScrollCells(g, rg, lines);
    assert forall j :: 0 <= j < SCREEN_Y_SIZE ==> h[j] == target[j];
  }

  /** `c | active_color` in `unsigned int`. */
  function WithColor(ch: u32, color: u32): u32 {
    ((ch as bv32) | (color as bv32)) as int
  }

  /** `__cio_putchar`. A cursor below the region first scrolls it by the
      overshoot and returns to its bottom line. Then a newline blanks the
      rest of the line and starts the next, a carriage return goes back to
      the left edge, and anything else is written in the active colour and
      advances, wrapping past the right edge. */
  function Putchar(c: Console, ch: u32): (r: Console)
    requires Ok(c)
    ensures Ok(r) && r.region == c.region && r.color == c.color
  {
    var rg := c.region;
    var s := if c.y > rg.maxY then Scroll(c, c.y - rg.maxY).(y := rg.maxY) else c;
    var low := ch % 256;
    if low == '\n' as int then
      s.(cells := s.cells[s.y := BlankRow(s.cells[s.y], s.x, rg.maxX)], x := rg.minX, y := s.y + 1)
    else if low == '\r' as int then
      s.(x := rg.minX)
    else
      var g := PutAt(s.cells, s.x, s.y, WithColor(ch, c.color));
      if s.x + 1 > rg.maxX then s.(cells := g, x := rg.minX, y := s.y + 1)
      else s.(cells := g, x := s.x + 1)
  }

  /** An ordinary character on a line of the region: its cell, in the
      active colour, is the only one that changes, and the cursor moves one
      to the right or to the start of the next line. */
  lemma PutcharWrites(c: Console, ch: u32)
    requires Ok(c) && c.y <= c.region.maxY
    requires ch % 256 != '\n' as int && ch % 256 != '\r' as int
    ensures var r := Putchar(c, ch);
            && (forall j, i :: 0 <= j < SCREEN_Y_SIZE && 0 <= i < SCREEN_X_SIZE ==>
                  r.cells[j][i] == if j == c.y && i == c.x then CellValue(WithColor(ch, c.color)) else c.cells[j][i])
            && (c.x < c.region.maxX ==> r.x == c.x + 1 && r.y == c.y)
            && (c.x == c.region.maxX ==> r.x == c.region.minX && r.y == c.y + 1)
  {
  }

  /** A newline on a line of the region blanks from the cursor to the
      region's right edge and moves to the start of the next line. */
  lemma PutcharNewline(c: Console, ch: u32)
    requires Ok(c) && c.y <= c.region.maxY && ch % 256 == '\n' as int
    ensures var r := Putchar(c, ch);
            && r.x == c.region.minX && r.y == c.y + 1
            && (forall j, i :: 0 <= j < SCREEN_Y_SIZE && 0 <= i < SCREEN_X_SIZE ==>
                  r.cells[j][i] == if j == c.y && c.x <= i <= c.region.maxX then BLANK else c.cells[j][i])
  {
  }

  /** The deferred scroll: output below the region first scrolls it up one
      line, so what was written last stays visible on the bottom line. */
  lemma PutcharScrollsFirst(c: Console, ch: u32)
    requires Ok(c) && c.y == c.region.maxY + 1 && c.region.minY < c.region.maxY
    ensures Putchar(c, ch) == Putchar(c.(cells := ScrollCells(c.cells, c.region, 1), y := c.region.maxY), ch)
  {
  }
}

=== FILE: keyboard.dfy ===
/** The console's keyboard input path (src/io/cio.c): the 200-slot circular
    input buffer, the IBM AT scan-code set 1 translator with its shift and
    control state, `__cio_getchar`, `__cio_gets` and `__cio_input_queue`.

    The buffer is a sequence of slots with the two indices the C keeps as
    pointers; its meaning is the queue `Contents`, read from `nextChar` up to
    `nextSpace` around the ring. */
module Keyboard {
  import opened Base

  /** C_BUFSIZE. */
  const C_BUFSIZE: nat := 200

  /** The input ring: the slots, where the oldest character is
      (`next_char`) and where the next one goes (`next_space`). */
  datatype Ring = Ring(slots: seq<byte>, nextChar: nat, nextSpace: nat)

  predicate RingOk(r: Ring) {
    |r.slots| == C_BUFSIZE && r.nextChar < C_BUFSIZE && r.nextSpace < C_BUFSIZE
  }

  /** The empty ring both indices start at. */
  function EmptyRing(): (r: Ring)
    ensures RingOk(r) && Contents(r) == []
  {
    Ring(seq(C_BUFSIZE, _ => 0), 0, 0)
  }

  /** `__c_increment`: the next slot, wrapping to the first. */
  function Increment(p: nat): (q: nat)
    requires p < C_BUFSIZE
    ensures q < C_BUFSIZE && q == (p + 1) % C_BUFSIZE
  {
    if p + 1 >= C_BUFSIZE then 0 else p + 1
  }

  /** The characters held, oldest first. */
  function Contents(r: Ring): (c: seq<byte>)
    requires RingOk(r)
    ensures |c| == (r.nextSpace - r.nextChar) % C_BUFSIZE
  {
    if r.nextChar <= r.nextSpace then r.slots[r.nextChar..r.nextSpace]
    else r.slots[r.nextChar..] + r.slots[..r.nextSpace]
  }

  /** `__cio_input_queue`: the pointer difference, corrected by the buffer
      size when negative. It is the number of characters held, so at most
      199 (one slot always stays unused). */
  function InputQueue(r: Ring): (n: int)
    requires RingOk(r)
    ensures 0 <= n < C_BUFSIZE
    ensures n == |Contents(r)|
  {
    var d := r.nextSpace - r.nextChar;
    if d < 0 then d + C_BUFSIZE else d
  }

  /** The store half of `__c_input_scan_code`: the character goes in only
      if advancing `next_space` would not meet `next_char`. */
  function Push(r: Ring, c: byte): (s: Ring)
    requires RingOk(r)
    ensures RingOk(s)
  {
    var next := Increment(r.nextSpace);
    if next != r.nextChar then Ring(r.slots[r.nextSpace := c], r.nextChar, next)
    else r
  }

  /** The ring is full at 199 characters: a push appends exactly when there
      is room and otherwise drops the character. */
  lemma PushContents(r: Ring, c: byte)
    requires RingOk(r)
    ensures |Contents(r)| < C_BUFSIZE - 1 ==> Contents(Push(r, c)) == Contents(r) + [c]
    ensures |Contents(r)| == C_BUFSIZE - 1 ==> Push(r, c) == r
  {
    var s := Push(r, c);
    var n := r.nextSpace;
    if Increment(n) != r.nextChar {
      var t := r.slots[n := c];
      if r.nextChar <= n {
        if n + 1 < C_BUFSIZE {
          assert t[r.nextChar..n + 1] == r.slots[r.nextChar..n] + [c];
        } else {
          assert t[r.nextChar..] == r.slots[r.nextChar..n] + [c];
          assert t[..0] == [];
        }
      } else {
        assert t[r.nextChar..] == r.slots[r.nextChar..];
        assert t[..n + 1] == r.slots[..n] + [c];
      }
    }
  }

  /** The take half of `__cio_getchar` on a non-empty ring: the slot at
      `next_char`, which then advances. None on an empty ring, where the C
      waits for a keystroke. */
  function Pop(r: Ring): (p: Option<(byte, Ring)>)
    requires RingOk(r)
    ensures p.Some? ==> RingOk(p.value.1)
  {
    if r.nextChar == r.nextSpace then None
    else Some((r.slots[r.nextChar], r.(nextChar := Increment(r.nextChar))))
  }

  /** Taking from the ring is taking the oldest character of the queue. */
  lemma PopContents(r: Ring)
    requires RingOk(r)
    ensures Pop(r).None? <==> Contents(r) == []
    ensures Pop(r).Some? ==> Pop(r).value.0 == Contents(r)[0] && Contents(Pop(r).value.1) == Contents(r)[1..]
  {
    if r.nextChar > r.nextSpace && r.nextChar + 1 == C_BUFSIZE {
      assert r.slots[r.nextChar..] == [r.slots[r.nextChar]];
    }
  }

  /** First in, first out: whatever is pushed onto an empty ring is what
      the next take returns, and the ring is empty again. */
  lemma PushThenPop(r: Ring, c: byte)
    requires RingOk(r) && Contents(r) == []
    ensures Pop(Push(r, c)).Some? && Pop(Push(r, c)).value.0 == c
    ensures Contents(Pop(Push(r, c)).value.1) == []
  {
    PushContents(r, c);
    PopContents(Push(r, c));
  }

  /** `__cio_getchar` once a character is there: the byte through a signed
      `char`, so 0x80-0xFF come back negative. */
  function Getchar(r: Ring): (p: Option<(int, Ring)>)
    requires RingOk(r)
    ensures p.Some? ==> RingOk(p.value.1) && -128 <= p.value.0 < 128
  {
    match Pop(r)
    case None => None
    case Some((b, s)) => Some((SignedChar(b), s))
  }

  // ---------------------------------------------------------------------------
  // Scan codes

  /** The value of a table entry that names no character. */
  const UNDEFINED: char := '\U{FF}'

  /** The unshifted half of `scan_code`, eight press codes to a row. */
  const UNSHIFTED: seq<seq<char>> := [
    /* 00-07 */ [UNDEFINED, '\U{1B}', '1', '2', '3', '4', '5', '6'],
    /* 08-0f */ ['7', '8', '9', '0', '-', '=', '\U{08}', '\t'],
    /* 10-17 */ ['q', 'w', 'e', 'r', 't', 'y', 'u', 'i'],
    /* 18-1f */ ['o', 'p', '[', ']', '\n', UNDEFINED, 'a', 's'],
    /* 20-27 */ ['d', 'f', 'g', 'h', 'j', 'k', 'l', ';'],
    /* 28-2f */ ['\'', '`', UNDEFINED, '\\', 'z', 'x', 'c', 'v'],
    /* 30-37 */ ['b', 'n', 'm', ',', '.', '/', UNDEFINED, '*'],
    /* 38-3f */ [UNDEFINED, ' ', UNDEFINED, UNDEFINED, UNDEFINED, UNDEFINED, UNDEFINED, UNDEFINED],
    /* 40-47 */ [UNDEFINED, UNDEFINED, UNDEFINED, UNDEFINED, UNDEFINED, UNDEFINED, UNDEFINED, '7'],
    /* 48-4f */ ['8', '9', '-', '4', '5', '6', '+', '1'],
    /* 50-57 */ ['2', '3', '0', '.', UNDEFINED, UNDEFINED, UNDEFINED, UNDEFINED],
    /* 58-5f */ [UNDEFINED, UNDEFINED, UNDEFINED, UNDEFINED, UNDEFINED, UNDEFINED, UNDEFINED, UNDEFINED],
    /* 60-67 */ [UNDEFINED, UNDEFINED, UNDEFINED, UNDEFINED, UNDEFINED, UNDEFINED, UNDEFINED, UNDEFINED],
    /* 68-6f */ [UNDEFINED, UNDEFINED, UNDEFINED, UNDEFINED, UNDEFINED, UNDEFINED, UNDEFINED, UNDEFINED],
    /* 70-77 */ [UNDEFINED, UNDEFINED, UNDEFINED, UNDEFINED, UNDEFINED, UNDEFINED, UNDEFINED, UNDEFINED],
    /* 78-7f */ [UNDEFINED, UNDEFINED, UNDEFINED, UNDEFINED, UNDEFINED, UNDEFINED, UNDEFINED, UNDEFINED]
  ]

  /** The shifted half of `scan_code`. */
  const SHIFTED: seq<seq<char>> := [
    /* 00-07 */ [UNDEFINED, '\U{1B}', '!', '@', '#', '$', '%', '^'],
    /* 08-0f */ ['&', '*', '(', ')', '_', '+', '\U{08}', '\t'],
    /* 10-17 */ ['Q', 'W', 'E', 'R', 'T', 'Y', 'U', 'I'],
    /* 18-1f */ ['O', 'P', '{', '}', '\n', UNDEFINED, 'A', 'S'],
    /* 20-27 */ ['D', 'F', 'G', 'H', 'J', 'K', 'L', ':'],
    /* 28-2f */ ['"', '~', UNDEFINED, '|', 'Z', 'X', 'C', 'V'],
    /* 30-37 */ ['B', 'N', 'M', '<', '>', '?', UNDEFINED, '*'],
    /* 38-3f */ [UNDEFINED, ' ', UNDEFINED, UNDEFINED, UNDEFINED, UNDEFINED, UNDEFINED, UNDEFINED],
    /* 40-47 */ [UNDEFINED, UNDEFINED, UNDEFINED, UNDEFINED, UNDEFINED, UNDEFINED, UNDEFINED, '7'],
    /* 48-4f */ ['8', '9', '-', '4', '5', '6', '+', '1'],
    /* 50-57 */ ['2', '3', '0', '.', UNDEFINED, UNDEFINED, UNDEFINED, UNDEFINED],
    /* 58-5f */ [UNDEFINED, UNDEFINED, UNDEFINED, UNDEFINED, UNDEFINED, UNDEFINED, UNDEFINED, UNDEFINED],
    /* 60-67 */ [UNDEFINED, UNDEFINED, UNDEFINED, UNDEFINED, UNDEFINED, UNDEFINED, UNDEFINED, UNDEFINED],
    /* 68-6f */ [UNDEFINED, UNDEFINED, UNDEFINED, UNDEFINED, UNDEFINED, UNDEFINED, UNDEFINED, UNDEFINED],
    /* 70-77 */ [UNDEFINED, UNDEFINED, UNDEFINED, UNDEFINED, UNDEFINED, UNDEFINED, UNDEFINED, UNDEFINED],
    /* 78-7f */ [UNDEFINED, UNDEFINED, UNDEFINED, UNDEFINED, UNDEFINED, UNDEFINED, UNDEFINED, UNDEFINED]
  ]

  /** `scan_code[shift][code]`, an `unsigned char`. */
  function Translate(shift: bool, code: nat): (t: byte)
    requires code < 0x80
  {
    var rows := if shift then SHIFTED else UNSHIFTED;
    assert |rows| == 16 && forall k :: 0 <= k < 16 ==> |rows[k]| == 8;
    var ch := rows[code / 8][code % 8];
    if ch as int < 256 then ch as int else 0
  }

  // Scan codes of the modifier keys.
  const L_SHIFT_DN: int := 0x2A
  const R_SHIFT_DN: int := 0x36
  const L_SHIFT_UP: int := 0xAA
  const R_SHIFT_UP: int := 0xB6
  const L_CTRL_DN: int := 0x1D
  const L_CTRL_UP: int := 0x9D

  /** The decoder's state: the static `shift` and `ctrl_mask` (`ctrl` is a
      mask of 0x1F, otherwise it is 0xFF) and the input ring. */
  datatype Kbd = Kbd(shift: bool, ctrl: bool, ring: Ring)

  /** The state before any keystroke. */
  function InitKbd(): Kbd {
    Kbd(false, false, EmptyRing())
  }

  /** `c & ctrl_mask`: with control held, the low five bits. */
  function Mask(c: byte, ctrl: bool): (m: byte)
    ensures ctrl ==> m < 32 && m % 32 == c % 32
    ensures !ctrl ==> m == c
  {
    if ctrl then c % 32 else c
  }

  /** `__c_input_scan_code`, with `undefined` the value the table entry is
      compared against: the new state and the return value. */
  function ScanStep(k: Kbd, code: int, undefined: int): (r: (Kbd, int))
    requires RingOk(k.ring)
    ensures RingOk(r.0.ring)
  {
    var c := code % 256;
    if c == L_SHIFT_DN || c == R_SHIFT_DN then (k.(shift := true), -1)
    else if c == L_SHIFT_UP || c == R_SHIFT_UP then (k.(shift := false), -1)
    else if c == L_CTRL_DN then (k.(ctrl := true), -1)
    else if c == L_CTRL_UP then (k.(ctrl := false), -1)
    else if c >= 0x80 then (k, -1)
    else
      var t := Translate(k.shift, c);
      var ch: int := Mask(t, k.ctrl);
      if t == undefined then (k, -1)
      else (k.(ring := Push(k.ring, Mask(t, k.ctrl))), ch)
  }

  /** `__c_input_scan_code` as written: the entry, an `unsigned char`
      between 0 and 255, is compared with the character constant '\377',
      which is -1 where plain `char` is signed. The test never holds. */
  function InputScanCodeAsWritten(k: Kbd, code: int): (r: (Kbd, int))
    requires RingOk(k.ring)
    ensures RingOk(r.0.ring)
  {
    ScanStep(k, code, SignedChar(255))
  }

  /** `__c_input_scan_code` as evidently intended: undefined keys are
      ignored, as its comment says. */
  function InputScanCode(k: Kbd, code: int): (r: (Kbd, int))
    requires RingOk(k.ring)
    ensures RingOk(r.0.ring)
  {
    ScanStep(k, code, UNDEFINED as int)
  }

  /** The shift and control keys only change the modifier state: nothing
      is queued and -1 is returned. Only the low byte of the code is
      looked at. */
  lemma ModifierKeys(k: Kbd, code: int)
    requires RingOk(k.ring)
    ensures var c := code % 256;
            var r := InputScanCode(k, code);
            (c == 0x2A || c == 0x36 ==> r == (k.(shift := true), -1)) &&
            (c == 0xAA || c == 0xB6 ==> r == (k.(shift := false), -1)) &&
            (c == 0x1D ==> r == (k.(ctrl := true), -1)) &&
            (c == 0x9D ==> r == (k.(ctrl := false), -1))
  {
  }

  /** Releases of ordinary keys change nothing and return -1, so autorepeat
      is handled on the press alone. */
  lemma ReleaseIgnored(k: Kbd, code: int)
    requires RingOk(k.ring)
    requires code % 256 >= 0x80 && code % 256 != L_SHIFT_UP && code % 256 != R_SHIFT_UP && code % 256 != L_CTRL_UP
    ensures InputScanCode(k, code) == (k, -1)
    ensures InputScanCodeAsWritten(k, code) == (k, -1)
  {
  }

  /** A press of a defined key returns its (masked) character and queues it
      behind everything already held when there is room; the character is
      returned even when the ring is full and it is dropped. */
  lemma PressQueues(k: Kbd, code: int)
    requires RingOk(k.ring)
    requires var c := code % 256;
             c < 0x80 && c != L_SHIFT_DN && c != R_SHIFT_DN && c != L_CTRL_DN &&
             Translate(k.shift, c) != UNDEFINED as int
    ensures var r := InputScanCode(k, code);
            var ch := Mask(Translate(k.shift, code % 256), k.ctrl);
            && r.1 == ch
            && r.0.shift == k.shift && r.0.ctrl == k.ctrl
            && (|Contents(k.ring)| < C_BUFSIZE - 1 ==> Contents(r.0.ring) == Contents(k.ring) + [ch])
            && (|Contents(k.ring)| == C_BUFSIZE - 1 ==> r.0.ring == k.ring)
  {
    PushContents(k.ring, Mask(Translate(k.shift, code % 256), k.ctrl));
  }

  /** Undefined keys are ignored: no byte 0xFF is ever queued and none is
      returned. */
  lemma NoUndefinedQueued(k: Kbd, code: int)
    requires RingOk(k.ring)
    ensures InputScanCode(k, code).1 != 0xFF
    ensures forall b :: b in Contents(InputScanCode(k, code).0.ring) && b !in Contents(k.ring) ==> b != 0xFF
  {
    var c := code % 256;
    if c < 0x80 && c != L_SHIFT_DN && c != R_SHIFT_DN && c != L_CTRL_DN && Translate(k.shift, c) != 0xFF {
      PressQueues(k, code);
    }
  }

  /** As written, pressing Caps Lock (0x3A, undefined in the table) queues
      the byte 0xFF and returns 255, where the intended decoder ignores it. */
  lemma UndefinedKeyQueuedAsWritten()
    ensures InputScanCodeAsWritten(InitKbd(), 0x3A).1 == 0xFF
    ensures Contents(InputScanCodeAsWritten(InitKbd(), 0x3A).0.ring) == [0xFF]
    ensures InputScanCode(InitKbd(), 0x3A) == (InitKbd(), -1)
  {
    assert Translate(false, 0x3A) == 0xFF;
    PushContents(EmptyRing(), 0xFF);
  }

  /** Keys as the table gives them: 'a', shifted 'A', control-C as 3. */
  lemma TranslateExamples()
    ensures InputScanCode(InitKbd(), 0x1E).1 == 'a' as int
    ensures InputScanCode(InitKbd().(shift := true), 0x1E).1 == 'A' as int
    ensures InputScanCode(InitKbd().(ctrl := true), 0x2E).1 == 3
  {
    assert Translate(false, 0x1E) == 'a' as int && Translate(true, 0x1E) == 'A' as int;
    assert Translate(false, 0x2E) == 'c' as int;
  }

  // ---------------------------------------------------------------------------
  // __cio_gets

  /** The ASCII end-of-transmission character that ends a line read. */
  const EOT: int := 4

  /** `__cio_gets(buffer, size)`, given the characters `__cio_getchar` will
      return in turn. `buffer` is what is stored, NUL last; `count` is the
      return value; `used` is how many characters were taken. `blocked`
      means the input ran out before the read was over (the C would wait). */
  method Gets(input: seq<int>, size: nat) returns (buffer: seq<int>, count: nat, used: nat, blocked: bool)
    ensures !blocked ==> count <= used <= |input| && used <= count + 1
    ensures !blocked ==> buffer == input[..count] + [0]
    ensures size < 2 ==> !blocked && count == 0 && used == 0
    ensures size >= 2 ==> count <= size - 1
    ensures !blocked ==> forall i :: 0 <= i < count ==> input[i] != EOT
    ensures !blocked ==> forall i :: 0 <= i < count - 1 ==> input[i] != '\n' as int
    ensures !blocked && size >= 2 ==>
              || count == size - 1
              || (count > 0 && input[count - 1] == '\n' as int && used == count)
              || (used == count + 1 && input[count] == EOT)
    ensures !blocked && used == count + 1 ==> input[count] == EOT
    ensures blocked <==> size >= 2 && |input| < size - 1 &&
                         (forall i :: 0 <= i < |input| ==> input[i] != EOT && input[i] != '\n' as int)
  {
    var left := size;
    count := 0;
    used := 0;
    blocked := false;
    while left > 1
      invariant count == used <= |input|
      invariant size < 2 ==> left == size && count == 0
      invariant size >= 2 ==> left >= 1 && count + left == size
      invariant forall i :: 0 <= i < count ==> input[i] != EOT && input[i] != '\n' as int
      decreases left
    {
      if used == |input| {
        buffer := [];
        blocked := true;
        return;
      }
      var ch := input[used];
      used := used + 1;
      if ch == EOT {
        break;
      }
      count := count + 1;
      left := left - 1;
      if ch == '\n' as int {
        break;
      }
    }
    buffer := input[..count] + [0];
  }
}

=== FILE: kstring.dfy ===
/** Non-terminated string slices (src/util/kstring.c): comparison,
    restartable tokenisation and the 32-bit FNV-1 hash. A slice is modelled
    by its contents; `Slice` values name a token by position in its source. */
module KString {
  import opened Base

  /** The bytes a `kstr_t` views. */
  type KStr = seq<byte>

  // ---------------------------------------------------------------------------
  // kstr_strcmp

  /** How far the comparison loop advances: the length of the longest common
      prefix of the two slices. */
  function MatchLen(a: KStr, b: KStr): (n: nat)
    ensures n <= |a| && n <= |b|
    ensures n < |a| && n < |b| ==> a[n] != b[n]
  {
    if |a| == 0 || |b| == 0 || a[0] != b[0] then 0
    else 1 + MatchLen(a[1..], b[1..])
  }

  /** The slices agree below the match length. */
  lemma {:induction false} MatchLenAgree(a: KStr, b: KStr, k: nat)
    requires k < MatchLen(a, b)
    ensures a[k] == b[k]
  {
    if k > 0 {
      MatchLenAgree(a[1..], b[1..], k - 1);
    }
  }

  /** `kstr_strcmp`: bytes are compared as signed `char`s. */
  function StrCmp(left: KStr, right: KStr): (r: int)
    ensures left == right ==> r == 0
    ensures |left| < |right| && left == right[..|left|] ==> r == -SignedChar(right[|left|])
    ensures |right| < |left| && right == left[..|right|] ==> r == SignedChar(left[|right|])
  {
    if |left| == 0 && |right| == 0 then 0
    else
      var n := MatchLen(left, right);
      if n == |left| && n == |right| then SignedChar(left[n - 1]) - SignedChar(right[n - 1])
      else if n == |right| then SignedChar(left[n])
      else if n == |left| then -SignedChar(right[n])
      else SignedChar(left[n]) - SignedChar(right[n])
  }

  /** At the first mismatch inside both slices the result is the
      difference of the two bytes as signed `char`s. */
  lemma StrCmpMismatch(left: KStr, right: KStr, i: nat)
    requires i < |left| && i < |right| && left[..i] == right[..i] && left[i] != right[i]
    ensures StrCmp(left, right) == SignedChar(left[i]) - SignedChar(right[i])
  {
    MatchLenAt(left, right, i);
  }

  /** The match length is the position of the first mismatch. */
  lemma {:induction false} MatchLenAt(a: KStr, b: KStr, i: nat)
    requires i < |a| && i < |b| && a[..i] == b[..i] && a[i] != b[i]
    ensures MatchLen(a, b) == i
  {
    if i > 0 {
      assert a[0] == a[..i][0] && b[0] == b[..i][0];
      assert a[1..][..i - 1] == a[..i][1..] && b[1..][..i - 1] == b[..i][1..];
      MatchLenAt(a[1..], b[1..], i - 1);
    }
  }

  /** The slices agree up to the match length. */
  lemma MatchLenPrefix(a: KStr, b: KStr)
    ensures a[..MatchLen(a, b)] == b[..MatchLen(a, b)]
  {
    var n := MatchLen(a, b);
    forall k | 0 <= k < n
      ensures a[..n][k] == b[..n][k]
    {
      MatchLenAgree(a, b, k);
    }
  }

  /** `KSTR_IS_EQUAL`. */
  predicate KEq(a: KStr, b: KStr) {
    StrCmp(a, b) == 0
  }

  /** No byte of the slice is NUL. */
  predicate NulFree(s: KStr) {
    forall i :: 0 <= i < |s| ==> s[i] != 0
  }

  /** Every byte is a non-NUL 7-bit character. */
  predicate Ascii7(s: KStr) {
    forall i :: 0 <= i < |s| ==> 1 <= s[i] < 128
  }

  /** For NUL-free slices the comparison is 0 exactly when the slices are
      equal, so `KSTR_IS_EQUAL` is slice equality. */
  lemma StrCmpZeroIffEqual(left: KStr, right: KStr)
    requires NulFree(left) && NulFree(right)
    ensures StrCmp(left, right) == 0 <==> left == right
  {
    if left != right {
      var n := MatchLen(left, right);
      MatchLenPrefix(left, right);
      if n < |left| && n < |right| {
        StrCmpMismatch(left, right, n);
      } else if n < |right| {
        assert left == right[..|left|];
      } else if n < |left| {
        assert right == left[..|right|];
      }
    }
  }

  lemma MatchLenSymmetric(a: KStr, b: KStr)
    ensures MatchLen(a, b) == MatchLen(b, a)
  {
  }

  /** Swapping the operands negates the result, for all slices. */
  lemma StrCmpAntisymmetric(left: KStr, right: KStr)
    ensures StrCmp(left, right) == -StrCmp(right, left)
  {
    MatchLenSymmetric(left, right);
  }

  /** Lexicographic order on 7-bit text: the reference ordering. */
  predicate LexLess(a: KStr, b: KStr) {
    exists n :: 0 <= n <= |a| && n <= |b| && a[..n] == b[..n] &&
      ((n == |a| && n < |b|) || (n < |a| && n < |b| && a[n] < b[n]))
  }

  /** On 7-bit text the sign of the comparison is lexicographic order. */
  lemma StrCmpSignIsLexOrder(left: KStr, right: KStr)
    requires Ascii7(left) && Ascii7(right)
    ensures StrCmp(left, right) < 0 <==> LexLess(left, right)
  {
    if LexLess(left, right) {
      var m :| 0 <= m <= |left| && m <= |right| && left[..m] == right[..m] &&
        ((m == |left| && m < |right|) || (m < |left| && m < |right| && left[m] < right[m]));
      if m == |left| {
        assert left == right[..|left|];
      } else {
        StrCmpMismatch(left, right, m);
      }
    }
    if StrCmp(left, right) < 0 {
      var n := MatchLen(left, right);
      MatchLenPrefix(left, right);
      if n < |left| && n < |right| {
        StrCmpMismatch(left, right, n);
      } else if n < |right| {
        assert LexLess(left, right);
      }
    }
  }

  // ---------------------------------------------------------------------------
  // kstr_strtok

  /** A token: its start position and length in the tokenised slice. */
  datatype Slice = Slice(start: nat, len: nat)

  /** Where a `kstr_strtok` call starts scanning: the slice start on the first
      call (`last_end` NULL), one past the previous token's end afterwards. */
  function TokStart(lastEnd: Option<nat>): nat {
    match lastEnd
    case None => 0
    case Some(e) => e + 1
  }

  /** First position at or after `i` that is not a delimiter (or the end). */
  function SkipDelims(s: KStr, delim: byte, i: nat): (j: nat)
    ensures i <= j
    ensures i >= |s| ==> j == i
    ensures i < |s| ==> j <= |s|
    ensures forall k :: i <= k < j ==> s[k] == delim
    ensures j < |s| ==> s[j] != delim
    decreases |s| - i
  {
    if i < |s| && s[i] == delim then SkipDelims(s, delim, i + 1) else i
  }

  /** First position at or after `i` holding a delimiter (or the end). */
  function RunEnd(s: KStr, delim: byte, i: nat): (j: nat)
    requires i <= |s|
    ensures i <= j <= |s|
    ensures forall k :: i <= k < j ==> s[k] != delim
    ensures j < |s| ==> s[j] == delim
    decreases |s| - i
  {
    if i < |s| && s[i] != delim then RunEnd(s, delim, i + 1) else i
  }

  /** `kstr_strtok`: returns the next token (None for KSTR_EMPTY) and the new
      `last_end` of the context. */
  function StrTok(s: KStr, delim: byte, lastEnd: Option<nat>): (r: (Option<Slice>, Option<nat>))
    ensures r.0.None? ==> r.1 == lastEnd
    ensures r.0.None? ==> forall k :: TokStart(lastEnd) <= k < |s| ==> s[k] == delim
    ensures r.0.Some? ==>
              var t := r.0.value;
              && t.len > 0
              && TokStart(lastEnd) <= t.start
              && t.start + t.len <= |s|
              && (forall k :: TokStart(lastEnd) <= k < t.start ==> s[k] == delim)
              && (forall k :: t.start <= k < t.start + t.len ==> s[k] != delim)
              && (t.start + t.len == |s| || s[t.start + t.len] == delim)
              && r.1 == Some(t.start + t.len)
  {
    var st := SkipDelims(s, delim, TokStart(lastEnd));
    if st >= |s| then (None, lastEnd)
    else
      var e := RunEnd(s, delim, st);
      (Some(Slice(st, e - st)), Some(e))
  }

  /** Once only delimiters remain, every further call is empty too. */
  lemma StrTokEmptyIsSticky(s: KStr, delim: byte, lastEnd: Option<nat>)
    requires StrTok(s, delim, lastEnd).0.None?
    ensures StrTok(s, delim, StrTok(s, delim, lastEnd).1) == (None, lastEnd)
  {
  }

  /** The contents of the tokens successive calls return, from context
      `lastEnd` until the first empty result. */
  function Tokens(s: KStr, delim: byte, lastEnd: Option<nat>): seq<KStr>
    decreases |s| + 1 - TokStart(lastEnd)
  {
    match StrTok(s, delim, lastEnd)
    case (None, _) => []
    case (Some(t), next) => [s[t.start..t.start + t.len]] + Tokens(s, delim, next)
  }

  /** Reference: split on every delimiter, keeping empty pieces. */
  function SplitAll(s: KStr, delim: byte): (ps: seq<KStr>)
    ensures |ps| >= 1
  {
    if |s| == 0 then [[]]
    else if s[0] == delim then [[]] + SplitAll(s[1..], delim)
    else
      var rest := SplitAll(s[1..], delim);
      [[s[0]] + rest[0]] + rest[1..]
  }

  /** Drop the empty pieces. */
  function NonEmpty(ps: seq<KStr>): seq<KStr> {
    if |ps| == 0 then []
    else if |ps[0]| == 0 then NonEmpty(ps[1..])
    else [ps[0]] + NonEmpty(ps[1..])
  }

  lemma {:induction false} NonEmptyAppend(a: seq<KStr>, b: seq<KStr>)
    ensures NonEmpty(a + b) == NonEmpty(a) + NonEmpty(b)
    decreases |a|
  {
    if |a| > 0 {
      assert (a + b)[1..] == a[1..] + b;
      NonEmptyAppend(a[1..], b);
    } else {
      assert a + b == b;
    }
  }

  /** A delimiter-free word followed by a delimiter is one piece. */
  lemma {:induction false} SplitWordDelim(w: KStr, delim: byte, t: KStr)
    requires delim !in w
    ensures SplitAll(w + [delim] + t, delim) == [w] + SplitAll(t, delim)
    decreases |w|
  {
    if |w| == 0 {
      assert w + [delim] + t == [delim] + t;
      assert ([delim] + t)[1..] == t;
    } else {
      assert (w + [delim] + t)[1..] == w[1..] + [delim] + t;
      assert w[1..] == w[1..];
      SplitWordDelim(w[1..], delim, t);
      assert [w[0]] + w[1..] == w;
    }
  }

  /** A delimiter-free word is a single piece. */
  lemma {:induction false} SplitWord(w: KStr, delim: byte)
    requires delim !in w
    ensures SplitAll(w, delim) == [w]
    decreases |w|
  {
    if |w| > 0 {
      SplitWord(w[1..], delim);
      assert [w[0]] + w[1..] == w;
    }
  }

  /** Leading delimiters only contribute empty pieces. */
  lemma {:induction false} SplitSkipDelims(s: KStr, delim: byte, p: nat, q: nat)
    requires p <= q <= |s|
    requires forall k :: p <= k < q ==> s[k] == delim
    ensures NonEmpty(SplitAll(s[p..], delim)) == NonEmpty(SplitAll(s[q..], delim))
    decreases q - p
  {
    if p < q {
      assert s[p..][1..] == s[p + 1..];
      SplitSkipDelims(s, delim, p + 1, q);
    }
  }

  /** Context whose next call starts at position `p`. */
  function CtxAt(p: nat): Option<nat> {
    if p == 0 then None else Some(p - 1)
  }

  /** One unfolding of `Tokens` from the context that starts at `p`, when a
      token remains. */
  lemma TokensStep(s: KStr, delim: byte, p: nat)
    requires SkipDelims(s, delim, p) < |s|
    ensures var st := SkipDelims(s, delim, p);
            var e := RunEnd(s, delim, st);
            Tokens(s, delim, CtxAt(p)) == [s[st..e]] + Tokens(s, delim, Some(e))
  {
    assert TokStart(CtxAt(p)) == p;
  }

  /** A word as a list of pieces is itself, when non-empty. */
  lemma NonEmptySingleton(w: KStr)
    requires |w| > 0
    ensures NonEmpty([w]) == [w]
  {
    assert [w][1..] == [];
  }

  /** No token is left when only delimiters remain after `p`. */
  lemma TokensFromAllDelims(s: KStr, delim: byte, p: nat)
    requires p <= |s|
    requires SkipDelims(s, delim, p) >= |s|
    ensures Tokens(s, delim, CtxAt(p)) == NonEmpty(SplitAll(s[p..], delim))
  {
    assert TokStart(CtxAt(p)) == p;
    SplitSkipDelims(s, delim, p, |s|);
    assert s[|s|..] == [];
  }

  /** Nothing follows a token that ends the slice. */
  lemma TokensAfterEnd(s: KStr, delim: byte)
    ensures Tokens(s, delim, Some(|s|)) == []
  {
    assert SkipDelims(s, delim, |s| + 1) == |s| + 1;
  }

  /** The pieces from a word start `st` whose run reaches the end. */
  lemma PiecesOfLastWord(s: KStr, delim: byte, st: nat)
    requires st <= |s|
    requires RunEnd(s, delim, st) == |s|
    ensures SplitAll(s[st..], delim) == [s[st..]]
  {
    var w := s[st..];
    forall k | 0 <= k < |w| ensures w[k] != delim { assert w[k] == s[st + k]; }
    SplitWord(w, delim);
  }

  /** The last token runs to the end of the slice. */
  lemma TokensFromLastWord(s: KStr, delim: byte, p: nat)
    requires p <= |s|
    requires SkipDelims(s, delim, p) < |s|
    requires RunEnd(s, delim, SkipDelims(s, delim, p)) == |s|
    ensures Tokens(s, delim, CtxAt(p)) == NonEmpty(SplitAll(s[p..], delim))
  {
    var st := SkipDelims(s, delim, p);
    TokensStep(s, delim, p);
    TokensAfterEnd(s, delim);
    SplitSkipDelims(s, delim, p, st);
    PiecesOfLastWord(s, delim, st);
    assert s[st..|s|] == s[st..];
    NonEmptySingleton(s[st..]);
  }

  /** The pieces from a word start `st` whose run ends at a delimiter `e`. */
  lemma PiecesOfInnerWord(s: KStr, delim: byte, st: nat, e: nat)
    requires st <= e < |s|
    requires e == RunEnd(s, delim, st)
    ensures NonEmpty(SplitAll(s[st..], delim)) == NonEmpty([s[st..e]]) + NonEmpty(SplitAll(s[e + 1..], delim))
  {
    var w := s[st..e];
    forall k | 0 <= k < |w| ensures w[k] != delim { assert w[k] == s[st + k]; }
    assert s[st..] == w + [delim] + s[e + 1..];
    SplitWordDelim(w, delim, s[e + 1..]);
    NonEmptyAppend([w], SplitAll(s[e + 1..], delim));
  }

  /** A token followed by a delimiter, given the tokens after that delimiter. */
  lemma TokensFromInnerWord(s: KStr, delim: byte, p: nat, e: nat)
    requires p <= |s|
    requires SkipDelims(s, delim, p) < |s|
    requires e == RunEnd(s, delim, SkipDelims(s, delim, p)) < |s|
    requires Tokens(s, delim, CtxAt(e + 1)) == NonEmpty(SplitAll(s[e + 1..], delim))
    ensures Tokens(s, delim, CtxAt(p)) == NonEmpty(SplitAll(s[p..], delim))
  {
    assert CtxAt(e + 1) == Some(e);
    var st := SkipDelims(s, delim, p);
    TokensStep(s, delim, p);
    SplitSkipDelims(s, delim, p, st);
    PiecesOfInnerWord(s, delim, st, e);
    NonEmptySingleton(s[st..e]);
  }

  /** From any position, the tokens successive calls return are the
      non-empty delimiter-separated pieces of the rest of the slice. */
  lemma {:induction false} TokensFrom(s: KStr, delim: byte, p: nat)
    requires p <= |s|
    ensures Tokens(s, delim, CtxAt(p)) == NonEmpty(SplitAll(s[p..], delim))
    decreases |s| - p
  {
    var st := SkipDelims(s, delim, p);
    if st < |s| && RunEnd(s, delim, st) < |s| {
      var e := RunEnd(s, delim, st);
      TokensFrom(s, delim, e + 1);
      TokensFromInnerWord(s, delim, p, e);
    } else if st < |s| {
      TokensFromLastWord(s, delim, p);
    } else {
      TokensFromAllDelims(s, delim, p);
    }
  }

  /** The tokens of a whole slice are exactly its delimiter-separated pieces
      with the empty ones dropped. */
  lemma TokensAreNonEmptyPieces(s: KStr, delim: byte)
    ensures Tokens(s, delim, None) == NonEmpty(SplitAll(s, delim))
  {
    TokensFrom(s, delim, 0);
    assert s[0..] == s;
  }

  // ---------------------------------------------------------------------------
  // kstr_hash

  /** FNV-1 32-bit offset basis. */
  const FNV_OFFSET_BASIS: bv32 := 2166136261
  /** FNV-1 32-bit prime. */
  const FNV_PRIME: bv32 := 16777619

  /** One FNV-1 round: multiply by the prime modulo 2^32, then xor in the byte. */
  function Fnv1Round(h: bv32, b: byte): bv32 {
    (h * FNV_PRIME) ^ (b as bv32)
  }

  /** Reference FNV-1: starting from hash `h`, one round per byte, in order. */
  function Fnv1From(h: bv32, s: KStr): bv32
    decreases |s|
  {
    if |s| == 0 then h else Fnv1From(Fnv1Round(h, s[0]), s[1..])
  }

  /** 32-bit FNV-1 of a whole slice. */
  function Fnv1(s: KStr): bv32 {
    Fnv1From(FNV_OFFSET_BASIS, s)
  }

  /** `kstr_hash`: the loop computes 32-bit FNV-1. */
  method KstrHash(s: KStr) returns (h: bv32)
    ensures h == Fnv1(s)
  {
    h := FNV_OFFSET_BASIS;
    var i := 0;
    while i < |s|
      invariant 0 <= i <= |s|
      invariant Fnv1From(h, s[i..]) == Fnv1(s)
    {
      assert s[i..][1..] == s[i + 1..];
      h := Fnv1Round(h, s[i]);
      i := i + 1;
    }
    assert s[i..] == [];
  }

  /** Published FNV-1 32-bit test vectors: "", "a" and "foobar". */
  lemma Fnv1TestVectors()
    ensures Fnv1([]) == 0x811C9DC5
    ensures Fnv1([0x61]) == 0x050C5D7E
    ensures Fnv1([0x66, 0x6F, 0x6F, 0x62, 0x61, 0x72]) == 0x31F0B262
  {
    assert Fnv1Round(0x811C9DC5, 0x61) == 0x050C5D7E;
    var a: KStr := [0x61];
    assert a[1..] == [];
    var hs: seq<bv32> := [0x811C9DC5, 0x050c5d79, 0x6b772514, 0x408f5e13, 0xb4b1178b, 0xfdc80fb0, 0x31F0B262];
    var foobar: KStr := [0x66, 0x6F, 0x6F, 0x62, 0x61, 0x72];
    assert Fnv1Round(hs[0], foobar[0]) == hs[1];
    assert Fnv1Round(hs[1], foobar[1]) == hs[2];
    assert Fnv1Round(hs[2], foobar[2]) == hs[3];
    assert Fnv1Round(hs[3], foobar[3]) == hs[4];
    assert Fnv1Round(hs[4], foobar[4]) == hs[5];
    assert Fnv1Round(hs[5], foobar[5]) == hs[6];
    assert Fnv1From(hs[6], foobar[6..]) == hs[6];
    assert Fnv1From(hs[5], foobar[5..]) == hs[6];
    assert Fnv1From(hs[4], foobar[4..]) == hs[6];
    assert Fnv1From(hs[3], foobar[3..]) == hs[6];
    assert Fnv1From(hs[2], foobar[2..]) == hs[6];
    assert Fnv1From(hs[1], foobar[1..]) == hs[6];
    assert Fnv1From(hs[0], foobar[0..]) == hs[6];
    assert foobar[0..] == foobar;
  }
}

=== FILE: listing.dfy ===
/** `flistdir` over the test filesystem. `flistdir` calls `iterate_shared`
    with a `num_written` out-parameter (the one src/vfs/vfs.h declares) and
    reads its return value as a status; `testfs_iterate_shared` takes no
    such parameter and returns the number of entries it wrote instead. */
module Listing {
  import opened Base
  import opened Codes
  import opened Vfs
  import TestFs
  import opened Syscalls

  /** The node behind a testfs handle: `testfs_open` copies the inode's
      `i_priv` into `kf_priv`. */
  function NodeOfHandle(f: KFile): Option<InodeId> {
    TestFs.Priv(f.inode)
  }

  /** Entries written, as testfs reports them for a handle. */
  function Entries(f: KFile, count: u32): (n: nat) {
    match TestFs.Iterate(NodeOfHandle(f), count).0
    case Written(n) => n
    case ENoData => 0
  }

  /** Entries written to the buffer, at most `count`, and all the node's
      children when the buffer has room for them. */
  lemma EntriesBound(f: KFile, count: u32)
    requires NodeOfHandle(f).Some?
    ensures Entries(f, count) <= count
    ensures count >= |TestFs.Children(f.inode)| ==> Entries(f, count) == |TestFs.Children(f.inode)|
  {
  }

  /** The `int` that testfs returns, read as a `status_t`: a count of 0 is
      S_OK and any other count is no named status; E_NO_DATA stays
      itself. */
  function StatusOfReturn(r: TestFs.IterRet): (s: Status)
    ensures s == Ok <==> r == TestFs.Written(0)
    ensures HasOwnCode(s) ==> s == Ok
  {
    match r
    case Written(n) => if n == 0 then Ok else Unnamed
    case ENoData => NoData
  }

  /** `testfs_iterate_shared` as `flistdir` calls it: its count comes back
      as the status and `num_written` is never written, so it stays 0. */
  function IterateAsCalled(f: KFile, count: u32): (r: (Status, u32))
    ensures r.1 == 0
    ensures r.0 == Ok <==> NodeOfHandle(f).Some? && Entries(f, count) == 0
  {
    (StatusOfReturn(TestFs.Iterate(NodeOfHandle(f), count).0), 0)
  }

  /** The iteration the interface asks for: the status, S_OK unless the
      handle has no node, and the number of entries written stored in
      `num_written`. */
  function IterateAsIntended(f: KFile, count: u32): (r: (Status, u32))
    ensures r.0 == Ok <==> NodeOfHandle(f).Some?
    ensures r.0 != Ok ==> r == (NoData, 0)
    ensures r.1 == |TestFs.Iterate(NodeOfHandle(f), count).1|
  {
    match TestFs.Iterate(NodeOfHandle(f), count).0
    case Written(n) => (Ok, n)
    case ENoData => (NoData, 0)
  }

  /** As written, listing a readable testfs directory reports no entry:
      `flistdir` returns 0 however many names testfs wrote, and the status
      is E_FAILURE as soon as there was one to write. */
  lemma ListedAsWritten(s: Sys, d: Driver, fd: int, count: u32)
    requires Sane(s) && Listable(s, fd) && Handle(s, fd).mode.read
    requires Handle(s, fd).inode < TestFs.NUM_NODES
    ensures var n := Entries(Handle(s, fd), count);
            Flistdir(s, d.(iterate := IterateAsCalled), fd, count) == (0, if n == 0 then ESuccess else EFailure)
  {
  }

  /** With the iteration the interface asks for, `flistdir` returns the
      number of names testfs wrote, with E_SUCCESS. */
  lemma ListedAsIntended(s: Sys, d: Driver, fd: int, count: u32)
    requires Sane(s) && Listable(s, fd) && Handle(s, fd).mode.read
    requires Handle(s, fd).inode < TestFs.NUM_NODES
    ensures Flistdir(s, d.(iterate := IterateAsIntended), fd, count) == (Entries(Handle(s, fd), count), ESuccess)
  {
  }

  /** Listing the root of the fixture, which has two children, into a
      buffer of ten entries: 0 entries and E_FAILURE as written, 2 entries
      and E_SUCCESS as intended. */
  lemma ListRootExample(s: Sys, d: Driver, fd: int)
    requires Sane(s) && Listable(s, fd) && Handle(s, fd).mode.read
    requires Handle(s, fd).inode == TestFs.ROOT
    ensures Flistdir(s, d.(iterate := IterateAsCalled), fd, 10) == (0, EFailure)
    ensures Flistdir(s, d.(iterate := IterateAsIntended), fd, 10) == (2, ESuccess)
  {
    ListedAsWritten(s, d, fd, 10);
    ListedAsIntended(s, d, fd, 10);
  }
}

=== FILE: namey.dfy ===
/** Path resolution through the dirent cache (src/vfs/namey.c):
    `resolve_path` and `namey`.

    The path is split with `kstr_strtok` on VFS_PATH_SEP; since tokenising
    does not depend on the walk, the tokens are computed first and then
    walked one by one, which is the same sequence of steps as the C loop. */
module Namey {
  import opened Base
  import opened Codes
  import opened KString
  import opened Vfs

  /** VFS_PATH_SEP, `'/'`. */
  const SEP: byte := 0x2F
  /** `"."` and `".."`. */
  const DOT: KStr := [0x2E]
  const DOTDOT: KStr := [0x2E, 0x2E]

  /** The outcome of a walk: the dirent cache afterwards, the status, the
      dirent written to `*result` (None for NULL or not written), how many
      times the driver's `lookup` was called, and whether the status is a
      driver's non-OK answer passed on as is. */
  datatype Walk = Walk(vfs: Vfs, status: Status, result: Option<DirentId>, calls: nat, fromDriver: bool)

  /** A driver's `lookup`: the directory's inode and the name asked for give
      a status and the inode it stored in the new dirent (None: negative). */
  type Lookup = (InodeId, KStr) -> (Status, Option<InodeId>)

  /** The driver only ever hands back inodes the inode table holds. */
  ghost predicate LookupSound(v: Vfs, lookup: Lookup) {
    forall i, n :: lookup(i, n).1.Some? ==> lookup(i, n).1.value in v.inodes
  }

  /** The dirent cache after a cache miss on `name` under `cur`, answered by
      the driver with inode `found`: a new dirent from the allocator, linked
      as the last child of `cur` with `cur` as its parent. */
  function Link(v: Vfs, cur: DirentId, name: KStr, found: Option<InodeId>): (w: Vfs)
    requires cur in v.dirents && v.nextDirent !in v.dirents
    ensures w.inodes == v.inodes && w.root == v.root && w.nextDirent == v.nextDirent + 1
    ensures forall d :: d in w.dirents <==> d in v.dirents || d == v.nextDirent
    ensures w.dirents[v.nextDirent] == Dirent(name, found, cur, [])
    ensures w.dirents[cur] == v.dirents[cur].(children := v.dirents[cur].children + [v.nextDirent])
    ensures forall d :: d in v.dirents && d != cur ==> w.dirents[d] == v.dirents[d]
  {
    var d := v.nextDirent;
    var cd := v.dirents[cur];
    Vfs(v.dirents[d := Dirent(name, found, cur, [])][cur := cd.(children := cd.children + [d])],
        v.inodes, v.root, d + 1)
  }

  /** Linking a new entry only adds to the cache. */
  lemma LinkExtends(v: Vfs, cur: DirentId, name: KStr, found: Option<InodeId>)
    requires Valid(v) && Positive(v, cur)
    requires found.Some? ==> found.value in v.inodes
    ensures Extends(v, Link(v, cur, name, found))
  {
    var w := Link(v, cur, name, found);
    forall d | d in v.dirents
      ensures d in w.dirents && w.dirents[d].name == v.dirents[d].name
      ensures w.dirents[d].inode == v.dirents[d].inode && w.dirents[d].parent == v.dirents[d].parent
      ensures v.dirents[d].children <= w.dirents[d].children
    {
      if d == cur {} else {}
    }
  }

  /** After linking, the ids in use are still below the next free id. */
  lemma LinkIds(v: Vfs, cur: DirentId, name: KStr, found: Option<InodeId>)
    requires Valid(v) && Positive(v, cur)
    requires found.Some? ==> found.value in v.inodes
    ensures var w := Link(v, cur, name, found);
            forall d :: d in w.dirents ==> d < w.nextDirent
  {
  }

  /** After linking, every parent is still a positive dirent. */
  lemma LinkParents(v: Vfs, cur: DirentId, name: KStr, found: Option<InodeId>)
    requires Valid(v) && Positive(v, cur)
    requires found.Some? ==> found.value in v.inodes
    ensures var w := Link(v, cur, name, found);
            forall d :: d in w.dirents ==> Positive(w, w.dirents[d].parent)
  {
    var w := Link(v, cur, name, found);
    forall d | d in w.dirents
      ensures Positive(w, w.dirents[d].parent)
    {
      LinkParent(v, cur, name, found, d);
    }
  }

  lemma LinkParent(v: Vfs, cur: DirentId, name: KStr, found: Option<InodeId>, d: DirentId)
    requires Valid(v) && Positive(v, cur)
    requires found.Some? ==> found.value in v.inodes
    requires d in Link(v, cur, name, found).dirents
    ensures var w := Link(v, cur, name, found);
            Positive(w, w.dirents[d].parent)
  {
    var w := Link(v, cur, name, found);
    var p := if d == v.nextDirent then cur else v.dirents[d].parent;
    assert w.dirents[d].parent == p;
    assert Positive(v, p);
    assert w.dirents[p].inode == v.dirents[p].inode;
  }

  /** After linking, children and parents still point at each other. */
  lemma LinkChildren(v: Vfs, cur: DirentId, name: KStr, found: Option<InodeId>)
    requires Valid(v) && Positive(v, cur)
    requires found.Some? ==> found.value in v.inodes
    ensures var w := Link(v, cur, name, found);
            forall d, k :: d in w.dirents && 0 <= k < |w.dirents[d].children| ==>
              w.dirents[d].children[k] in w.dirents &&
              w.dirents[w.dirents[d].children[k]].parent == d
  {
    var w := Link(v, cur, name, found);
    forall d, k | d in w.dirents && 0 <= k < |w.dirents[d].children|
      ensures w.dirents[d].children[k] in w.dirents
      ensures w.dirents[w.dirents[d].children[k]].parent == d
    {
      LinkChild(v, cur, name, found, d, k);
    }
  }

  lemma LinkChild(v: Vfs, cur: DirentId, name: KStr, found: Option<InodeId>, d: DirentId, k: nat)
    requires Valid(v) && Positive(v, cur)
    requires found.Some? ==> found.value in v.inodes
    requires d in Link(v, cur, name, found).dirents && k < |Link(v, cur, name, found).dirents[d].children|
    ensures var w := Link(v, cur, name, found);
            w.dirents[d].children[k] in w.dirents && w.dirents[w.dirents[d].children[k]].parent == d
  {
    var w := Link(v, cur, name, found);
    var n := v.nextDirent;
    if d == cur && k == |v.dirents[cur].children| {
      assert w.dirents[d].children[k] == n;
    } else {
      assert d != n;
      var c := v.dirents[d].children[k];
      assert w.dirents[d].children[k] == c;
      assert c in v.dirents && v.dirents[c].parent == d;
      assert c != n;
      assert w.dirents[c].parent == d;
    }
  }

  /** Linking a new entry keeps the cache well formed. */
  lemma LinkValid(v: Vfs, cur: DirentId, name: KStr, found: Option<InodeId>)
    requires Valid(v) && Positive(v, cur)
    requires found.Some? ==> found.value in v.inodes
    ensures Valid(Link(v, cur, name, found)) && Extends(v, Link(v, cur, name, found))
  {
    LinkExtends(v, cur, name, found);
    LinkParents(v, cur, name, found);
    LinkChildren(v, cur, name, found);
    var w := Link(v, cur, name, found);
    assert Positive(w, w.root);
    LinkIds(v, cur, name, found);
    forall d | d in w.dirents && w.dirents[d].inode.Some?
      ensures w.dirents[d].inode.value in w.inodes
    {
      if d != v.nextDirent && d != cur {
        assert w.dirents[d] == v.dirents[d];
      }
    }
  }

  /** Consuming a dirent id without linking it (the dirent a refused lookup
      leaves behind) keeps the cache well formed. */
  lemma SkipIdValid(v: Vfs)
    requires Valid(v)
    ensures Valid(v.(nextDirent := v.nextDirent + 1)) && Extends(v, v.(nextDirent := v.nextDirent + 1))
  {
  }

  /** One token of the walk: either the walk ends here, or it goes on from
      `cur` over the cache `vfs`, after `calls` driver calls. */
  datatype Step = Done(w: Walk) | Next(vfs: Vfs, cur: DirentId, calls: nat)

  /** The body of the `resolve_path` loop for one path component. */
  function StepToken(v: Vfs, lookup: Lookup, cur: DirentId, tok: KStr): (s: Step)
    requires Valid(v) && Positive(v, cur) && LookupSound(v, lookup)
    ensures s.Done? ==> && Valid(s.w.vfs) && Extends(v, s.w.vfs)
                        && s.w.status != Ok && s.w.result.None? && s.w.calls <= 1
                        && (s.w.fromDriver ==> s.w.calls == 1 && s.w.status == lookup(InodeOf(v, cur), tok).0)
    ensures s.Next? ==> Valid(s.vfs) && Extends(v, s.vfs) && Positive(s.vfs, s.cur) && s.calls <= 1
  {
    var ino := InodeOf(v, cur);
    if !v.inodes[ino].hasLookup then Done(Walk(v, NotADir, None, 0, false))
    else if KEq(tok, DOT) then Next(v, cur, 0)
    else if KEq(tok, DOTDOT) then Next(v, v.dirents[cur].parent, 0)
    else match LookupChild(v, cur, tok)
      case Some(c) =>
        if v.dirents[c].inode.Some? then Next(v, c, 0)
        else Done(Walk(v, NotFound, None, 0, false))
      case None =>
        var (st, found) := lookup(ino, tok);
        if st != Ok then
          SkipIdValid(v);
          Done(Walk(v.(nextDirent := v.nextDirent + 1), st, None, 1, true))
        else
          LinkValid(v, cur, tok, found);
          var v1 := Link(v, cur, tok, found);
          if found.None? then Done(Walk(v1, NotFound, None, 1, false))
          else Next(v1, v.nextDirent, 1)
  }

  /** The loop of `resolve_path` over the remaining tokens, from `cur`. */
  function WalkTokens(v: Vfs, lookup: Lookup, cur: DirentId, toks: seq<KStr>): (r: Walk)
    requires Valid(v) && Positive(v, cur) && LookupSound(v, lookup)
    ensures Valid(r.vfs) && Extends(v, r.vfs)
    ensures r.status == Ok <==> r.result.Some?
    ensures r.result.Some? ==> Positive(r.vfs, r.result.value)
    ensures r.fromDriver ==> r.status != Ok && r.calls > 0
    ensures r.calls <= |toks|
    decreases |toks|
  {
    if |toks| == 0 then
      ExtendsRefl(v);
      Walk(v, Ok, Some(cur), 0, false)
    else match StepToken(v, lookup, cur, toks[0])
      case Done(w) => w
      case Next(v1, c, k) =>
        assert LookupSound(v1, lookup);
        var r := WalkTokens(v1, lookup, c, toks[1..]);
        ExtendsTrans(v, v1, r.vfs);
        r.(calls := r.calls + k)
  }

  /** Where the walk starts: the root for an absolute path, else the cwd. */
  function StartOf(v: Vfs, cwd: DirentId, path: KStr): DirentId
    requires |path| > 0
  {
    if path[0] == SEP then v.root else cwd
  }

  /** `resolve_path(path, &result)` for a process whose cwd is `cwd`. The
      empty path is refused with the syscall code E_BAD_PARAM, returned as
      a status. */
  function ResolvePath(v: Vfs, lookup: Lookup, cwd: DirentId, path: KStr): (r: Walk)
    requires Valid(v) && Positive(v, cwd) && LookupSound(v, lookup)
    ensures Valid(r.vfs) && Extends(v, r.vfs)
    ensures |path| == 0 ==> r == Walk(v, BadParamCode, None, 0, false)
    ensures r.status == Ok <==> r.result.Some?
    ensures r.result.Some? ==> Positive(r.vfs, r.result.value)
    ensures r.fromDriver ==> r.status != Ok && r.calls > 0
    ensures r.calls <= |Tokens(path, SEP, None)|
  {
    if |path| == 0 then Walk(v, BadParamCode, None, 0, false)
    else WalkTokens(v, lookup, StartOf(v, cwd, path), Tokens(path, SEP, None))
  }

  /** `namey(path, &result)`: the status of the walk, unchanged, and the inode
      of the dirent it found, written to `*result` exactly on S_OK. */
  function Namey(v: Vfs, lookup: Lookup, cwd: DirentId, path: KStr): (r: (Vfs, Status, Option<InodeId>))
    requires Valid(v) && Positive(v, cwd) && LookupSound(v, lookup)
    ensures Valid(r.0) && Extends(v, r.0)
    ensures r.2.Some? <==> r.1 == Ok
    ensures r.2.Some? ==> r.2.value in r.0.inodes
    ensures var w := ResolvePath(v, lookup, cwd, path);
            r.0 == w.vfs && r.1 == w.status &&
            (r.2.Some? ==> r.2 == w.vfs.dirents[w.result.value].inode)
  {
    var w := ResolvePath(v, lookup, cwd, path);
    if w.status == Ok then (w.vfs, w.status, w.vfs.dirents[w.result.value].inode)
    else (w.vfs, w.status, None)
  }

  // ---------------------------------------------------------------------------
  // Properties of the walk

  /** A path made only of separators names its start dirent. */
  lemma OnlySeparators(v: Vfs, lookup: Lookup, cwd: DirentId, path: KStr)
    requires Valid(v) && Positive(v, cwd) && LookupSound(v, lookup)
    requires |path| > 0 && forall k :: 0 <= k < |path| ==> path[k] == SEP
    ensures ResolvePath(v, lookup, cwd, path) == Walk(v, Ok, Some(v.root), 0, false)
  {
    assert SkipDelims(path, SEP, 0) == |path|;
  }

  /** Any number of ".." from the root stays at the root, with no driver
      call and no change to the cache. */
  lemma {:induction false} DotDotFromRoot(v: Vfs, lookup: Lookup, toks: seq<KStr>)
    requires Valid(v) && LookupSound(v, lookup)
    requires v.inodes[InodeOf(v, v.root)].hasLookup
    requires forall k :: 0 <= k < |toks| ==> toks[k] == DOTDOT
    ensures WalkTokens(v, lookup, v.root, toks) == Walk(v, Ok, Some(v.root), 0, false)
    decreases |toks|
  {
    if |toks| > 0 {
      assert !KEq(DOTDOT, DOT) by {
        assert StrCmp(DOTDOT, DOT) == SignedChar(0x2E);
      }
      assert StepToken(v, lookup, v.root, toks[0]) == Next(v, v.root, 0);
      DotDotFromRoot(v, lookup, toks[1..]);
    }
  }

  /** The first match depends only on the children's names. */
  lemma {:induction false} FirstNamedSameNames(v: Vfs, w: Vfs, cs: seq<DirentId>, name: KStr)
    requires forall k :: 0 <= k < |cs| ==> cs[k] in v.dirents && cs[k] in w.dirents
    requires forall k :: 0 <= k < |cs| ==> w.dirents[cs[k]].name == v.dirents[cs[k]].name
    ensures FirstNamed(w, cs, name) == FirstNamed(v, cs, name)
    decreases |cs|
  {
    if |cs| > 0 {
      FirstNamedSameNames(v, w, cs[1..], name);
    }
  }

  /** After a miss is linked, the new dirent is what the cache finds. */
  lemma LinkedIsFound(v: Vfs, cur: DirentId, name: KStr, found: Option<InodeId>)
    requires Valid(v) && Positive(v, cur)
    requires found.Some? ==> found.value in v.inodes
    requires LookupChild(v, cur, name).None?
    ensures var w := Link(v, cur, name, found);
            Valid(w) && LookupChild(w, cur, name) == Some(v.nextDirent)
  {
    LinkValid(v, cur, name, found);
    var w := Link(v, cur, name, found);
    var cs := v.dirents[cur].children;
    FirstNamedSameNames(v, w, cs, name);
    FirstNamedAppend(w, cs, v.nextDirent, name);
  }

  /** The driver's answers stay sound while the inode table is unchanged. */
  lemma LookupSoundExtends(v: Vfs, w: Vfs, lookup: Lookup)
    requires LookupSound(v, lookup) && Extends(v, w)
    ensures LookupSound(w, lookup)
  {
    assert w.inodes == v.inodes;
  }

  /** A step on a name the cache holds under `cur`: no driver call. */
  lemma StepHit(v: Vfs, lookup: Lookup, cur: DirentId, tok: KStr)
    requires Valid(v) && Positive(v, cur) && LookupSound(v, lookup)
    requires v.inodes[InodeOf(v, cur)].hasLookup && !KEq(tok, DOT) && !KEq(tok, DOTDOT)
    requires LookupChild(v, cur, tok).Some?
    ensures var c := LookupChild(v, cur, tok).value;
            StepToken(v, lookup, cur, tok) ==
              if v.dirents[c].inode.Some? then Next(v, c, 0)
              else Done(Walk(v, NotFound, None, 0, false))
  {
  }

  /** A step on a name the cache does not hold, which the driver resolves:
      one driver call, and the answer is linked under `cur`. */
  lemma StepMiss(v: Vfs, lookup: Lookup, cur: DirentId, tok: KStr)
    requires Valid(v) && Positive(v, cur) && LookupSound(v, lookup)
    requires v.inodes[InodeOf(v, cur)].hasLookup && !KEq(tok, DOT) && !KEq(tok, DOTDOT)
    requires LookupChild(v, cur, tok).None? && lookup(InodeOf(v, cur), tok).0 == Ok
    ensures var found := lookup(InodeOf(v, cur), tok).1;
            StepToken(v, lookup, cur, tok) ==
              if found.None? then Done(Walk(Link(v, cur, tok, found), NotFound, None, 1, false))
              else Next(Link(v, cur, tok, found), v.nextDirent, 1)
  {
  }

  /** A step that went on goes on the same way, with no driver call, over
      any later state of the cache. */
  lemma StepAgain(v: Vfs, lookup: Lookup, cur: DirentId, tok: KStr, w: Vfs)
    requires Valid(v) && Positive(v, cur) && LookupSound(v, lookup)
    requires StepToken(v, lookup, cur, tok).Next?
    requires Valid(w) && Extends(StepToken(v, lookup, cur, tok).vfs, w)
    ensures Positive(w, cur) && LookupSound(w, lookup)
    ensures StepToken(w, lookup, cur, tok) == Next(w, StepToken(v, lookup, cur, tok).cur, 0)
  {
    var s := StepToken(v, lookup, cur, tok);
    ExtendsTrans(v, s.vfs, w);
    LookupSoundExtends(v, w, lookup);
    var ino := InodeOf(v, cur);
    if KEq(tok, DOT) || KEq(tok, DOTDOT) {
    } else if LookupChild(v, cur, tok).Some? {
      StepHit(v, lookup, cur, tok);
      LookupChildExtends(v, w, cur, tok);
      StepHit(w, lookup, cur, tok);
    } else {
      var found := lookup(ino, tok).1;
      StepMiss(v, lookup, cur, tok);
      var v1 := Link(v, cur, tok, found);
      LinkedIsFound(v, cur, tok, found);
      LookupChildExtends(v1, w, cur, tok);
      StepHit(w, lookup, cur, tok);
    }
  }

  /** A step that ended the walk, other than by a driver refusal, ends it the
      same way again, with no driver call, over the cache it left. */
  lemma DoneAgain(v: Vfs, lookup: Lookup, cur: DirentId, tok: KStr)
    requires Valid(v) && Positive(v, cur) && LookupSound(v, lookup)
    requires StepToken(v, lookup, cur, tok).Done? && !StepToken(v, lookup, cur, tok).w.fromDriver
    ensures var w := StepToken(v, lookup, cur, tok).w;
            Positive(w.vfs, cur) && LookupSound(w.vfs, lookup) &&
            StepToken(w.vfs, lookup, cur, tok) == Done(w.(calls := 0))
  {
    var s := StepToken(v, lookup, cur, tok);
    LookupSoundExtends(v, s.w.vfs, lookup);
    var ino := InodeOf(v, cur);
    if !v.inodes[ino].hasLookup || KEq(tok, DOT) || KEq(tok, DOTDOT) {
    } else if LookupChild(v, cur, tok).Some? {
      StepHit(v, lookup, cur, tok);
    } else {
      var found := lookup(ino, tok).1;
      StepMiss(v, lookup, cur, tok);
      var v1 := Link(v, cur, tok, found);
      LinkedIsFound(v, cur, tok, found);
      StepHit(v1, lookup, cur, tok);
    }
  }

  /** Cache idempotence: unless the driver refused a lookup, walking the same
      tokens again from the same dirent, over the cache the first walk left,
      gives the same outcome with no driver call and no change to the cache.
      This covers a success and a failure on a negative entry, cached or
      just linked. */
  lemma {:induction false} RewalkIsCached(v: Vfs, lookup: Lookup, cur: DirentId, toks: seq<KStr>)
    requires Valid(v) && Positive(v, cur) && LookupSound(v, lookup)
    requires !WalkTokens(v, lookup, cur, toks).fromDriver
    ensures var r := WalkTokens(v, lookup, cur, toks);
            Positive(r.vfs, cur) && LookupSound(r.vfs, lookup) &&
            WalkTokens(r.vfs, lookup, cur, toks) == r.(calls := 0)
    decreases |toks|
  {
    if |toks| > 0 {
      match StepToken(v, lookup, cur, toks[0])
      case Done(w) =>
        DoneAgain(v, lookup, cur, toks[0]);
      case Next(v1, c, k) =>
        assert LookupSound(v1, lookup);
        var r1 := WalkTokens(v1, lookup, c, toks[1..]);
        RewalkIsCached(v1, lookup, c, toks[1..]);
        StepAgain(v, lookup, cur, toks[0], r1.vfs);
    }
  }

  /** The same for whole paths: re-resolving a path whose resolution did not
      end in a driver refusal calls no driver and repeats the outcome. */
  lemma ResolveAgainIsCached(v: Vfs, lookup: Lookup, cwd: DirentId, path: KStr)
    requires Valid(v) && Positive(v, cwd) && LookupSound(v, lookup)
    requires !ResolvePath(v, lookup, cwd, path).fromDriver
    ensures var r := ResolvePath(v, lookup, cwd, path);
            Positive(r.vfs, cwd) && LookupSound(r.vfs, lookup) &&
            ResolvePath(r.vfs, lookup, cwd, path) == r.(calls := 0)
  {
    if |path| > 0 {
      RewalkIsCached(v, lookup, StartOf(v, cwd, path), Tokens(path, SEP, None));
    }
  }

  /** A driver that never answers OK without an inode. */
  ghost predicate NeverNegative(lookup: Lookup) {
    forall i, n :: lookup(i, n).0 == Ok ==> lookup(i, n).1.Some?
  }

  /** Every cached dirent is positive. */
  ghost predicate AllPositive(v: Vfs) {
    forall d :: d in v.dirents ==> v.dirents[d].inode.Some?
  }

  /** With such a driver one step adds no negative entry, and ends in
      S_NOTFOUND only when the driver said so. */
  lemma StepNoNegative(v: Vfs, lookup: Lookup, cur: DirentId, tok: KStr)
    requires Valid(v) && Positive(v, cur) && LookupSound(v, lookup)
    requires NeverNegative(lookup) && AllPositive(v)
    ensures var s := StepToken(v, lookup, cur, tok);
            (s.Next? ==> AllPositive(s.vfs)) &&
            (s.Done? ==> AllPositive(s.w.vfs) && (s.w.status == NotFound ==> s.w.fromDriver))
  {
    var ino := InodeOf(v, cur);
    if !v.inodes[ino].hasLookup || KEq(tok, DOT) || KEq(tok, DOTDOT) {
    } else if LookupChild(v, cur, tok).Some? {
      StepHit(v, lookup, cur, tok);
    } else if lookup(ino, tok).0 == Ok {
      var found := lookup(ino, tok).1;
      StepMiss(v, lookup, cur, tok);
      var w := Link(v, cur, tok, found);
      forall d | d in w.dirents
        ensures w.dirents[d].inode.Some?
      {
        if d != cur && d != v.nextDirent {
          assert w.dirents[d] == v.dirents[d];
        }
      }
    }
  }

  /** With such a driver the walk never adds a negative entry: a missing name
      is reported by the driver each time and never cached. */
  lemma {:induction false} NoNegativeCaching(v: Vfs, lookup: Lookup, cur: DirentId, toks: seq<KStr>)
    requires Valid(v) && Positive(v, cur) && LookupSound(v, lookup)
    requires NeverNegative(lookup) && AllPositive(v)
    ensures AllPositive(WalkTokens(v, lookup, cur, toks).vfs)
    ensures WalkTokens(v, lookup, cur, toks).status == NotFound ==>
              WalkTokens(v, lookup, cur, toks).fromDriver
    decreases |toks|
  {
    if |toks| > 0 {
      StepNoNegative(v, lookup, cur, toks[0]);
      match StepToken(v, lookup, cur, toks[0])
      case Done(w) =>
      case Next(v1, c, k) =>
        assert LookupSound(v1, lookup);
        NoNegativeCaching(v1, lookup, c, toks[1..]);
    }
  }

  /** The driver never answers with status `st`. */
  ghost predicate NeverAnswers(lookup: Lookup, st: Status) {
    forall i, n :: lookup(i, n).0 != st
  }

  /** A driver refusal is passed on as is: a status the driver never gives
      ends a walk only when the walk itself decides it. */
  lemma {:induction false} DriverStatusIsPassedOn(v: Vfs, lookup: Lookup, cur: DirentId,
                                                  toks: seq<KStr>, st: Status)
    requires Valid(v) && Positive(v, cur) && LookupSound(v, lookup)
    requires NeverAnswers(lookup, st)
    ensures WalkTokens(v, lookup, cur, toks).fromDriver ==> WalkTokens(v, lookup, cur, toks).status != st
    decreases |toks|
  {
    if |toks| > 0 {
      match StepToken(v, lookup, cur, toks[0])
      case Done(w) =>
      case Next(v1, c, k) =>
        assert LookupSound(v1, lookup);
        DriverStatusIsPassedOn(v1, lookup, c, toks[1..], st);
    }
  }
}

=== FILE: procs.dfy ===
/** The process table of src/procs.c: N_PROCS PCBs, a count of available
    ones, and a first-fit allocator over the table. A PCB is named by its
    index in the table. */
module Procs {
  import opened Base

  /** N_PROCS and FIRST_USER_PID (src/params.h). */
  const N_PROCS: nat := 25
  const FIRST_USER_PID: nat := 2

  /** A PCB's state. `Unused` is taken to be the zero value of `state_t`,
      since clearing the table makes every PCB available; `Later` stands
      for any state the scheduler sets afterwards (its other values are
      not part of this model). */
  datatype ProcState = Unused | New | Later(code: nat)

  /** The fields of `pcb_t` (src/offsets.h): pointers are kept as plain
      addresses. */
  datatype Pcb = Pcb(context: u32, stack: u32, exitStatus: int, wakeup: u32,
                     pid: nat, ppid: nat, state: ProcState, ticksLeft: nat, priority: nat)

  /** A PCB after `__memclr`. */
  const CLEARED: Pcb := Pcb(0, 0, 0, 0, 0, 0, Unused, 0, 0)

  /** `_processes`, `_avail_pcbs` and `_next_pid`. */
  datatype Table = Table(procs: seq<Pcb>, avail: u32, nextPid: nat)

  /** The number of Unused PCBs. */
  function CountUnused(ps: seq<Pcb>): (n: nat)
    ensures n <= |ps|
  {
    if |ps| == 0 then 0 else (if ps[0].state == Unused then 1 else 0) + CountUnused(ps[1..])
  }

  /** The table's invariant: N_PROCS entries, and the available count is
      the number of Unused entries. */
  predicate Consistent(t: Table) {
    |t.procs| == N_PROCS && t.avail == CountUnused(t.procs)
  }

  /** `_pcb_init`: every PCB cleared, all of them available, PIDs from
      FIRST_USER_PID. */
  function Init(): (t: Table)
    ensures Consistent(t)
    ensures t.avail == N_PROCS && t.nextPid == FIRST_USER_PID
    ensures forall i :: 0 <= i < |t.procs| ==> t.procs[i] == CLEARED
  {
    var ps := seq(N_PROCS, _ => CLEARED);
    AllUnused(ps);
    Table(ps, N_PROCS, FIRST_USER_PID)
  }

  lemma {:induction false} AllUnused(ps: seq<Pcb>)
    requires forall i :: 0 <= i < |ps| ==> ps[i].state == Unused
    ensures CountUnused(ps) == |ps|
  {
    if |ps| > 0 {
      AllUnused(ps[1..]);
    }
  }

  /** The index of the first Unused PCB; `|ps|` when there is none. */
  function FirstUnused(ps: seq<Pcb>): (i: nat)
    ensures i <= |ps|
    ensures i < |ps| ==> ps[i].state == Unused
    ensures forall k :: 0 <= k < i ==> ps[k].state != Unused
  {
    if |ps| == 0 then 0
    else if ps[0].state == Unused then 0
    else 1 + FirstUnused(ps[1..])
  }

  /** If some PCB is Unused the search finds one. */
  lemma {:induction false} FirstUnusedFound(ps: seq<Pcb>)
    ensures FirstUnused(ps) < |ps| <==> CountUnused(ps) > 0
  {
    if |ps| > 0 && ps[0].state != Unused {
      FirstUnusedFound(ps[1..]);
    }
  }

  /** Changing the state of one PCB changes the Unused count by the
      difference. */
  lemma {:induction false} CountUpdate(ps: seq<Pcb>, i: nat, p: Pcb)
    requires i < |ps|
    ensures CountUnused(ps[i := p]) + (if ps[i].state == Unused then 1 else 0)
         == CountUnused(ps) + (if p.state == Unused then 1 else 0)
  {
    if i > 0 {
      assert ps[i := p][1..] == ps[1..][i - 1 := p];
      CountUpdate(ps[1..], i - 1, p);
    }
  }

  /** The outcome of `_pcb_alloc`: NULL, a failed consistency assertion,
      or the index of the PCB handed out with the new table. */
  datatype Alloc = Null | AssertFails | Got(t: Table, index: nat)

  /** The PCB `_pcb_alloc` hands out: cleared, then marked New. */
  const FRESH: Pcb := CLEARED.(state := New)

  /** `_pcb_alloc`. */
  function PcbAlloc(t: Table): (r: Alloc)
    ensures r.Null? <==> t.avail < 1
    ensures r.Got? ==> r.index < |t.procs| && t.procs[r.index].state == Unused &&
                       (forall k :: 0 <= k < r.index ==> t.procs[k].state != Unused) &&
                       r.t == Table(t.procs[r.index := FRESH], t.avail - 1, t.nextPid)
  {
    if t.avail < 1 then Null
    else
      var i := FirstUnused(t.procs);
      if i >= |t.procs| || i >= N_PROCS then AssertFails
      else Got(Table(t.procs[i := FRESH], t.avail - 1, t.nextPid), i)
  }

  /** `_pcb_dealloc(&_processes[i])`: one more available (the count is a
      `uint32_t`), the state Unused, every other field left as it was. */
  function PcbDealloc(t: Table, i: nat): (r: Table)
    requires i < |t.procs|
    ensures |r.procs| == |t.procs| && r.nextPid == t.nextPid
    ensures r.procs[i] == t.procs[i].(state := Unused)
    ensures forall k :: 0 <= k < |t.procs| && k != i ==> r.procs[k] == t.procs[k]
    ensures t.avail + 1 < TWO_32 ==> r.avail == t.avail + 1
  {
    Table(t.procs[i := t.procs[i].(state := Unused)], AddU32(t.avail, 1), t.nextPid)
  }

  /** On a consistent table the sanity assertion never fails, the
      allocation succeeds exactly when some PCB is Unused, and the table
      stays consistent. */
  lemma AllocKeepsConsistent(t: Table)
    requires Consistent(t)
    ensures !PcbAlloc(t).AssertFails?
    ensures PcbAlloc(t).Got? <==> exists i :: 0 <= i < |t.procs| && t.procs[i].state == Unused
    ensures PcbAlloc(t).Got? ==> Consistent(PcbAlloc(t).t)
  {
    FirstUnusedFound(t.procs);
    var i := FirstUnused(t.procs);
    if i < |t.procs| {
      CountUpdate(t.procs, i, FRESH);
    }
  }

  /** Releasing a PCB in use keeps the table consistent. */
  lemma DeallocKeepsConsistent(t: Table, i: nat)
    requires Consistent(t) && i < |t.procs| && t.procs[i].state != Unused
    ensures Consistent(PcbDealloc(t, i))
  {
    CountUpdate(t.procs, i, t.procs[i].(state := Unused));
  }

  /** Releasing a PCB that is already Unused counts it twice: the count no
      longer matches the table. */
  lemma DoubleDeallocInconsistent(t: Table, i: nat)
    requires Consistent(t) && i < |t.procs| && t.procs[i].state == Unused
    ensures !Consistent(PcbDealloc(t, i))
  {
    CountUpdate(t.procs, i, t.procs[i].(state := Unused));
  }

  /** First fit: a PCB released below every other Unused one is the next
      one handed out. */
  lemma DeallocThenAlloc(t: Table, i: nat)
    requires Consistent(t) && i < |t.procs| && t.procs[i].state != Unused
    requires forall k :: 0 <= k < i ==> t.procs[k].state != Unused
    ensures PcbAlloc(PcbDealloc(t, i)).Got? && PcbAlloc(PcbDealloc(t, i)).index == i
  {
    DeallocKeepsConsistent(t, i);
    AllocKeepsConsistent(PcbDealloc(t, i));
  }

  /** All N_PROCS PCBs can be handed out from a fresh table, lowest index
      first, and the next request gets NULL. */
  lemma AllocAll(t: Table, n: nat)
    requires Consistent(t) && n <= N_PROCS
    requires forall k :: 0 <= k < |t.procs| ==> (t.procs[k].state == Unused <==> k >= n)
    ensures PcbAlloc(t).Null? <==> n == N_PROCS
    ensures n < N_PROCS ==> PcbAlloc(t).Got? && PcbAlloc(t).index == n
  {
    AllocKeepsConsistent(t);
    if n == N_PROCS {
      AllUsed(t.procs);
    } else {
      assert t.procs[n].state == Unused;
    }
  }

  lemma {:induction false} AllUsed(ps: seq<Pcb>)
    requires forall i :: 0 <= i < |ps| ==> ps[i].state != Unused
    ensures CountUnused(ps) == 0
  {
    if |ps| > 0 {
      AllUsed(ps[1..]);
    }
  }
}

=== FILE: slab.dfy ===
/** The slab cache (src/util/slab_cache.c): fixed-size elements carved out of
    1 KiB slices or 4 KiB pages, handed out from a LIFO free list.

    Addresses are abstracted: a slab is named by the order in which the cache
    obtained it (0 for the slab `slab_init` takes, 1 for the next, ...), and an
    element by its slab and its byte offset inside that slab. The free list is
    threaded through the free elements in the C code; here it is a sequence,
    head first. */
module Slab {
  import opened Base
  import opened Codes

  /** `sizeof(slab_header_t)`: one pointer on this 32-bit target. */
  const HEADER_SIZE: nat := 4

  /** `SLAB_SIZE`: a page for caches made with SC_INIT_LARGE_SLABS, a
      1 KiB slice otherwise. */
  function SlabSize(large: bool): nat {
    if large then 4096 else 1024
  }

  /** `SLAB_FIRST_ELEM` as an offset: the header rounded up to a whole number
      of elements. */
  function FirstElem(e: nat): (f: nat)
    requires e > 0
    ensures f % e == 0
    ensures HEADER_SIZE <= f < HEADER_SIZE + e
  {
    var q := (HEADER_SIZE + e - 1) / e;
    HeaderRounding(e);
    DivModUnique(q * e, e, q, 0);
    q * e
  }

  /** How many elements the header rounds up to. */
  lemma HeaderRounding(e: nat)
    requires e > 0
    ensures (HEADER_SIZE + e - 1) / e == if e >= HEADER_SIZE then 1 else if e == 1 then 4 else 2
  {
    if e >= HEADER_SIZE {
      DivModUnique(HEADER_SIZE + e - 1, e, 1, HEADER_SIZE - 1);
    } else if e == 1 {
      DivModUnique(HEADER_SIZE, 1, 4, 0);
    } else if e == 2 {
      DivModUnique(HEADER_SIZE + 1, 2, 2, 1);
    } else {
      DivModUnique(HEADER_SIZE + 2, 3, 2, 0);
    }
  }

  /** The element offsets `SLAB_FOR_EACH` visits from offset `o` on: one per
      element whose end still fits in the slab. */
  function OffsetsFrom(e: nat, size: nat, o: nat): (offs: seq<nat>)
    requires e > 0
    ensures |offs| == if o <= size then (size - o) / e else 0
    ensures forall i :: 0 <= i < |offs| ==> offs[i] == o + i * e && offs[i] + e <= size
    decreases size - o
  {
    if o + e <= size then
      var rest := OffsetsFrom(e, size, o + e);
      DivModStep(size - o, e);
      assert forall i :: 1 <= i < |rest| + 1 ==> o + i * e == (o + e) + (i - 1) * e;
      [o] + rest
    else
      if o <= size then DivModUnique(size - o, e, 0, size - o); []
      else []
  }

  /** The offsets of all elements of a slab, in ascending order. */
  function SlabOffsets(e: nat, large: bool): seq<nat>
    requires e > 0
  {
    OffsetsFrom(e, SlabSize(large), FirstElem(e))
  }

  /** The iteration visits every element-aligned offset past the header whose
      element fits, and nothing else. */
  lemma {:induction false} OffsetsFromComplete(e: nat, size: nat, o: nat, x: nat)
    requires e > 0
    ensures x in OffsetsFrom(e, size, o) <==> (o <= x && (x - o) % e == 0 && x + e <= size)
    decreases size - o
  {
    if o + e <= size {
      OffsetsFromComplete(e, size, o + e, x);
      if o + e <= x {
        DivModStep(x - o, e);
      } else if o < x {
        DivModUnique(x - o, e, 0, x - o);
      }
    }
  }

  /** Element offsets are strictly increasing, so no element is visited twice. */
  lemma OffsetsDistinct(e: nat, size: nat, o: nat)
    requires e > 0
    ensures Distinct(OffsetsFrom(e, size, o))
  {
    var offs := OffsetsFrom(e, size, o);
    forall i, j | 0 <= i < j < |offs| ensures offs[i] != offs[j] {
      MulAtLeast(j - i, e);
      assert j * e == i * e + (j - i) * e;
    }
  }

  /** A slab cache element: which slab, and where in it. */
  datatype Elem = Elem(slab: nat, offset: nat)

  /** `slab_cache_t`, plus the contents of elements as far as this model
      tracks them: `SC_ALLOC_ZERO_MEM` makes an element read as zeros, and
      `slab_free` writes the free-list link into its first word, after which
      its contents are no longer known and the element leaves `mem`.
      `slabs` is the `all_slabs` list, head first; `nextSlab` is how many
      slabs the cache has obtained. */
  datatype Cache = Cache(
    elemSize: nat,
    large: bool,
    free: seq<Elem>,
    slabs: seq<nat>,
    nextSlab: nat,
    mem: map<Elem, seq<byte>>)

  /** The element size is one `slab_init` accepts for these slabs. */
  predicate Configured(c: Cache) {
    4 <= c.elemSize <= SlabSize(c.large) / 2
  }

  /** The elements of slab `s`, in the order `SLAB_FOR_EACH` visits them. */
  function SlabElems(c: Cache, s: nat): (es: seq<Elem>)
    requires c.elemSize > 0
    ensures |es| == |SlabOffsets(c.elemSize, c.large)|
    ensures forall i :: 0 <= i < |es| ==> es[i] == Elem(s, SlabOffsets(c.elemSize, c.large)[i])
  {
    var offs := SlabOffsets(c.elemSize, c.large);
    seq(|offs|, i requires 0 <= i < |offs| => Elem(s, offs[i]))
  }

  /** `x` is an element of one of the slabs the cache has obtained. */
  predicate IsElemOf(c: Cache, x: Elem)
    requires c.elemSize > 0
  {
    x.slab < c.nextSlab && x.offset in SlabOffsets(c.elemSize, c.large)
  }

  /** A configured slab always holds at least one element: with e >= 4 the
      first element sits at offset e, and 2e fits. */
  lemma SlabNotEmpty(c: Cache)
    requires Configured(c)
    ensures FirstElem(c.elemSize) == c.elemSize
    ensures |SlabOffsets(c.elemSize, c.large)| >= 1
  {
    var e := c.elemSize;
    assert FirstElem(e) == e by {
      assert (HEADER_SIZE + e - 1) / e == 1;
    }
  }

  /** `slab_free`: push the element on the head of the free list. The two
      branches of the C code (empty list, non-empty list) store the same
      link value, so they agree; either way the link overwrites the
      element's first word, so its contents are forgotten. */
  function Free(c: Cache, x: Elem): (r: Cache)
    ensures r.free == [x] + c.free
    ensures r.free[1..] == c.free
    ensures x !in r.mem
    ensures forall y :: y != x ==> (y in r.mem <==> y in c.mem)
    ensures forall y :: y in r.mem ==> r.mem[y] == c.mem[y]
    ensures r.(free := c.free, mem := c.mem) == c
  {
    if |c.free| == 0 then c.(free := [x], mem := c.mem - {x})
    else c.(free := [x] + c.free, mem := c.mem - {x})
  }

  /** Freeing the elements of `es` one after another, in order. */
  function FreeAll(c: Cache, es: seq<Elem>): Cache
    decreases |es|
  {
    if |es| == 0 then c else FreeAll(Free(c, es[0]), es[1..])
  }

  /** Freeing a run of elements in ascending order leaves them on the free
      list in descending order, above what was already there; nothing but
      the free list and the contents changes. */
  lemma {:induction false} FreeAllStacks(c: Cache, es: seq<Elem>)
    ensures FreeAll(c, es).free == Reverse(es) + c.free
    ensures FreeAll(c, es).(free := c.free, mem := c.mem) == c
    decreases |es|
  {
    if |es| > 0 {
      FreeAllStacks(Free(c, es[0]), es[1..]);
      assert Reverse(es) == Reverse(es[1..]) + [es[0]];
    }
  }

  /** Freeing a run of elements forgets exactly their contents. */
  lemma {:induction false} FreeAllForgets(c: Cache, es: seq<Elem>)
    ensures forall y :: y in FreeAll(c, es).mem <==> y in c.mem && y !in es
    ensures forall y :: y in FreeAll(c, es).mem ==> FreeAll(c, es).mem[y] == c.mem[y]
    decreases |es|
  {
    if |es| > 0 {
      var c1 := Free(c, es[0]);
      FreeAllForgets(c1, es[1..]);
      var r := FreeAll(c, es);
      assert r == FreeAll(c1, es[1..]);
      forall y ensures y in r.mem <==> y in c.mem && y !in es {
        assert y in es <==> y == es[0] || y in es[1..];
      }
    }
  }

  /** Obtain one more slab, put it at the head of `all_slabs`, and free all of
      its elements: the refill step of `slab_alloc` and the body of
      `slab_init` after the parameters are stored. */
  function AddSlab(c: Cache): (r: Cache)
    requires c.elemSize > 0
    ensures r.slabs == [c.nextSlab] + c.slabs
    ensures r.nextSlab == c.nextSlab + 1
    ensures r.free == Reverse(SlabElems(c, c.nextSlab)) + c.free
    ensures r.elemSize == c.elemSize && r.large == c.large
    ensures forall y :: y in r.mem <==> y in c.mem && y !in SlabElems(c, c.nextSlab)
    ensures forall y :: y in r.mem ==> r.mem[y] == c.mem[y]
  {
    var c1 := c.(slabs := [c.nextSlab] + c.slabs, nextSlab := c.nextSlab + 1);
    FreeAllStacks(c1, SlabElems(c, c.nextSlab));
    FreeAllForgets(c1, SlabElems(c, c.nextSlab));
    FreeAll(c1, SlabElems(c, c.nextSlab))
  }

  /** `slab_init` as written: the upper bound on the element size is
      `SLAB_SIZE(cache)`, read before `cache->flags` is assigned, so it is
      computed from the flags the cache held before the call. */
  function InitAsWritten(prior: Cache, elementSize: u32, large: bool): (r: (SysRet, Cache))
    ensures r.0 == EBadParam <==> elementSize < 4 || elementSize > SlabSize(prior.large) / 2
    ensures r.0 == EBadParam ==> r.1 == prior
  {
    if elementSize > SlabSize(prior.large) / 2 || elementSize < 4 then (EBadParam, prior)
    else
      var c := Cache(elementSize, large, [], [], 0, map[]);
      (ESuccess, AddSlab(c))
  }

  /** `slab_init`, with the bound taken from the flags being installed. */
  function Init(prior: Cache, elementSize: u32, large: bool): (r: (SysRet, Cache))
    ensures r.0 == ESuccess || r.0 == EBadParam
    ensures r.0 == EBadParam <==> elementSize < 4 || elementSize > SlabSize(large) / 2
    ensures r.0 == EBadParam ==> r.1 == prior
    ensures r.0 == ESuccess ==>
              && r.1.elemSize == elementSize && r.1.large == large
              && r.1.slabs == [0] && r.1.nextSlab == 1
              && r.1.free == Reverse(SlabElems(r.1, 0))
  {
    if elementSize > SlabSize(large) / 2 || elementSize < 4 then (EBadParam, prior)
    else
      var c := Cache(elementSize, large, [], [], 0, map[]);
      (ESuccess, AddSlab(c))
  }

  /** The cache every caller starts from: a zero-filled `slab_cache_t`. */
  const ZeroCache: Cache := Cache(0, false, [], [], 0, map[])

  /** The as-written bound judges the element size against the wrong slab
      size. From a zero-filled cache, 1024-byte elements with
      SC_INIT_LARGE_SLABS are refused although a 4096-byte slab takes three
      of them; and re-initialising a large-slab cache with small slabs accepts
      1000-byte elements, leaving a cache whose slabs hold no element at all. */
  lemma InitAsWrittenChecksPriorFlags()
    ensures InitAsWritten(ZeroCache, 1024, true).0 == EBadParam
    ensures Init(ZeroCache, 1024, true).0 == ESuccess
    ensures |Init(ZeroCache, 1024, true).1.free| == 3
    ensures InitAsWritten(ZeroCache.(large := true), 1000, false).0 == ESuccess
    ensures |InitAsWritten(ZeroCache.(large := true), 1000, false).1.free| == 0
    ensures Init(ZeroCache.(large := true), 1000, false).0 == EBadParam
  {
    HeaderRounding(1024);
    HeaderRounding(1000);
  }

  /** The corrected `slab_init` only ever produces caches whose slabs hold
      elements, whatever the cache held before. */
  lemma InitConfigures(prior: Cache, elementSize: u32, large: bool)
    requires Init(prior, elementSize, large).0 == ESuccess
    ensures Configured(Init(prior, elementSize, large).1)
    ensures |Init(prior, elementSize, large).1.free| >= 1
  {
    SlabNotEmpty(Init(prior, elementSize, large).1);
  }

  /** `slab_alloc`: refill from a new slab when the free list is empty, then
      pop the head; with `SC_ALLOC_ZERO_MEM` the element reads as zeros. */
  function Alloc(c: Cache, zero: bool): (r: (Cache, Elem))
    requires Configured(c)
    ensures |c.free| > 0 ==> r.1 == c.free[0] && r.0.free == c.free[1..] &&
                             r.0.slabs == c.slabs && r.0.nextSlab == c.nextSlab
    ensures |c.free| == 0 ==>
              && r.0.slabs == [c.nextSlab] + c.slabs
              && r.0.nextSlab == c.nextSlab + 1
              && r.1.slab == c.nextSlab
              && [r.1] + r.0.free == Reverse(SlabElems(c, c.nextSlab))
    ensures zero ==> r.1 in r.0.mem && r.0.mem[r.1] == Zeros(c.elemSize)
    ensures !zero && |c.free| > 0 ==> r.0.mem == c.mem
    ensures !zero ==> forall y :: y in r.0.mem ==> y in c.mem && r.0.mem[y] == c.mem[y]
    ensures r.0.elemSize == c.elemSize && r.0.large == c.large
  {
    SlabNotEmpty(c);
    var c1 := if |c.free| == 0 then AddSlab(c) else c;
    var x := c1.free[0];
    var c2 := c1.(free := c1.free[1..]);
    if zero then (c2.(mem := c2.mem[x := Zeros(c.elemSize)]), x) else (c2, x)
  }

  /** `slab_deinit`: the slabs handed back to the page or slice allocator, in
      the order the `all_slabs` walk releases them. */
  function Deinit(c: Cache): (released: seq<nat>)
    ensures released == c.slabs
    decreases |c.slabs|
  {
    if |c.slabs| == 0 then [] else [c.slabs[0]] + Deinit(c.(slabs := c.slabs[1..]))
  }

  // ---------------------------------------------------------------------------
  // The free-list invariant

  /** What the cache owes its clients: `all_slabs` lists every slab obtained,
      newest first; the free list holds each element at most once; every
      element of every slab is either free or held by a client in `live`,
      never both; and only held elements have known contents, since a free
      one carries the list link. */
  ghost predicate Valid(c: Cache, live: set<Elem>) {
    && Configured(c)
    && |c.slabs| == c.nextSlab
    && (forall i :: 0 <= i < |c.slabs| ==> c.slabs[i] == c.nextSlab - 1 - i)
    && Distinct(c.free)
    && (forall x :: x in c.free ==> x !in live)
    && (forall x :: IsElemOf(c, x) <==> x in c.free || x in live)
    && (forall x :: x in c.mem ==> x in live)
  }

  /** A successful `slab_init` gives a valid cache with no element in use. */
  lemma InitValid(prior: Cache, elementSize: u32, large: bool)
    requires Init(prior, elementSize, large).0 == ESuccess
    ensures Valid(Init(prior, elementSize, large).1, {})
  {
    var c0 := Cache(elementSize, large, [], [], 0, map[]);
    assert forall x :: !IsElemOf(c0, x);
    AddSlabValid(c0, {});
  }

  lemma ReverseAt<T>(s: seq<T>, k: nat)
    requires k < |s|
    ensures Reverse(s)[k] == s[|s| - 1 - k]
  {
  }

  lemma ReverseDistinct<T>(s: seq<T>)
    requires Distinct(s)
    ensures Distinct(Reverse(s))
  {
    var r := Reverse(s);
    forall i, j | 0 <= i < j < |r| ensures r[i] != r[j] {
      assert r[i] == s[|s| - 1 - i] && r[j] == s[|s| - 1 - j];
    }
  }

  /** Obtaining a slab when the free list is empty keeps the cache valid:
      the new slab's elements are all free and belong to nobody. */
  lemma AddSlabValid(c: Cache, live: set<Elem>)
    requires Valid(c, live)
    requires |c.free| == 0
    ensures Valid(AddSlab(c), live)
  {
    var es := SlabElems(c, c.nextSlab);
    OffsetsDistinct(c.elemSize, SlabSize(c.large), FirstElem(c.elemSize));
    assert Distinct(es);
    ReverseDistinct(es);
    AddSlabFreeNotLive(c, live);
    AddSlabCovers(c, live);
  }

  /** The new slab's elements belong to nobody. */
  lemma AddSlabFreeNotLive(c: Cache, live: set<Elem>)
    requires Valid(c, live)
    requires |c.free| == 0
    ensures forall y :: y in AddSlab(c).free ==> y !in live
  {
    var c1 := AddSlab(c);
    var es := SlabElems(c, c.nextSlab);
    forall y | y in c1.free ensures y !in live {
      var k :| 0 <= k < |c1.free| && c1.free[k] == y;
      ReverseAt(es, k);
      assert !IsElemOf(c, y);
    }
  }

  /** After the new slab is added, every element is free or held. */
  lemma AddSlabCovers(c: Cache, live: set<Elem>)
    requires Valid(c, live)
    requires |c.free| == 0
    ensures forall y :: IsElemOf(AddSlab(c), y) <==> y in AddSlab(c).free || y in live
  {
    forall y: Elem ensures IsElemOf(AddSlab(c), y) <==> y in AddSlab(c).free || y in live {
      assert IsElemOf(c, y) <==> y in live;
      AddSlabCoversOne(c, live, y);
    }
  }

  lemma AddSlabCoversOne(c: Cache, live: set<Elem>, y: Elem)
    requires Configured(c) && |c.free| == 0
    requires IsElemOf(c, y) <==> y in live
    ensures IsElemOf(AddSlab(c), y) <==> y in AddSlab(c).free || y in live
  {
    var free := AddSlab(c).free;
    var es := SlabElems(c, c.nextSlab);
    var offs := SlabOffsets(c.elemSize, c.large);
    assert free == Reverse(es);
    if y.slab == c.nextSlab && y.offset in offs {
      var i :| 0 <= i < |offs| && offs[i] == y.offset;
      assert es[i] == y;
      ReverseAt(es, |es| - 1 - i);
    }
    if y in free {
      var k :| 0 <= k < |free| && free[k] == y;
      var j := |es| - 1 - k;
      ReverseAt(es, k);
      assert es[j] == Elem(c.nextSlab, offs[j]);
      assert y.offset in offs;
    }
  }

  /** Popping the free-list head hands out an element nobody holds and keeps
      the cache valid with that element held; element contents play no part. */
  lemma PopValid(c: Cache, live: set<Elem>, m: map<Elem, seq<byte>>)
    requires Valid(c, live)
    requires |c.free| > 0
    requires forall y :: y in m ==> y in live || y == c.free[0]
    ensures c.free[0] !in live
    ensures Valid(c.(free := c.free[1..], mem := m), live + {c.free[0]})
  {
    var x := c.free[0];
    var c2 := c.(free := c.free[1..], mem := m);
    forall y | y in c2.free ensures y != x && y !in live {
      var k :| 0 <= k < |c2.free| && c2.free[k] == y;
      assert c.free[k + 1] == y;
    }
    forall y: Elem ensures IsElemOf(c2, y) <==> y in c2.free || y in live + {x} {
      if y in c.free && y != x {
        var k :| 0 <= k < |c.free| && c.free[k] == y;
        assert c2.free[k - 1] == y;
      }
    }
  }

  /** No element is handed out twice: allocation returns an element no client
      holds, and the cache stays valid with that element now held. Without
      `SC_ALLOC_ZERO_MEM` nothing is known of the element's contents. */
  lemma AllocValid(c: Cache, live: set<Elem>, zero: bool)
    requires Valid(c, live)
    ensures Alloc(c, zero).1 !in live
    ensures Valid(Alloc(c, zero).0, live + {Alloc(c, zero).1})
    ensures !zero ==> Alloc(c, zero).1 !in Alloc(c, zero).0.mem
  {
    SlabNotEmpty(c);
    var c1 := if |c.free| == 0 then AddSlab(c) else c;
    if |c.free| == 0 {
      AddSlabValid(c, live);
    }
    PopValid(c1, live, Alloc(c, zero).0.mem);
    assert Alloc(c, zero).0 == c1.(free := c1.free[1..], mem := Alloc(c, zero).0.mem);
  }

  /** Freeing an element a client holds keeps the cache valid, with the
      element no longer held. */
  lemma FreeValid(c: Cache, live: set<Elem>, x: Elem)
    requires Valid(c, live)
    requires x in live
    ensures Valid(Free(c, x), live - {x})
  {
    var r := Free(c, x);
    forall i, j | 0 <= i < j < |r.free| ensures r.free[i] != r.free[j] {
      if i == 0 {
        assert r.free[j] == c.free[j - 1];
      } else {
        assert r.free[i] == c.free[i - 1] && r.free[j] == c.free[j - 1];
      }
    }
  }

  /** Free then allocate is LIFO: the element just freed comes straight back,
      and without `SC_ALLOC_ZERO_MEM` its old contents are not: the link
      word overwrote them. */
  lemma FreeThenAllocReturnsIt(c: Cache, x: Elem, zero: bool)
    requires Configured(c)
    ensures Alloc(Free(c, x), zero).1 == x
    ensures Alloc(Free(c, x), zero).0.free == c.free
    ensures !zero ==> x !in Alloc(Free(c, x), zero).0.mem
  {
  }

  /** `slab_deinit` releases every slab the cache ever obtained, each exactly
      once. */
  lemma DeinitReleasesEverySlab(c: Cache, live: set<Elem>)
    requires Valid(c, live)
    ensures Distinct(Deinit(c))
    ensures forall s: nat :: s in Deinit(c) <==> s < c.nextSlab
  {
    forall s: nat | s < c.nextSlab ensures s in Deinit(c) {
      assert c.slabs[c.nextSlab - 1 - s] == s;
    }
  }

  // ---------------------------------------------------------------------------
  // The checks in the source's own test functions

  /** `__slab_test_first_element`: header rounding for a few element sizes. */
  lemma FirstElemExamples()
    ensures FirstElem(3) == 6 && FirstElem(2) == 4 && FirstElem(7) == 7
    ensures FirstElem(8) == 8 && FirstElem(HEADER_SIZE) == 4
  {
  }

  /** `__slab_test_init`: a fresh cache of 7-byte elements holds 145 free
      elements with small slabs and 584 with large ones. */
  lemma InitElementCounts(e: u32)
    requires e == 7
    ensures |Init(ZeroCache, e, false).1.free| == 145
    ensures |Init(ZeroCache, e, true).1.free| == 584
  {
    assert FirstElem(e) == e;
  }

  /** `n` allocations in a row. */
  function AllocN(c: Cache, n: nat): (r: Cache)
    requires Configured(c)
    ensures Configured(r)
    decreases n
  {
    if n == 0 then c else AllocN(Alloc(c, false).0, n - 1)
  }

  /** While free elements last, allocation takes them in order without
      obtaining slabs. */
  lemma {:induction false} AllocNFromFreeList(c: Cache, n: nat)
    requires Configured(c)
    requires n <= |c.free|
    ensures AllocN(c, n).free == c.free[n..]
    ensures AllocN(c, n).slabs == c.slabs
    ensures AllocN(c, n).nextSlab == c.nextSlab
    decreases n
  {
    if n > 0 {
      var c1 := Alloc(c, false).0;
      AllocNFromFreeList(c1, n - 1);
      assert c1.free[n - 1..] == c.free[n..];
    }
  }

  /** `__slab_test_new_slab_alloc`: 146 allocations from a fresh small cache
      of 7-byte elements leave two slabs, and 585 from a large one too. */
  lemma NewSlabOnExhaustion(e: u32, small: nat, large: nat)
    requires e == 7 && small == 146 && large == 585
    ensures |AllocN(Init(ZeroCache, e, false).1, small).slabs| == 2
    ensures |AllocN(Init(ZeroCache, e, true).1, large).slabs| == 2
  {
    NewSlabFrom(e, false, small);
    NewSlabFrom(e, true, large);
  }

  lemma NewSlabFrom(e: u32, isLarge: bool, n: nat)
    requires e == 7 && n == (if isLarge then 585 else 146)
    ensures |AllocN(Init(ZeroCache, e, isLarge).1, n).slabs| == 2
  {
    var c := Init(ZeroCache, e, isLarge).1;
    InitConfigures(ZeroCache, e, isLarge);
    InitElementCounts(e);
    if isLarge {
      assert |c.free| == 584;
    } else {
      assert |c.free| == 145;
    }
    NewSlabAfterFreeList(c, n);
  }

  /** One allocation past the free list obtains exactly one more slab. */
  lemma {:induction false} NewSlabAfterFreeList(c: Cache, n: nat)
    requires Configured(c) && n == |c.free| + 1
    ensures |AllocN(c, n).slabs| == |c.slabs| + 1
    decreases n
  {
    var c1 := Alloc(c, false).0;
    assert AllocN(c, n) == AllocN(c1, n - 1);
    if |c.free| == 0 {
      assert AllocN(c1, 0) == c1;
    } else {
      assert |c1.free| + 1 == n - 1 && c1.slabs == c.slabs;
      NewSlabAfterFreeList(c1, n - 1);
    }
  }
}

=== FILE: stacks.dfy ===
/** Process stacks (src/stacks.c, dynamic version): a LIFO free list of
    released stacks in front of the page allocator, and `_stk_dump`, which
    prints a stack four words to a line and elides repeated lines.

    A stack is named by its address. The free list is kept as the sequence
    of those addresses, head first; the C threads it through the first
    word of each free stack, so the model forgets a stack's words once it
    is released. */
module Stacks {
  import opened Base

  /** PGS_PER_STACK (src/stacks.h) and the words of a stack, taking a
      4096-byte page (the page size is not part of this model). */
  const PGS_PER_STACK: nat := 4
  const STACK_WORDS: nat := PGS_PER_STACK * 4096 / 4

  /** `_km_page_alloc(count)`: the address of `count` fresh pages, or None. */
  type PageAllocator = nat -> Option<nat>

  /** The free list and the words held in each stack the model has seen. */
  datatype Pool = Pool(free: seq<nat>, mem: map<nat, seq<u32>>)

  /** `STACK_WORDS` zero words. */
  function Cleared(): (w: seq<u32>)
    ensures |w| == STACK_WORDS && forall i :: 0 <= i < |w| ==> w[i] == 0
  {
    seq(STACK_WORDS, _ => 0)
  }

  /** `_stk_alloc`: the head of the free list if there is one, otherwise
      PGS_PER_STACK fresh pages; whatever is handed out is cleared. */
  function StkAlloc(p: Pool, pages: PageAllocator): (r: (Pool, Option<nat>))
    ensures p.free != [] ==> r.1 == Some(p.free[0]) && r.0.free == p.free[1..]
    ensures p.free == [] ==> r.1 == pages(PGS_PER_STACK) && r.0.free == []
    ensures r.1.Some? ==> r.0.mem == p.mem[r.1.value := Cleared()]
    ensures r.1.None? ==> r.0 == p
  {
    var (free, s) := if p.free == [] then ([], pages(PGS_PER_STACK)) else (p.free[1..], Some(p.free[0]));
    match s
    case None => (Pool(free, p.mem), None)
    case Some(a) => (Pool(free, p.mem[a := Cleared()]), s)
  }

  /** `_stk_dealloc`: the stack becomes the head of the free list, and the
      link stored in its first word overwrites what it held. */
  function StkDealloc(p: Pool, s: nat): (r: Pool)
    ensures r.free == [s] + p.free
    ensures s !in r.mem
    ensures forall t :: t != s ==> (t in r.mem <==> t in p.mem)
    ensures forall t :: t in r.mem ==> r.mem[t] == p.mem[t]
  {
    Pool([s] + p.free, p.mem - {s})
  }

  /** Last in, first out: a stack just released is the next one handed
      out, and the free list is as it was. */
  lemma DeallocThenAlloc(p: Pool, s: nat, pages: PageAllocator)
    ensures StkAlloc(StkDealloc(p, s), pages).1 == Some(s)
    ensures StkAlloc(StkDealloc(p, s), pages).0.free == p.free
  {
    assert ([s] + p.free)[1..] == p.free;
  }

  /** Releasing some stacks in turn. */
  function DeallocAll(p: Pool, ss: seq<nat>): (r: Pool)
    ensures forall t :: t in r.mem <==> t in p.mem && t !in ss
    ensures forall t :: t in r.mem ==> r.mem[t] == p.mem[t]
    decreases |ss|
  {
    if |ss| == 0 then p else DeallocAll(StkDealloc(p, ss[0]), ss[1..])
  }

  /** Handing out `n` stacks in turn: the stacks in order and the pool
      after. */
  function AllocN(p: Pool, n: nat, pages: PageAllocator): (r: (Pool, seq<Option<nat>>))
    ensures |r.1| == n
    decreases n
  {
    if n == 0 then (p, [])
    else
      var (q, s) := StkAlloc(p, pages);
      var (q', ss) := AllocN(q, n - 1, pages);
      (q', [s] + ss)
  }

  lemma {:induction false} DeallocAllFree(p: Pool, ss: seq<nat>)
    ensures DeallocAll(p, ss).free == Reverse(ss) + p.free
    decreases |ss|
  {
    if |ss| > 0 {
      DeallocAllFree(StkDealloc(p, ss[0]), ss[1..]);
      assert Reverse(ss) == Reverse(ss[1..]) + [ss[0]];
    }
  }

  lemma {:induction false} AllocNFromList(p: Pool, n: nat, pages: PageAllocator)
    requires n <= |p.free|
    ensures AllocN(p, n, pages).0.free == p.free[n..]
    ensures forall i :: 0 <= i < n ==> AllocN(p, n, pages).1[i] == Some(p.free[i])
    decreases n
  {
    if n > 0 {
      var q := StkAlloc(p, pages).0;
      AllocNFromList(q, n - 1, pages);
      assert q.free == p.free[1..];
    }
  }

  /** Releasing stacks and then asking for as many hands them back in the
      reverse order, without the page allocator, and leaves the free list
      as it was. */
  lemma DeallocAllThenAlloc(p: Pool, ss: seq<nat>, pages: PageAllocator)
    ensures AllocN(DeallocAll(p, ss), |ss|, pages).0.free == p.free
    ensures forall i :: 0 <= i < |ss| ==> AllocN(DeallocAll(p, ss), |ss|, pages).1[i] == Some(ss[|ss| - 1 - i])
  {
    DeallocAllFree(p, ss);
    AllocNFromList(DeallocAll(p, ss), |ss|, pages);
    assert (Reverse(ss) + p.free)[|ss|..] == p.free;
  }

  // ---------------------------------------------------------------------------
  // `_stk_dump`

  /** A hex digit of the dump's own digit table (upper case) or of `%08x`,
      which `__cvthex` formats and which is taken to print lower case. */
  function HexDigit(v: nat, upper: bool): (c: char)
    requires v < 16
  {
    if v < 10 then ('0' as int + v) as char
    else if upper then ('A' as int + v - 10) as char
    else ('a' as int + v - 10) as char
  }

  /** The last `n` hex digits of `w`, most significant first. */
  function HexDigits(w: nat, n: nat, upper: bool): (s: string)
    ensures |s| == n
  {
    if n == 0 then [] else HexDigits(w / 16, n - 1, upper) + [HexDigit(w % 16, upper)]
  }

  function Pow16(n: nat): (p: nat)
    ensures p >= 1
  {
    if n == 0 then 1 else 16 * Pow16(n - 1)
  }

  /** The value of an upper-case hex digit. */
  function DigitValue(c: char): nat {
    if '0' <= c <= '9' then c as int - '0' as int
    else if 'A' <= c <= 'F' then c as int - 'A' as int + 10
    else 0
  }

  /** Hex digits read back, most significant first. */
  function ParseHex(s: string): nat {
    if |s| == 0 then 0 else 16 * ParseHex(s[..|s| - 1]) + DigitValue(s[|s| - 1])
  }

  lemma ModStep(w: nat, p: nat)
    requires p >= 1
    ensures 16 * ((w / 16) % p) + w % 16 == w % (16 * p)
  {
    var q := (w / 16) / p;
    assert w / 16 == q * p + (w / 16) % p;
    assert w == q * (16 * p) + (16 * ((w / 16) % p) + w % 16);
    DivModUnique(w, 16 * p, q, 16 * ((w / 16) % p) + w % 16);
  }

  /** Reading the digits back gives the value modulo 16^n. */
  lemma {:induction false} ParseHexDigits(w: nat, n: nat)
    ensures ParseHex(HexDigits(w, n, true)) == w % Pow16(n)
  {
    if n > 0 {
      var s := HexDigits(w, n, true);
      assert s[..|s| - 1] == HexDigits(w / 16, n - 1, true);
      ParseHexDigits(w / 16, n - 1);
      ModStep(w, Pow16(n - 1));
    }
  }

  /** Eight upper-case digits determine a 32-bit word. */
  lemma HexWordRoundTrip(w: u32)
    ensures ParseHex(HexDigits(w, 8, true)) == w
  {
    Pow16Eight();
    ParseHexDigitsWord(w, 8);
  }

  lemma ParseHexDigitsWord(w: nat, n: nat)
    requires w < Pow16(n)
    ensures ParseHex(HexDigits(w, n, true)) == w
  {
    ParseHexDigits(w, n);
  }

  lemma Pow16Eight()
    ensures Pow16(8) == TWO_32
  {
    assert Pow16(2) == 256;
    assert Pow16(4) == 256 * Pow16(2);
    assert Pow16(6) == 256 * Pow16(4);
    assert Pow16(8) == 256 * Pow16(6);
  }

  /** A byte of the character field: itself when printable, '.' otherwise. */
  function CharOf(b: nat): (c: char)
    requires b < 256
    ensures 0x20 <= b < 0x7f ==> c as int == b
    ensures !(0x20 <= b < 0x7f) ==> c == '.'
  {
    if 0x20 <= b < 0x7f then b as char else '.'
  }

  /** The last `n` bytes of `w` as characters, most significant first. */
  function ByteChars(w: nat, n: nat): (s: string)
    ensures |s| == n
    ensures forall k :: 0 <= k < n ==> s[k] == '.' || 0x20 <= s[k] as int < 0x7f
  {
    if n == 0 then [] else ByteChars(w / 256, n - 1) + [CharOf(w % 256)]
  }

  /** The hex field of a line: two spaces and eight digits per word. */
  function HexField(ws: seq<u32>): (s: string)
    ensures |s| == 10 * |ws|
  {
    if |ws| == 0 then [] else "  " + HexDigits(ws[0], 8, true) + HexField(ws[1..])
  }

  /** The character field of a line: a space and four characters per word. */
  function CharField(ws: seq<u32>): (s: string)
    ensures |s| == 5 * |ws|
  {
    if |ws| == 0 then [] else " " + ByteChars(ws[0], 4) + CharField(ws[1..])
  }

  /** Different words give different hex fields: the comparison with the
      previous line compares the words themselves. */
  lemma {:induction false} HexFieldInjective(a: seq<u32>, b: seq<u32>)
    requires |a| == |b| && HexField(a) == HexField(b)
    ensures a == b
  {
    if |a| > 0 {
      var ha, hb := HexField(a), HexField(b);
      assert ha[2..10] == HexDigits(a[0], 8, true);
      assert hb[2..10] == HexDigits(b[0], 8, true);
      HexWordRoundTrip(a[0]);
      HexWordRoundTrip(b[0]);
      assert ha[10..] == HexField(a[1..]);
      assert hb[10..] == HexField(b[1..]);
      HexFieldInjective(a[1..], b[1..]);
      assert a == [a[0]] + a[1..] && b == [b[0]] + b[1..];
    }
  }

  /** The first line printed. */
  function Header(msg: Option<string>): string {
    "*** stack" + (if msg.Some? then " (" + msg.value + "):\n" else ":\n")
  }

  /** A printed line: its address, whether lines before it were elided,
      and its four words. */
  datatype DumpLine = DumpLine(addr: u32, star: bool, words: seq<u32>)

  /** The text of a line: the address in eight lower-case digits, '*' when
      lines before it were elided, then the two fields. */
  function Render(l: DumpLine): (s: string)
    ensures |s| == 11 + 15 * |l.words| && s[8] == (if l.star then '*' else ' ') && s[|s| - 1] == '\n'
  {
    HexDigits(l.addr, 8, false) + [if l.star then '*' else ' '] + HexField(l.words) + " " + CharField(l.words) + "\n"
  }

  /** The text of some lines, one string per line. */
  function RenderAll(ls: seq<DumpLine>): (r: seq<string>)
    ensures |r| == |ls| && forall i :: 0 <= i < |ls| ==> r[i] == Render(ls[i])
  {
    seq(|ls|, i requires 0 <= i < |ls| => Render(ls[i]))
  }

  /** The words `_stk_dump` shows: the first index and the count. With a
      limit the count is rounded up to a multiple of four and the last
      that many words are shown; the count is a C `int`, so a limit of
      2^31 or more (or one that rounds up to it) shows nothing. None when
      the words would start before the stack. */
  function Window(n: nat, limit: u32): (r: Option<(nat, nat)>)
    ensures r.Some? ==> r.value.0 + r.value.1 == n
    ensures limit == 0 ==> r == Some((0, n))
    ensures r.Some? && 0 < limit && r.value.1 > 0 ==> limit <= r.value.1 < limit + 4 && r.value.1 % 4 == 0
    ensures n % 4 == 0 && 0 < limit < 0x7FFF_FFFC && r.None? ==> limit > n
  {
    if limit == 0 then Some((0, n))
    else
      var words: int := if limit >= 0x8000_0000 then limit - TWO_32 else limit;
      var rounded := if words % 4 != 0 then words - words % 4 + 4 else words;
      var wrapped := if rounded >= 0x8000_0000 then rounded - TWO_32 else rounded;
      if wrapped <= 0 then Some((n, 0))
      else if wrapped > n then None
      else Some((n - wrapped, wrapped))
  }

  /** Line `j` of the shown words. */
  function Group(stk: seq<u32>, start: nat, j: nat): (g: seq<u32>)
    requires start + 4 * j + 4 <= |stk|
    ensures |g| == 4
  {
    stk[start + 4 * j..start + 4 * j + 4]
  }

  /** Line `j` is printed when it is the first or its words differ from
      those of the line before it. */
  predicate Kept(stk: seq<u32>, start: nat, j: nat)
    requires start + 4 * j + 4 <= |stk|
  {
    j == 0 || Group(stk, start, j) != Group(stk, start, j - 1)
  }

  /** The lines printed for the first `m` lines of the shown words, the
      first at address `addr`: each kept line, marked when the line before
      it was not. */
  function Printed(stk: seq<u32>, start: nat, m: nat, addr: u32): seq<DumpLine>
    requires start + 4 * m <= |stk|
  {
    if m == 0 then [] else Printed(stk, start, m - 1, addr) + LineOut(stk, start, addr, m - 1)
  }

  /** What line `j` contributes: itself when kept, marked when the line
      before it was not; nothing otherwise. */
  function LineOut(stk: seq<u32>, start: nat, addr: u32, j: nat): seq<DumpLine>
    requires start + 4 * j + 4 <= |stk|
  {
    if Kept(stk, start, j) then [DumpLine(AddU32(addr, 16 * j), j > 0 && !Kept(stk, start, j - 1), Group(stk, start, j))] else []
  }

  /** The lines `_stk_dump(msg, stk, limit)` prints after its header, for a
      stack at address `base`; None when they would start before the
      stack. */
  function Dumped(stk: seq<u32>, base: u32, limit: u32): Option<seq<DumpLine>>
    requires |stk| % 4 == 0
  {
    match Window(|stk|, limit)
    case None => None
    case Some((start, w)) => Some(Printed(stk, start, w / 4, AddU32(base, 4 * start)))
  }

  /** What `_stk_dump(msg, stk, limit)` prints, line by line. */
  function DumpOutput(msg: Option<string>, stk: seq<u32>, base: u32, limit: u32): Option<seq<string>>
    requires |stk| % 4 == 0
  {
    match Dumped(stk, base, limit)
    case None => None
    case Some(ls) => Some([Header(msg)] + RenderAll(ls))
  }

  /** `_stk_dump` as the C performs it: the window, the header, then the
      lines. The stack is a multiple of four words long, as the C assumes. */
  method StkDump(msg: Option<string>, stk: seq<u32>, base: u32, limit: u32) returns (out: Option<seq<string>>)
    requires |stk| % 4 == 0
    ensures out == DumpOutput(msg, stk, base, limit)
  {
    var window := Window(|stk|, limit);
    if window.None? {
      return None;
    }
    var start, words := window.value.0, window.value.1;
    var lines := DumpLines(stk, start, words / 4, AddU32(base, 4 * start));
    return Some([Header(msg)] + RenderAll(lines));
  }

  /** What the loop of `_stk_dump` keeps after `j` lines: the address of
      the next line, the hex field last printed (the one of line `j - 1`,
      which equals it when elided), whether line `j - 1` was elided, and
      the lines printed so far. */
  predicate DumpState(stk: seq<u32>, start: nat, m: nat, addr0: u32, j: nat,
                      addr: u32, oldbuf: string, eliding: nat, lines: seq<DumpLine>)
    requires start + 4 * m <= |stk|
  {
    j <= m &&
    addr == AddU32(addr0, 16 * j) &&
    oldbuf == (if j == 0 then "" else HexField(Group(stk, start, j - 1))) &&
    (eliding != 0 <==> j > 0 && !Kept(stk, start, j - 1)) &&
    lines == Printed(stk, start, j, addr0)
  }

  /** The loop of `_stk_dump`: the previous printed hex field is kept in a
      buffer, and a counter of elided lines sets the mark. */
  method DumpLines(stk: seq<u32>, start: nat, m: nat, addr0: u32) returns (lines: seq<DumpLine>)
    requires start + 4 * m <= |stk|
    ensures lines == Printed(stk, start, m, addr0)
  {
    var addr := addr0;
    lines := [];
    var oldbuf: string := "";
    var eliding: nat := 0;
    var j: nat := 0;
    DumpStart(stk, start, m, addr0);
    while j < m
      invariant j <= m
      invariant DumpState(stk, start, m, addr0, j, addr, oldbuf, eliding, lines)
      decreases m - j
    {
      addr, oldbuf, eliding, lines := DumpPass(stk, start, m, addr0, j, addr, oldbuf, eliding, lines);
      j := j + 1;
    }
    DumpEnd(stk, start, m, addr0, j, addr, oldbuf, eliding, lines);
  }

  /** Before the first pass nothing is printed and the buffer is empty. */
  lemma DumpStart(stk: seq<u32>, start: nat, m: nat, addr0: u32)
    requires start + 4 * m <= |stk|
    ensures DumpState(stk, start, m, addr0, 0, addr0, "", 0, [])
  {
  }

  /** After the last pass every line has been printed or elided. */
  lemma DumpEnd(stk: seq<u32>, start: nat, m: nat, addr0: u32, j: nat,
                addr: u32, oldbuf: string, eliding: nat, lines: seq<DumpLine>)
    requires start + 4 * m <= |stk| && j >= m
    requires DumpState(stk, start, m, addr0, j, addr, oldbuf, eliding, lines)
    ensures lines == Printed(stk, start, m, addr0)
  {
  }

  /** One pass of the loop of `_stk_dump`: the fields of line `j`, then the
      comparison with the buffer. */
  method DumpPass(stk: seq<u32>, start: nat, m: nat, addr0: u32, j: nat,
                  addr: u32, oldbuf: string, eliding: nat, lines: seq<DumpLine>)
    returns (addr': u32, oldbuf': string, eliding': nat, lines': seq<DumpLine>)
    requires start + 4 * m <= |stk| && j < m
    requires DumpState(stk, start, m, addr0, j, addr, oldbuf, eliding, lines)
    ensures DumpState(stk, start, m, addr0, j + 1, addr', oldbuf', eliding', lines')
  {
    var g := stk[start + 4 * j..start + 4 * j + 4];
    var buf := HexField(g);
    addr' := AddU32(addr, 16);
    if oldbuf == buf {
      ElideKeeps(stk, start, m, addr0, j, addr, oldbuf, eliding, lines);
      oldbuf', eliding', lines' := oldbuf, eliding + 1, lines;
    } else {
      PrintKeeps(stk, start, m, addr0, j, addr, oldbuf, eliding, lines);
      oldbuf', eliding', lines' := buf, 0, lines + [DumpLine(addr, eliding != 0, g)];
    }
  }

  /** The address and buffer facts of one pass of the loop. */
  lemma NextAddr(addr0: u32, j: nat, addr: u32)
    requires addr == AddU32(addr0, 16 * j)
    ensures AddU32(addr, 16) == AddU32(addr0, 16 * (j + 1))
  {
    AddAddU32(addr0, 16 * j, 16);
    assert 16 * j + 16 == 16 * (j + 1);
  }

  /** A pass that elides line `j` keeps `DumpState`. */
  lemma ElideKeeps(stk: seq<u32>, start: nat, m: nat, addr0: u32, j: nat,
                   addr: u32, oldbuf: string, eliding: nat, lines: seq<DumpLine>)
    requires start + 4 * m <= |stk| && j < m
    requires DumpState(stk, start, m, addr0, j, addr, oldbuf, eliding, lines)
    requires oldbuf == HexField(stk[start + 4 * j..start + 4 * j + 4])
    ensures DumpState(stk, start, m, addr0, j + 1, AddU32(addr, 16), oldbuf, eliding + 1, lines)
  {
    assert stk[start + 4 * j..start + 4 * j + 4] == Group(stk, start, j);
    NextAddr(addr0, j, addr);
    KeptStep(stk, start, j, oldbuf);
    ElideStep(stk, start, m, addr0, j, lines);
  }

  /** A pass that prints line `j` keeps `DumpState`. */
  lemma PrintKeeps(stk: seq<u32>, start: nat, m: nat, addr0: u32, j: nat,
                   addr: u32, oldbuf: string, eliding: nat, lines: seq<DumpLine>)
    requires start + 4 * m <= |stk| && j < m
    requires DumpState(stk, start, m, addr0, j, addr, oldbuf, eliding, lines)
    requires oldbuf != HexField(stk[start + 4 * j..start + 4 * j + 4])
    ensures var g := stk[start + 4 * j..start + 4 * j + 4];
            DumpState(stk, start, m, addr0, j + 1, AddU32(addr, 16), HexField(g), 0, lines + [DumpLine(addr, eliding != 0, g)])
  {
    assert stk[start + 4 * j..start + 4 * j + 4] == Group(stk, start, j);
    NextAddr(addr0, j, addr);
    KeptStep(stk, start, j, oldbuf);
    PrintStep(stk, start, m, addr0, j, eliding != 0, lines);
  }

  /** An elided line adds nothing to what is printed. */
  lemma ElideStep(stk: seq<u32>, start: nat, m: nat, addr0: u32, j: nat, lines: seq<DumpLine>)
    requires start + 4 * m <= |stk| && j < m && !Kept(stk, start, j)
    requires lines == Printed(stk, start, j, addr0)
    ensures lines == Printed(stk, start, j + 1, addr0)
  {
    assert lines + [] == lines;
  }

  /** A kept line is printed next, marked when the line before it was
      elided. */
  lemma PrintStep(stk: seq<u32>, start: nat, m: nat, addr0: u32, j: nat, star: bool, lines: seq<DumpLine>)
    requires start + 4 * m <= |stk| && j < m && Kept(stk, start, j)
    requires star <==> j > 0 && !Kept(stk, start, j - 1)
    requires lines == Printed(stk, start, j, addr0)
    ensures lines + [DumpLine(AddU32(addr0, 16 * j), star, Group(stk, start, j))] == Printed(stk, start, j + 1, addr0)
  {
  }

  /** The buffer comparison decides whether a line is kept. */
  lemma KeptStep(stk: seq<u32>, start: nat, j: nat, oldbuf: string)
    requires start + 4 * j + 4 <= |stk|
    requires oldbuf == if j == 0 then "" else HexField(Group(stk, start, j - 1))
    ensures oldbuf == HexField(Group(stk, start, j)) <==> !Kept(stk, start, j)
  {
    KeptIffFieldChanged(stk, start, j);
  }

  lemma AddAddU32(a: int, b: int, c: int)
    ensures AddU32(AddU32(a, b), c) == AddU32(a, b + c)
  {
    var s := a + b;
    DivModUnique(s % TWO_32 + c, TWO_32, (s + c) / TWO_32 - s / TWO_32, (s + c) % TWO_32);
  }

  /** The line on which line `j` is shown: `j` itself when it is printed,
      otherwise the printed line it repeats. */
  function ShownAt(stk: seq<u32>, start: nat, j: nat): (k: nat)
    requires start + 4 * j + 4 <= |stk|
    ensures k <= j && Kept(stk, start, k)
  {
    if Kept(stk, start, j) then j else ShownAt(stk, start, j - 1)
  }

  /** Eliding loses no words: every line not printed holds the same words
      as the printed line it repeats. */
  lemma {:induction false} ElidedRepeatsShown(stk: seq<u32>, start: nat, j: nat)
    requires start + 4 * j + 4 <= |stk|
    ensures Group(stk, start, ShownAt(stk, start, j)) == Group(stk, start, j)
  {
    if !Kept(stk, start, j) {
      ElidedRepeatsShown(stk, start, j - 1);
    }
  }

  /** Comparing the printed hex fields, as the C does, is comparing the
      words: a line is kept exactly when its hex field differs from the
      one before it. */
  lemma KeptIffFieldChanged(stk: seq<u32>, start: nat, j: nat)
    requires start + 4 * j + 4 <= |stk|
    ensures Kept(stk, start, j) <==> j == 0 || HexField(Group(stk, start, j)) != HexField(Group(stk, start, j - 1))
  {
    if j > 0 && HexField(Group(stk, start, j)) == HexField(Group(stk, start, j - 1)) {
      HexFieldInjective(Group(stk, start, j), Group(stk, start, j - 1));
    }
  }

  /** A sixteen-word stack of two zero lines and two lines [1, 0, 0, 0]:
      the second zero line is elided and the line after it marked; the
      repeat at the end is elided with no mark anywhere, since the mark
      only appears on a later printed line. */
  lemma DumpExample(stk: seq<u32>, base: u32)
    requires stk == [0, 0, 0, 0, 0, 0, 0, 0, 1, 0, 0, 0, 1, 0, 0, 0]
    requires base + 48 < TWO_32
    ensures Dumped(stk, base, 0) == Some([DumpLine(base, false, [0, 0, 0, 0]), DumpLine(base + 32, true, [1, 0, 0, 0])])
  {
    ExamplePrinted(stk, base);
    assert Window(|stk|, 0) == Some((0, 16));
    assert AddU32(base, 4 * 0) == base && 16 / 4 == 4;
    assert Dumped(stk, base, 0) == Some(Printed(stk, 0, 16 / 4, AddU32(base, 4 * 0)));
  }

  lemma ExamplePrinted(stk: seq<u32>, base: u32)
    requires stk == [0, 0, 0, 0, 0, 0, 0, 0, 1, 0, 0, 0, 1, 0, 0, 0]
    requires base + 48 < TWO_32
    ensures Printed(stk, 0, 4, base) == [DumpLine(base, false, [0, 0, 0, 0]), DumpLine(base + 32, true, [1, 0, 0, 0])]
  {
    var l0 := DumpLine(base, false, [0, 0, 0, 0]);
    var l2 := DumpLine(base + 32, true, [1, 0, 0, 0]);
    ExampleGroups(stk);
    assert AddU32(base, 16 * 0) == base && AddU32(base, 16 * 2) == base + 32;
    assert LineOut(stk, 0, base, 0) == [l0];
    assert LineOut(stk, 0, base, 2) == [l2];
    assert Printed(stk, 0, 1, base) == [l0];
    assert Printed(stk, 0, 2, base) == [l0] + [];
    assert Printed(stk, 0, 3, base) == [l0] + [l2];
    assert Printed(stk, 0, 4, base) == [l0, l2] + [];
  }

  lemma ExampleGroups(stk: seq<u32>)
    requires stk == [0, 0, 0, 0, 0, 0, 0, 0, 1, 0, 0, 0, 1, 0, 0, 0]
    ensures Group(stk, 0, 0) == [0, 0, 0, 0] && Group(stk, 0, 2) == [1, 0, 0, 0]
    ensures !Kept(stk, 0, 1) && Kept(stk, 0, 2) && !Kept(stk, 0, 3)
  {
    ExampleGroup(stk, 0, [0, 0, 0, 0]);
    ExampleGroup(stk, 1, [0, 0, 0, 0]);
    ExampleGroup(stk, 2, [1, 0, 0, 0]);
    ExampleGroup(stk, 3, [1, 0, 0, 0]);
  }

  lemma ExampleGroup(stk: seq<u32>, j: nat, g: seq<u32>)
    requires stk == [0, 0, 0, 0, 0, 0, 0, 0, 1, 0, 0, 0, 1, 0, 0, 0]
    requires j < 4 && g == [if j < 2 then 0 else 1, 0, 0, 0]
    ensures Group(stk, 0, j) == g
  {
    var h := Group(stk, 0, j);
    assert h[0] == stk[4 * j] && h[1] == stk[4 * j + 1] && h[2] == stk[4 * j + 2] && h[3] == stk[4 * j + 3];
  }

}

=== FILE: syscalls.dfy ===
/** The VFS system calls of src/kern/syscalls.c and the kfile store of
    src/vfs/vfs.c, over one process: its fd table and cwd, the dirent cache
    and inode table, the open-file handles and the slab cache behind them.

    Each call is a pure function from the state (and the driver callbacks)
    to the new state and what user space sees. */
module Syscalls {
  import opened Base
  import opened Codes
  import opened KString
  import opened Vfs
  import Slab
  import Namey

  /** `sizeof(kfile_t)` on the 32-bit target: two pointers, a `uint32_t`,
      a `uint8_t` padded to 4, and one more pointer. */
  const KFILE_SIZE: nat := 20

  /** The kernel state the VFS calls touch. `fds` is `_current->open_files`
      (its length is VFS_MAX_OPEN_FILES; None is a NULL slot); `files` maps a
      handle, i.e. a slab element, to the `kfile_t` stored there. */
  datatype Sys = Sys(
    vfs: Vfs,
    files: map<Slab.Elem, KFile>,
    cache: Slab.Cache,
    fds: seq<Option<Slab.Elem>>,
    cwd: DirentId)

  /** What the C code takes for granted about the state it dereferences:
      the cache is well formed and the cwd is a positive dirent, every fd slot
      points at a live handle, every handle at an inode, and the kfile cache
      has been set up. */
  ghost predicate Sane(s: Sys) {
    && Valid(s.vfs) && Positive(s.vfs, s.cwd)
    && Slab.Configured(s.cache)
    && (forall fd :: 0 <= fd < |s.fds| && s.fds[fd].Some? ==> s.fds[fd].value in s.files)
    && (forall h :: h in s.files ==> s.files[h].inode in s.vfs.inodes)
  }

  /** `IS_BAD_FD`. */
  predicate BadFd(s: Sys, fd: int) {
    fd < 0 || fd >= |s.fds| || s.fds[fd].None?
  }

  /** The handle behind a good fd. */
  function Handle(s: Sys, fd: int): (f: KFile)
    requires Sane(s) && !BadFd(s, fd)
    ensures f == s.files[s.fds[fd].value] && f.inode in s.vfs.inodes
  {
    s.files[s.fds[fd].value]
  }

  // ---------------------------------------------------------------------------
  // The kfile store (src/vfs/vfs.c)

  /** `_vfs_init`: the kfile cache, set up for `kfile_t` elements in large
      slabs; `slab_init`'s status is dropped. */
  function VfsInit(prior: Slab.Cache): (c: Slab.Cache)
    ensures Slab.Valid(c, {}) && c.elemSize == KFILE_SIZE && c.large
  {
    var r := Slab.Init(prior, KFILE_SIZE, true);
    assert r.0 != EBadParam;
    Slab.InitValid(prior, KFILE_SIZE, true);
    r.1
  }

  /** The element-size bound `slab_init` applies as written, against the
      prior flags, and the corrected one agree for `kfile_t`: 20 bytes is
      within half of either slab size. */
  lemma VfsInitUnaffected(prior: Slab.Cache)
    ensures Slab.InitAsWritten(prior, KFILE_SIZE, true) == Slab.Init(prior, KFILE_SIZE, true)
    ensures Slab.Init(prior, KFILE_SIZE, true).0 == ESuccess
  {
  }

  /** `_vfs_allocate_file`: a zero-filled element, taken from the cache. */
  function AllocateFile(c: Slab.Cache): (r: (Slab.Cache, Slab.Elem))
    requires Slab.Configured(c)
    ensures Slab.Configured(r.0)
    ensures r.1 in r.0.mem && r.0.mem[r.1] == Zeros(c.elemSize)
  {
    Slab.Alloc(c, true)
  }

  // ---------------------------------------------------------------------------
  // fopen and fclose

  /** What `fopen` gives back: a file descriptor or an error code. */
  datatype FdOrError = Fd(fd: nat) | Error(code: SysRet)

  /** The open-for-read/write bookkeeping `fopen` refuses to break: a read
      may not join a writer, a write may not join anybody. Devices are
      exempt. */
  predicate Conflicts(ino: Inode, mode: Mode) {
    ino.itype != Dev &&
    ((mode.read && ino.hasWriter) || (mode.write && (ino.hasWriter || ino.nrReaders > 0)))
  }

  /** The inode once a handle with `mode` is opened on it: one more reader
      (the `uint32_t` wraps), a writer. Devices keep no count. */
  function Opened(ino: Inode, mode: Mode): Inode {
    if ino.itype == Dev then ino
    else ino.(nrReaders := if mode.read then (ino.nrReaders + 1) % TWO_32 else ino.nrReaders,
              hasWriter := if mode.write then true else ino.hasWriter)
  }

  /** The inode once a handle with `mode` on it is closed. */
  function Closed(ino: Inode, mode: Mode): Inode {
    if ino.itype == Dev then ino
    else ino.(nrReaders := if mode.read then (ino.nrReaders + TWO_32 - 1) % TWO_32 else ino.nrReaders,
              hasWriter := if mode.write then false else ino.hasWriter)
  }

  /** `fopen(path, mode, flags)`. `nextFd` is what `_pcb_get_next_fd`
      answers: a free slot, or a negative number when there is none. */
  function Fopen(s: Sys, d: Driver, path: Option<KStr>, mode: Mode, nextFd: int): (r: (Sys, FdOrError))
    requires Sane(s) && Namey.LookupSound(s.vfs, d.lookup)
    requires nextFd < 0 || (nextFd < |s.fds| && s.fds[nextFd].None?)
    ensures path.None? || !(mode.read || mode.write) ==> r == (s, Error(EBadParam))
    ensures r.1.Error? ==> r.0.fds == s.fds && r.0.files == s.files && r.0.vfs.inodes == s.vfs.inodes
    ensures r.0.cwd == s.cwd
    ensures r.1.Fd? ==> r.1.fd == nextFd
  {
    if path.None? || !(mode.read || mode.write) then (s, Error(EBadParam))
    else
      var n := Namey.Namey(s.vfs, d.lookup, s.cwd, path.value);
      if n.1 != Ok then (s.(vfs := n.0), Error(EFailure))
      else OpenInode(s.(vfs := n.0), d, n.2.value, mode, nextFd)
  }

  /** The part of `fopen` after the path has resolved to inode `t`. */
  function OpenInode(s: Sys, d: Driver, t: InodeId, mode: Mode, nextFd: int): (r: (Sys, FdOrError))
    requires Sane(s) && t in s.vfs.inodes
    requires nextFd < 0 || (nextFd < |s.fds| && s.fds[nextFd].None?)
    ensures r.1.Error? ==> r.0 == s.(cache := r.0.cache)
    ensures r.0.cwd == s.cwd && r.0.vfs.dirents == s.vfs.dirents
    ensures r.1.Fd? ==> r.1.fd == nextFd
    ensures var ino := s.vfs.inodes[t];
            r.1.Fd? <==> ino.fileOps.Some? && ino.fileOps.value.open && !Conflicts(ino, mode) && nextFd >= 0 && d.open(t) == Ok
  {
    var ino := s.vfs.inodes[t];
    if ino.fileOps.None? || !ino.fileOps.value.open then (s, Error(ENotSupported))
    else if Conflicts(ino, mode) then (s, Error(EAlreadyOpen))
    else if nextFd < 0 then (s, Error(EMaxFilesOpen))
    else
      var a := AllocateFile(s.cache);
      var openStatus := d.open(t);
      if openStatus != Ok then (s.(cache := Slab.Free(a.0, a.1)), Error(StatusToSysRet(openStatus)))
      else (Commit(s, t, mode, nextFd, a.0, a.1), Fd(nextFd))
  }

  /** `fclose(fd)`. The driver's `close`, when there is one, has no effect
      the VFS sees: its status is dropped. */
  function Fclose(s: Sys, fd: int): (r: (Sys, SysRet))
    requires Sane(s)
    ensures BadFd(s, fd) ==> r == (s, EBadParam)
    ensures !BadFd(s, fd) ==> r.1 == ESuccess && r.0.fds == s.fds[fd := None] && r.0.cwd == s.cwd
    ensures !BadFd(s, fd) ==> r.0.files == s.files - {s.fds[fd].value}
  {
    if BadFd(s, fd) then (s, EBadParam)
    else
      var h := s.fds[fd].value;
      var f := s.files[h];
      var v := s.vfs.(inodes := s.vfs.inodes[f.inode := Closed(s.vfs.inodes[f.inode], f.mode)]);
      (s.(vfs := v, fds := s.fds[fd := None], files := s.files - {h}, cache := Slab.Free(s.cache, h)),
       ESuccess)
  }

  // ---------------------------------------------------------------------------
  // fread and fwrite

  /** Which of `fread` and `fwrite`: the two are the same code with the
      mode bit, the driver callback and its presence flag swapped. */
  datatype Direction = Reading | Writing

  predicate Permits(m: Mode, dir: Direction) {
    if dir == Reading then m.read else m.write
  }

  predicate Provides(ops: FileOps, dir: Direction) {
    if dir == Reading then ops.read else ops.write
  }

  /** The offset the driver is handed: devices always get 0, everything else
      the handle's cursor. */
  function OffsetFor(s: Sys, f: KFile): (off: u32)
    requires f.inode in s.vfs.inodes
  {
    if s.vfs.inodes[f.inode].itype == Dev then 0 else f.rwhead
  }

  /** `fread`/`fwrite(fd, buf, num_bytes, flags, status)`: the new state,
      the count returned and the status stored. `hasBuf` is `buf != NULL`.
      Only the handle behind `fd` changes, and only its cursor, which
      advances by the count returned, modulo 2^32, whatever the status. */
  function Transfer(s: Sys, d: Driver, dir: Direction, fd: int, hasBuf: bool, num: u32): (r: (Sys, u32, SysRet))
    requires Sane(s)
    ensures r.0.fds == s.fds && r.0.vfs == s.vfs && r.0.cache == s.cache && r.0.cwd == s.cwd
    ensures BadFd(s, fd) || !hasBuf ==> r == (s, 0, EBadParam)
    ensures !BadFd(s, fd) ==>
              var h := s.fds[fd].value;
              r.0.files == s.files[h := s.files[h].(rwhead := AddU32(s.files[h].rwhead, r.1))]
  {
    if BadFd(s, fd) || !hasBuf then (s, 0, EBadParam)
    else
      var h := s.fds[fd].value;
      var f := Handle(s, fd);
      if !Permits(f.mode, dir) then
        assert s.files[h := f.(rwhead := AddU32(f.rwhead, 0))] == s.files;
        (s, 0, EBadAction)
      else if f.ops.None? || !Provides(f.ops.value, dir) then
        assert s.files[h := f.(rwhead := AddU32(f.rwhead, 0))] == s.files;
        (s, 0, ENotSupported)
      else
        var a := if dir == Reading then d.read(f, num, OffsetFor(s, f)) else d.write(f, num, OffsetFor(s, f));
        (s.(files := s.files[h := f.(rwhead := AddU32(f.rwhead, a.1))]), a.1, StatusToSysRet(a.0))
  }

  /** A handle not open in the direction asked, or whose file has no such
      callback, moves nothing and keeps its cursor; only a handle that may
      and can move bytes reports a count. */
  lemma TransferRefusals(s: Sys, d: Driver, dir: Direction, fd: int, hasBuf: bool, num: u32)
    requires Sane(s) && !BadFd(s, fd) && hasBuf
    ensures var f := Handle(s, fd);
            !Permits(f.mode, dir) ==> Transfer(s, d, dir, fd, hasBuf, num) == (s, 0, EBadAction)
    ensures var f := Handle(s, fd);
            Permits(f.mode, dir) && (f.ops.None? || !Provides(f.ops.value, dir)) ==>
              Transfer(s, d, dir, fd, hasBuf, num) == (s, 0, ENotSupported)
    ensures var f := Handle(s, fd);
            Transfer(s, d, dir, fd, hasBuf, num).1 > 0 ==> Permits(f.mode, dir) && f.ops.Some? && Provides(f.ops.value, dir)
  {
  }

  /** `fread`: what the driver's `read` reports, asked at the handle's
      cursor (offset 0 for a device). */
  function Fread(s: Sys, d: Driver, fd: int, hasBuf: bool, num: u32): (r: (Sys, u32, SysRet))
    requires Sane(s)
    ensures r.1 > 0 ==> !BadFd(s, fd) && Handle(s, fd).mode.read
    ensures BadFd(s, fd) || !hasBuf ==> r == (s, 0, EBadParam)
    ensures !BadFd(s, fd) && hasBuf && Handle(s, fd).mode.read && Handle(s, fd).ops.Some? && Handle(s, fd).ops.value.read ==>
              var f := Handle(s, fd);
              var a := d.read(f, num, OffsetFor(s, f));
              r.1 == a.1 && r.2 == StatusToSysRet(a.0)
  {
    Transfer(s, d, Reading, fd, hasBuf, num)
  }

  /** `fwrite`: what the driver's `write` reports, asked at the handle's
      cursor (offset 0 for a device). */
  function Fwrite(s: Sys, d: Driver, fd: int, hasBuf: bool, num: u32): (r: (Sys, u32, SysRet))
    requires Sane(s)
    ensures r.1 > 0 ==> !BadFd(s, fd) && Handle(s, fd).mode.write
    ensures BadFd(s, fd) || !hasBuf ==> r == (s, 0, EBadParam)
    ensures !BadFd(s, fd) && hasBuf && Handle(s, fd).mode.write && Handle(s, fd).ops.Some? && Handle(s, fd).ops.value.write ==>
              var f := Handle(s, fd);
              var a := d.write(f, num, OffsetFor(s, f));
              r.1 == a.1 && r.2 == StatusToSysRet(a.0)
  {
    Transfer(s, d, Writing, fd, hasBuf, num)
  }

  // ---------------------------------------------------------------------------
  // flistdir and fioctl

  /** `flistdir(fd, buffer, count, status, flags)` as written: the O_READ
      check stores E_BAD_ACTION but does not return, so the directory is
      iterated anyway and the iteration's status replaces that value. The
      result is the count returned and the status stored. */
  function FlistdirAsWritten(s: Sys, d: Driver, fd: int, count: u32): (r: (u32, SysRet))
    requires Sane(s)
    ensures BadFd(s, fd) ==> r == (0, EBadParam)
    ensures !BadFd(s, fd) && !Listable(s, fd) ==> r == (0, ENotSupported)
    ensures Listable(s, fd) ==> var a := d.iterate(Handle(s, fd), count);
                                r == (a.1, StatusToSysRet(a.0))
  {
    if BadFd(s, fd) then (0, EBadParam)
    else
      var f := Handle(s, fd);
      if f.ops.None? || !f.ops.value.iterate || s.vfs.inodes[f.inode].itype != Dir then (0, ENotSupported)
      else
        var a := d.iterate(f, count);
        (a.1, StatusToSysRet(a.0))
  }

  /** A directory handle that may be iterated: a good fd, on a directory,
      whose file has `iterate_shared`. */
  predicate Listable(s: Sys, fd: int)
    requires Sane(s)
  {
    !BadFd(s, fd) && Handle(s, fd).ops.Some? && Handle(s, fd).ops.value.iterate &&
    s.vfs.inodes[Handle(s, fd).inode].itype == Dir
  }

  /** `flistdir` with the missing `return` restored: a handle not open for
      reading is refused before the driver is asked, so entries are only
      ever listed through a readable directory handle. */
  function Flistdir(s: Sys, d: Driver, fd: int, count: u32): (r: (u32, SysRet))
    requires Sane(s)
    ensures BadFd(s, fd) ==> r == (0, EBadParam)
    ensures !BadFd(s, fd) && !Listable(s, fd) ==> r == (0, ENotSupported)
    ensures Listable(s, fd) && !Handle(s, fd).mode.read ==> r == (0, EBadAction)
    ensures r.0 > 0 || r.1 == ESuccess ==> Listable(s, fd) && Handle(s, fd).mode.read
  {
    if BadFd(s, fd) then (0, EBadParam)
    else
      var f := Handle(s, fd);
      if f.ops.None? || !f.ops.value.iterate || s.vfs.inodes[f.inode].itype != Dir then (0, ENotSupported)
      else if !f.mode.read then (0, EBadAction)
      else
        var a := d.iterate(f, count);
        (a.1, StatusToSysRet(a.0))
  }

  /** On a readable handle the code as written and the corrected call
      agree, and both hand back what the driver's iteration reports. */
  lemma FlistdirReadableAgrees(s: Sys, d: Driver, fd: int, count: u32)
    requires Sane(s) && Listable(s, fd) && Handle(s, fd).mode.read
    ensures FlistdirAsWritten(s, d, fd, count) == Flistdir(s, d, fd, count)
    ensures var a := d.iterate(Handle(s, fd), count);
            Flistdir(s, d, fd, count) == (a.1, StatusToSysRet(a.0))
  {
  }

  /** The missing `return`: on a directory handle opened write-only, the code
      as written still lists the directory, and reports success whenever the
      driver does, where E_BAD_ACTION was meant. */
  lemma FlistdirAsWrittenIgnoresMode(s: Sys, d: Driver, fd: int, count: u32)
    requires Sane(s) && Listable(s, fd) && !Handle(s, fd).mode.read
    requires d.iterate(Handle(s, fd), count).0 == Ok
    ensures FlistdirAsWritten(s, d, fd, count) == (d.iterate(Handle(s, fd), count).1, ESuccess)
    ensures Flistdir(s, d, fd, count) == (0, EBadAction)
  {
  }

  /** `fioctl(fd, action, data)`; `hasData` is `data != NULL`. Whatever
      the driver answers is mapped to a syscall code; without the callback
      the answer is E_NOT_SUPPORTED. */
  function Fioctl(s: Sys, d: Driver, fd: int, action: u32, hasData: bool): (r: SysRet)
    requires Sane(s)
    ensures BadFd(s, fd) ==> r == EBadParam
    ensures !BadFd(s, fd) && (Handle(s, fd).ops.None? || !Handle(s, fd).ops.value.ioctl) ==> r == ENotSupported
    ensures !BadFd(s, fd) && Handle(s, fd).ops.Some? && Handle(s, fd).ops.value.ioctl ==>
              r == StatusToSysRet(d.ioctl(Handle(s, fd), action, hasData))
  {
    if BadFd(s, fd) then EBadParam
    else
      var f := Handle(s, fd);
      if f.ops.None? || !f.ops.value.ioctl then ENotSupported
      else StatusToSysRet(d.ioctl(f, action, hasData))
  }

  // ---------------------------------------------------------------------------
  // fseek

  /** SEEK_SET, SEEK_CURR, SEEK_END, or any other value. */
  datatype Whence = SeekSet | SeekCurr | SeekEnd | SeekOther(code: u32)

  /** An `int32_t`. */
  type i32 = x: int | -0x8000_0000 <= x < 0x8000_0000

  /** The position a seek is relative to: the cursor, the start or the end
      of the file; None for an unknown `whence`. */
  function SeekBase(f: KFile, whence: Whence, len: u32): Option<u32> {
    match whence
    case SeekCurr => Some(f.rwhead)
    case SeekSet => Some(0)
    case SeekEnd => Some(len)
    case SeekOther(_) => None
  }

  /** The cursor `fseek` computes and the checks it applies to it:
      `base + offset` in `uint32_t`, refused when the sum wrapped (a
      negative offset that went up, a positive one that went down) or lands
      past the end of the file. The wrap checks are exact: what is accepted
      is precisely the integer `base + offset` when it lies in [0, len]. */
  function SeekTarget(base: u32, offset: i32, len: u32): (r: Option<u32>)
    ensures r == if 0 <= base + offset <= len then Some(base + offset) else None
  {
    var cand := AddU32(base, offset);
    if (offset < 0 && cand > base) || (offset > 0 && cand < base) || cand > len then None
    else Some(cand)
  }

  /** `fseek(fd, offset, whence, status)`: the new state, the value returned
      and the status stored. It succeeds exactly on a good fd of a non-device
      file with `get_length`, a known `whence`, and a target inside the file;
      then the handle's cursor, and nothing else, becomes that target. */
  function Fseek(s: Sys, d: Driver, fd: int, offset: i32, whence: Whence): (r: (Sys, u32, SysRet))
    requires Sane(s)
    ensures r.0.fds == s.fds && r.0.vfs == s.vfs && r.0.cache == s.cache && r.0.cwd == s.cwd
    ensures r.2 != ESuccess ==> r.0 == s && r.1 == 0
    ensures r.2 == ESuccess <==>
              && !BadFd(s, fd)
              && s.vfs.inodes[Handle(s, fd).inode].itype != Dev
              && Handle(s, fd).ops.Some? && Handle(s, fd).ops.value.getLength
              && var len := d.getLength(Handle(s, fd));
                 var base := SeekBase(Handle(s, fd), whence, len);
                 base.Some? && 0 <= base.value + offset <= len
    ensures r.2 == ESuccess ==>
              && !BadFd(s, fd)
              && var f := Handle(s, fd);
                 var len := d.getLength(f);
                 && r.1 == SeekBase(f, whence, len).value + offset <= len
                 && r.0.files == s.files[s.fds[fd].value := f.(rwhead := r.1)]
  {
    if BadFd(s, fd) then (s, 0, EBadParam)
    else
      var h := s.fds[fd].value;
      var f := Handle(s, fd);
      if s.vfs.inodes[f.inode].itype == Dev || f.ops.None? || !f.ops.value.getLength then (s, 0, ENotSupported)
      else
        var len := d.getLength(f);
        var base := SeekBase(f, whence, len);
        if base.None? then (s, 0, EBadParam)
        else match SeekTarget(base.value, offset, len)
          case None => (s, 0, EBadParam)
          case Some(cand) => (s.(files := s.files[h := f.(rwhead := cand)]), cand, StatusToSysRet(Ok))
  }

  // ---------------------------------------------------------------------------
  // fchdir

  /** `fchdir(path)`: a path that resolves becomes the cwd, whatever kind of
      inode it names; on any failure the cwd stays. The walk may have grown
      the dirent cache either way. */
  function Fchdir(s: Sys, lookup: Namey.Lookup, path: Option<KStr>): (r: (Sys, SysRet))
    requires Sane(s) && Namey.LookupSound(s.vfs, lookup)
    ensures r.0.fds == s.fds && r.0.files == s.files && r.0.cache == s.cache
    ensures r.0.vfs.inodes == s.vfs.inodes
    ensures path.None? ==> r == (s, EBadParam)
    ensures path.Some? ==>
              var w := Namey.ResolvePath(s.vfs, lookup, s.cwd, path.value);
              && r.0.vfs == w.vfs
              && r.1 == StatusToSysRet(w.status)
              && (r.1 == ESuccess ==> r.0.cwd == w.result.value)
    ensures r.1 != ESuccess ==> r.0.cwd == s.cwd
    ensures Positive(r.0.vfs, r.0.cwd)
  {
    if path.None? then (s, EBadParam)
    else
      var w := Namey.ResolvePath(s.vfs, lookup, s.cwd, path.value);
      var s1 := s.(vfs := w.vfs);
      assert Positive(s1.vfs, s.cwd);
      if w.status != Ok then (s1, StatusToSysRet(w.status))
      else match w.result
        case None => (s1, EFailure)
        case Some(c) => (s1.(cwd := c), ESuccess)
  }

  /** `fchdir("")`: resolve_path answers E_BAD_PARAM as a status, which
      has no syscall code of its own, so the caller sees E_FAILURE and
      nothing changes. */
  lemma FchdirEmptyPath(s: Sys, lookup: Namey.Lookup)
    requires Sane(s) && Namey.LookupSound(s.vfs, lookup)
    ensures Fchdir(s, lookup, Some([])) == (s, EFailure)
  {
  }

  // ---------------------------------------------------------------------------
  // Reader/writer exclusivity

  /** Which open handles to count: all of them, those open for reading, or
      those open for writing. */
  datatype Kind = AnyMode | ReadMode | WriteMode

  predicate Counts(f: KFile, i: InodeId, k: Kind) {
    f.inode == i &&
    match k
    case AnyMode => true
    case ReadMode => f.mode.read
    case WriteMode => f.mode.write
  }

  /** Whether fd slot `j` holds a handle of kind `k` on inode `i`. */
  function Contrib(fds: seq<Option<Slab.Elem>>, files: map<Slab.Elem, KFile>, j: nat, i: InodeId, k: Kind): nat
    requires j < |fds|
  {
    if fds[j].Some? && fds[j].value in files && Counts(files[fds[j].value], i, k) then 1 else 0
  }

  /** How many of the first `n` fd slots hold a handle of kind `k` on `i`. */
  function CountTo(fds: seq<Option<Slab.Elem>>, files: map<Slab.Elem, KFile>, i: InodeId, k: Kind, n: nat): nat
    requires n <= |fds|
  {
    if n == 0 then 0 else CountTo(fds, files, i, k, n - 1) + Contrib(fds, files, n - 1, i, k)
  }

  /** How many open handles of kind `k` the process holds on inode `i`. */
  function Count(s: Sys, i: InodeId, k: Kind): nat {
    CountTo(s.fds, s.files, i, k, |s.fds|)
  }

  /** What `i_nr_readers` and `i_has_writer` promise about a file or
      directory: the reader count is the number of handles open for reading;
      there is a writer exactly when a handle is open for writing, and then
      that handle is the only one open on the inode. */
  predicate Accounted(s: Sys, i: InodeId)
    requires i in s.vfs.inodes
  {
    var ino := s.vfs.inodes[i];
    && ino.nrReaders == Count(s, i, ReadMode)
    && (ino.hasWriter <==> Count(s, i, WriteMode) > 0)
    && (ino.hasWriter ==> Count(s, i, AnyMode) == 1)
  }

  ghost predicate Exclusive(s: Sys) {
    forall i :: i in s.vfs.inodes && s.vfs.inodes[i].itype != Dev ==> Accounted(s, i)
  }

  /** No handle sits in two fd slots. */
  ghost predicate DistinctHandles(fds: seq<Option<Slab.Elem>>) {
    forall a, b :: 0 <= a < b < |fds| && fds[a].Some? ==> fds[a] != fds[b]
  }

  /** The state every VFS call keeps: the process's handles are distinct
      live kfile elements, each open for reading or writing or both, the
      kfile cache accounts for exactly the handles in use, and every file
      and directory's open bookkeeping matches the handles. */
  ghost predicate Wf(s: Sys) {
    && Sane(s)
    && Handles(s)
    && Slab.Valid(s.cache, s.files.Keys)
    && Exclusive(s)
  }

  /** The fd table is no longer than a `uint32_t` count, no handle sits in
      two slots, and every handle is open for reading or writing. */
  ghost predicate Handles(s: Sys) {
    && |s.fds| < TWO_32
    && DistinctHandles(s.fds)
    && (forall h :: h in s.files ==> s.files[h].mode.read || s.files[h].mode.write)
  }

  /** Changing what one fd slot holds changes a count by that slot's
      difference only. */
  lemma {:induction false} CountToUpdate(fds: seq<Option<Slab.Elem>>, files: map<Slab.Elem, KFile>,
                                         fds2: seq<Option<Slab.Elem>>, files2: map<Slab.Elem, KFile>,
                                         fd: nat, i: InodeId, k: Kind, n: nat)
    requires |fds2| == |fds| && fd < |fds| && n <= |fds|
    requires forall j :: 0 <= j < |fds| && j != fd ==> Contrib(fds2, files2, j, i, k) == Contrib(fds, files, j, i, k)
    ensures CountTo(fds2, files2, i, k, n) + (if fd < n then Contrib(fds, files, fd, i, k) else 0)
         == CountTo(fds, files, i, k, n) + (if fd < n then Contrib(fds2, files2, fd, i, k) else 0)
    decreases n
  {
    if n > 0 {
      CountToUpdate(fds, files, fds2, files2, fd, i, k, n - 1);
    }
  }

  /** Slots that all count the same give the same count. */
  lemma {:induction false} CountToSame(fds: seq<Option<Slab.Elem>>, files: map<Slab.Elem, KFile>,
                                       fds2: seq<Option<Slab.Elem>>, files2: map<Slab.Elem, KFile>,
                                       i: InodeId, k: Kind, n: nat)
    requires |fds2| == |fds| && n <= |fds|
    requires forall j :: 0 <= j < |fds| ==> Contrib(fds2, files2, j, i, k) == Contrib(fds, files, j, i, k)
    ensures CountTo(fds2, files2, i, k, n) == CountTo(fds, files, i, k, n)
    decreases n
  {
    if n > 0 {
      CountToSame(fds, files, fds2, files2, i, k, n - 1);
    }
  }

  /** A count of readers or writers never exceeds the count of all handles,
      which never exceeds the number of slots. */
  lemma {:induction false} CountToBounds(fds: seq<Option<Slab.Elem>>, files: map<Slab.Elem, KFile>,
                                         i: InodeId, k: Kind, n: nat)
    requires n <= |fds|
    ensures CountTo(fds, files, i, k, n) <= CountTo(fds, files, i, AnyMode, n) <= n
    decreases n
  {
    if n > 0 {
      CountToBounds(fds, files, i, k, n - 1);
    }
  }

  /** When every handle is open for reading or writing, a handle on `i` is
      counted among the readers or among the writers. */
  lemma {:induction false} CountToModes(fds: seq<Option<Slab.Elem>>, files: map<Slab.Elem, KFile>,
                                        i: InodeId, n: nat)
    requires n <= |fds|
    requires forall h :: h in files ==> files[h].mode.read || files[h].mode.write
    ensures CountTo(fds, files, i, AnyMode, n) <= CountTo(fds, files, i, ReadMode, n) + CountTo(fds, files, i, WriteMode, n)
    decreases n
  {
    if n > 0 {
      CountToModes(fds, files, i, n - 1);
    }
  }

  /** Counts after a handle is put into a free slot. */
  lemma CountOpen(s: Sys, fd: nat, h: Slab.Elem, f: KFile, i: InodeId, k: Kind)
    requires Sane(s) && fd < |s.fds| && s.fds[fd].None? && h !in s.files
    ensures CountTo(s.fds[fd := Some(h)], s.files[h := f], i, k, |s.fds|)
         == Count(s, i, k) + (if Counts(f, i, k) then 1 else 0)
  {
    CountToUpdate(s.fds, s.files, s.fds[fd := Some(h)], s.files[h := f], fd, i, k, |s.fds|);
  }

  /** Counts after a slot is cleared and its handle dropped. */
  lemma CountClose(s: Sys, fd: nat, i: InodeId, k: Kind)
    requires Sane(s) && DistinctHandles(s.fds) && !BadFd(s, fd)
    ensures var h := s.fds[fd].value;
            CountTo(s.fds[fd := None], s.files - {h}, i, k, |s.fds|)
            + (if Counts(s.files[h], i, k) then 1 else 0) == Count(s, i, k)
  {
    var h := s.fds[fd].value;
    var fds2 := s.fds[fd := None];
    var files2 := s.files - {h};
    forall j | 0 <= j < |s.fds| && j != fd
      ensures Contrib(fds2, files2, j, i, k) == Contrib(s.fds, s.files, j, i, k)
    {
      if s.fds[j].Some? {
        assert s.fds[j] != s.fds[fd];
      }
    }
    CountToUpdate(s.fds, s.files, fds2, files2, fd, i, k, |s.fds|);
  }

  /** Replacing inode records, without adding or removing any, keeps the
      dirent cache well formed and positive dirents positive. */
  lemma NewInodeRecord(v: Vfs, t: InodeId, ino: Inode, d: DirentId)
    requires Valid(v) && t in v.inodes && Positive(v, d)
    ensures Valid(v.(inodes := v.inodes[t := ino])) && Positive(v.(inodes := v.inodes[t := ino]), d)
  {
  }

  /** The walk only grows the dirent cache, so the state stays well formed
      and any dirent it returns may become the cwd. */
  lemma WfNewVfs(s: Sys, w: Vfs, c: DirentId)
    requires Wf(s) && Valid(w) && Extends(s.vfs, w) && Positive(w, c)
    ensures Wf(s.(vfs := w)) && Wf(s.(vfs := w, cwd := c))
  {
    assert Positive(w, s.cwd);
    WfSameHandles(s, s.(vfs := w));
    WfSameHandles(s, s.(vfs := w, cwd := c));
  }

  /** A state with the same handles and inode records as a well-formed one,
      a well-formed dirent cache and a kfile cache that accounts for the
      handles, is well formed. */
  lemma WfSameHandles(s: Sys, s1: Sys)
    requires Wf(s) && Valid(s1.vfs) && Positive(s1.vfs, s1.cwd)
    requires s1.fds == s.fds && s1.files == s.files && s1.vfs.inodes == s.vfs.inodes
    requires Slab.Valid(s1.cache, s1.files.Keys)
    ensures Wf(s1)
  {
    forall i | i in s1.vfs.inodes && s1.vfs.inodes[i].itype != Dev ensures Accounted(s1, i) {
      assert Accounted(s, i);
    }
  }

  /** A handle's cursor plays no part in the counts. */
  lemma CountMoveCursor(s: Sys, h: Slab.Elem, x: u32, i: InodeId, k: Kind)
    requires h in s.files
    ensures Count(s.(files := s.files[h := s.files[h].(rwhead := x)]), i, k) == Count(s, i, k)
  {
    var files2 := s.files[h := s.files[h].(rwhead := x)];
    CountToSame(s.fds, s.files, s.fds, files2, i, k, |s.fds|);
  }

  /** Moving a handle's cursor keeps the state well formed. */
  lemma WfMoveCursor(s: Sys, h: Slab.Elem, x: u32)
    requires Wf(s) && h in s.files
    ensures Wf(s.(files := s.files[h := s.files[h].(rwhead := x)]))
  {
    var s1 := s.(files := s.files[h := s.files[h].(rwhead := x)]);
    assert s1.files.Keys == s.files.Keys;
    forall i | i in s1.vfs.inodes && s1.vfs.inodes[i].itype != Dev ensures Accounted(s1, i) {
      assert Accounted(s, i);
      CountMoveCursor(s, h, x, i, ReadMode);
      CountMoveCursor(s, h, x, i, WriteMode);
      CountMoveCursor(s, h, x, i, AnyMode);
    }
    assert Sane(s1);
    assert |s1.fds| < TWO_32;
    assert Slab.Valid(s1.cache, s1.files.Keys);
    assert DistinctHandles(s1.fds);
    assert (forall h :: h in s1.files ==> s1.files[h].mode.read || s1.files[h].mode.write);
    assert Exclusive(s1);
  }

  /** The state `fopen` commits to once the driver has agreed: the inode's
      bookkeeping updated, the handle stored and put into the slot. */
  function Commit(s: Sys, t: InodeId, mode: Mode, fd: nat, c: Slab.Cache, h: Slab.Elem): (s2: Sys)
    requires t in s.vfs.inodes && fd < |s.fds|
  {
    var ino := s.vfs.inodes[t];
    s.(vfs := s.vfs.(inodes := s.vfs.inodes[t := Opened(ino, mode)]),
       cache := c,
       files := s.files[h := KFile(t, 0, mode, ino.fileOps)],
       fds := s.fds[fd := Some(h)])
  }

  /** A commit changes only the slot, which now holds the new handle, the
      handle itself, fresh at cursor 0 with the requested mode and the
      inode's file operations, the kfile cache, and the opened inode. */
  lemma CommitFrame(s: Sys, t: InodeId, mode: Mode, fd: nat, c: Slab.Cache, h: Slab.Elem)
    requires t in s.vfs.inodes && fd < |s.fds|
    ensures var s2 := Commit(s, t, mode, fd, c, h);
            && s2.cwd == s.cwd && s2.cache == c
            && s2.vfs.dirents == s.vfs.dirents && s2.vfs.root == s.vfs.root
            && |s2.fds| == |s.fds| && s2.fds[fd] == Some(h)
            && (forall k :: 0 <= k < |s.fds| && k != fd ==> s2.fds[k] == s.fds[k])
            && h in s2.files && s2.files[h] == KFile(t, 0, mode, s.vfs.inodes[t].fileOps)
            && (forall g :: g in s.files && g != h ==> g in s2.files && s2.files[g] == s.files[g])
            && s2.vfs.inodes.Keys == s.vfs.inodes.Keys
            && (forall i :: i in s.vfs.inodes && i != t ==> s2.vfs.inodes[i] == s.vfs.inodes[i])
            && s2.vfs.inodes[t] == Opened(s.vfs.inodes[t], mode)
  {
  }

  /** The bookkeeping of the opened inode after a commit. */
  lemma CommitAccounts(s: Sys, t: InodeId, mode: Mode, fd: nat, c: Slab.Cache, h: Slab.Elem)
    requires Sane(s) && |s.fds| < TWO_32 && t in s.vfs.inodes && s.vfs.inodes[t].itype != Dev
    requires Accounted(s, t)
    requires forall g :: g in s.files ==> s.files[g].mode.read || s.files[g].mode.write
    requires mode.read || mode.write
    requires !Conflicts(s.vfs.inodes[t], mode)
    requires fd < |s.fds| && s.fds[fd].None? && h !in s.files
    ensures Accounted(Commit(s, t, mode, fd, c, h), t)
  {
    var s2 := Commit(s, t, mode, fd, c, h);
    var f := KFile(t, 0, mode, s.vfs.inodes[t].fileOps);
    CountOpen(s, fd, h, f, t, ReadMode);
    CountOpen(s, fd, h, f, t, WriteMode);
    CountOpen(s, fd, h, f, t, AnyMode);
    CountToBounds(s2.fds, s2.files, t, ReadMode, |s2.fds|);
    CountToModes(s.fds, s.files, t, |s.fds|);
  }

  /** The bookkeeping of every other inode is untouched by a commit. */
  lemma CommitLeavesOthers(s: Sys, t: InodeId, mode: Mode, fd: nat, c: Slab.Cache, h: Slab.Elem, i: InodeId)
    requires Sane(s) && t in s.vfs.inodes && i in s.vfs.inodes && i != t && Accounted(s, i)
    requires fd < |s.fds| && s.fds[fd].None? && h !in s.files
    ensures Accounted(Commit(s, t, mode, fd, c, h), i)
  {
    var f := KFile(t, 0, mode, s.vfs.inodes[t].fileOps);
    CountOpen(s, fd, h, f, i, ReadMode);
    CountOpen(s, fd, h, f, i, WriteMode);
    CountOpen(s, fd, h, f, i, AnyMode);
  }

  /** A commit keeps every file and directory accounted for. */
  lemma CommitExclusive(s: Sys, t: InodeId, mode: Mode, fd: nat, c: Slab.Cache, h: Slab.Elem)
    requires Wf(s) && t in s.vfs.inodes
    requires mode.read || mode.write
    requires !Conflicts(s.vfs.inodes[t], mode)
    requires fd < |s.fds| && s.fds[fd].None? && h !in s.files
    ensures Exclusive(Commit(s, t, mode, fd, c, h))
  {
    var s2 := Commit(s, t, mode, fd, c, h);
    forall i | i in s2.vfs.inodes && s2.vfs.inodes[i].itype != Dev ensures Accounted(s2, i) {
      assert Accounted(s, i);
      if i == t {
        CommitAccounts(s, t, mode, fd, c, h);
      } else {
        CommitLeavesOthers(s, t, mode, fd, c, h, i);
      }
    }
  }

  /** A commit keeps the state sane, with distinct handles. */
  lemma CommitSane(s: Sys, t: InodeId, mode: Mode, fd: nat, c: Slab.Cache, h: Slab.Elem)
    requires Sane(s) && DistinctHandles(s.fds) && t in s.vfs.inodes
    requires fd < |s.fds| && s.fds[fd].None? && h !in s.files
    requires Slab.Configured(c)
    ensures Sane(Commit(s, t, mode, fd, c, h)) && DistinctHandles(Commit(s, t, mode, fd, c, h).fds)
  {
    var s2 := Commit(s, t, mode, fd, c, h);
    NewInodeRecord(s.vfs, t, Opened(s.vfs.inodes[t], mode), s.cwd);
    assert forall g :: g in s.files ==> g in s2.files && s2.files[g] == s.files[g];
  }

  /** A commit keeps the state well formed. */
  lemma CommitKeepsWf(s: Sys, t: InodeId, mode: Mode, fd: nat, c: Slab.Cache, h: Slab.Elem)
    requires Wf(s) && t in s.vfs.inodes
    requires mode.read || mode.write
    requires !Conflicts(s.vfs.inodes[t], mode)
    requires fd < |s.fds| && s.fds[fd].None? && h !in s.files
    requires Slab.Valid(c, s.files.Keys + {h})
    ensures Wf(Commit(s, t, mode, fd, c, h))
  {
    CommitSane(s, t, mode, fd, c, h);
    CommitExclusive(s, t, mode, fd, c, h);
    CommitStore(s, t, mode, fd, c, h);
  }

  /** After a commit the kfile cache accounts for the new handle, and every
      handle is still open for reading or writing. */
  lemma CommitStore(s: Sys, t: InodeId, mode: Mode, fd: nat, c: Slab.Cache, h: Slab.Elem)
    requires t in s.vfs.inodes && fd < |s.fds|
    requires mode.read || mode.write
    requires forall g :: g in s.files ==> s.files[g].mode.read || s.files[g].mode.write
    requires Slab.Valid(c, s.files.Keys + {h})
    ensures var s2 := Commit(s, t, mode, fd, c, h);
            && Slab.Valid(s2.cache, s2.files.Keys)
            && (forall g :: g in s2.files ==> s2.files[g].mode.read || s2.files[g].mode.write)
  {
    var s2 := Commit(s, t, mode, fd, c, h);
    assert s2.files.Keys == s.files.Keys + {h};
  }

  /** The bookkeeping of the closed handle's inode after `fclose`. */
  lemma CloseAccounts(s: Sys, fd: nat)
    requires Sane(s) && DistinctHandles(s.fds) && !BadFd(s, fd) && |s.fds| < TWO_32
    requires Handle(s, fd).inode in s.vfs.inodes && s.vfs.inodes[Handle(s, fd).inode].itype != Dev
    requires Accounted(s, Handle(s, fd).inode)
    ensures Accounted(Fclose(s, fd).0, Handle(s, fd).inode)
  {
    var t := Handle(s, fd).inode;
    var s2 := Fclose(s, fd).0;
    CountClose(s, fd, t, ReadMode);
    CountClose(s, fd, t, WriteMode);
    CountClose(s, fd, t, AnyMode);
    CountToBounds(s2.fds, s2.files, t, WriteMode, |s2.fds|);
    CountToBounds(s.fds, s.files, t, ReadMode, |s.fds|);
  }

  /** The bookkeeping of every other inode is untouched by `fclose`. */
  lemma CloseLeavesOthers(s: Sys, fd: nat, i: InodeId)
    requires Sane(s) && DistinctHandles(s.fds) && !BadFd(s, fd)
    requires i in s.vfs.inodes && i != Handle(s, fd).inode && Accounted(s, i)
    ensures Accounted(Fclose(s, fd).0, i)
  {
    CountClose(s, fd, i, ReadMode);
    CountClose(s, fd, i, WriteMode);
    CountClose(s, fd, i, AnyMode);
  }

  lemma CloseExclusive(s: Sys, fd: nat)
    requires Sane(s) && DistinctHandles(s.fds) && !BadFd(s, fd) && |s.fds| < TWO_32 && Exclusive(s)
    ensures Exclusive(Fclose(s, fd).0)
  {
    var s2 := Fclose(s, fd).0;
    var t := Handle(s, fd).inode;
    forall i | i in s2.vfs.inodes && s2.vfs.inodes[i].itype != Dev ensures Accounted(s2, i) {
      assert Accounted(s, i);
      if i == t {
        CloseAccounts(s, fd);
      } else {
        CloseLeavesOthers(s, fd, i);
      }
    }
  }

  lemma CloseSane(s: Sys, fd: nat)
    requires Sane(s) && DistinctHandles(s.fds) && !BadFd(s, fd)
    ensures Sane(Fclose(s, fd).0) && DistinctHandles(Fclose(s, fd).0.fds)
  {
    var h := s.fds[fd].value;
    var t := Handle(s, fd).inode;
    var s2 := Fclose(s, fd).0;
    NewInodeRecord(s.vfs, t, Closed(s.vfs.inodes[t], Handle(s, fd).mode), s.cwd);
    forall j | 0 <= j < |s2.fds| && s2.fds[j].Some? ensures s2.fds[j].value in s2.files {
      assert s.fds[j] != s.fds[fd];
    }
  }

  lemma CloseStore(s: Sys, fd: nat)
    requires Sane(s) && !BadFd(s, fd) && Slab.Valid(s.cache, s.files.Keys)
    requires forall g :: g in s.files ==> s.files[g].mode.read || s.files[g].mode.write
    ensures var s2 := Fclose(s, fd).0;
            && Slab.Valid(s2.cache, s2.files.Keys)
            && (forall g :: g in s2.files ==> s2.files[g].mode.read || s2.files[g].mode.write)
  {
    var h := s.fds[fd].value;
    Slab.FreeValid(s.cache, s.files.Keys, h);
    assert (s.files - {h}).Keys == s.files.Keys - {h};
  }

  /** `fclose` keeps the state well formed. */
  lemma FcloseKeepsWf(s: Sys, fd: int)
    requires Wf(s)
    ensures Wf(Fclose(s, fd).0)
  {
    if !BadFd(s, fd) {
      CloseSane(s, fd);
      CloseExclusive(s, fd);
      CloseStore(s, fd);
    }
  }

  /** `fopen` keeps the state well formed. */
  lemma FopenKeepsWf(s: Sys, d: Driver, path: Option<KStr>, mode: Mode, nextFd: int)
    requires Wf(s) && Namey.LookupSound(s.vfs, d.lookup)
    requires nextFd < 0 || (nextFd < |s.fds| && s.fds[nextFd].None?)
    ensures Wf(Fopen(s, d, path, mode, nextFd).0)
  {
    if path.Some? && (mode.read || mode.write) {
      var n := Namey.Namey(s.vfs, d.lookup, s.cwd, path.value);
      NameyKeepsWf(s, d.lookup, path.value);
      if n.1 == Ok {
        FopenWalkSucceeds(s, d, path.value, mode, nextFd);
        OpenInodeKeepsWf(s.(vfs := n.0), d, n.2.value, mode, nextFd);
      } else {
        FopenWalkFails(s, d, path.value, mode, nextFd);
      }
    }
  }

  /** The state `fopen` leaves when the path does not resolve. */
  lemma FopenWalkFails(s: Sys, d: Driver, path: KStr, mode: Mode, nextFd: int)
    requires Sane(s) && Namey.LookupSound(s.vfs, d.lookup)
    requires nextFd < 0 || (nextFd < |s.fds| && s.fds[nextFd].None?)
    requires mode.read || mode.write
    requires Namey.Namey(s.vfs, d.lookup, s.cwd, path).1 != Ok
    ensures Fopen(s, d, Some(path), mode, nextFd) == (s.(vfs := Namey.Namey(s.vfs, d.lookup, s.cwd, path).0), Error(EFailure))
  {
  }

  /** The state `fopen` leaves when the path resolves. */
  lemma FopenWalkSucceeds(s: Sys, d: Driver, path: KStr, mode: Mode, nextFd: int)
    requires Sane(s) && Namey.LookupSound(s.vfs, d.lookup)
    requires nextFd < 0 || (nextFd < |s.fds| && s.fds[nextFd].None?)
    requires mode.read || mode.write
    requires Namey.Namey(s.vfs, d.lookup, s.cwd, path).1 == Ok
    ensures var n := Namey.Namey(s.vfs, d.lookup, s.cwd, path);
            Fopen(s, d, Some(path), mode, nextFd) == OpenInode(s.(vfs := n.0), d, n.2.value, mode, nextFd)
  {
  }

  /** The path walk of `fopen` keeps the state well formed. */
  lemma NameyKeepsWf(s: Sys, lookup: Namey.Lookup, path: KStr)
    requires Wf(s) && Namey.LookupSound(s.vfs, lookup)
    ensures Wf(s.(vfs := Namey.Namey(s.vfs, lookup, s.cwd, path).0))
  {
    var n := Namey.Namey(s.vfs, lookup, s.cwd, path);
    WfNewVfs(s, n.0, s.cwd);
  }

  lemma OpenInodeKeepsWf(s: Sys, d: Driver, t: InodeId, mode: Mode, nextFd: int)
    requires Wf(s) && t in s.vfs.inodes && (mode.read || mode.write)
    requires nextFd < 0 || (nextFd < |s.fds| && s.fds[nextFd].None?)
    ensures Wf(OpenInode(s, d, t, mode, nextFd).0)
  {
    var r := OpenInode(s, d, t, mode, nextFd);
    var ino := s.vfs.inodes[t];
    if ino.fileOps.Some? && ino.fileOps.value.open && !Conflicts(ino, mode) && nextFd >= 0 {
      var a := AllocateFile(s.cache);
      Slab.AllocValid(s.cache, s.files.Keys, true);
      if d.open(t) != Ok {
        assert r.0 == s.(cache := Slab.Free(a.0, a.1));
        FreeAfterAlloc(a.0, s.files.Keys, a.1);
        WfNewCache(s, Slab.Free(a.0, a.1));
      } else {
        assert r.0 == Commit(s, t, mode, nextFd, a.0, a.1);
        CommitKeepsWf(s, t, mode, nextFd, a.0, a.1);
      }
    } else {
      assert r.0 == s;
    }
  }

  /** Handing back the element just taken leaves the kfile cache accounting
      for the same handles. */
  lemma FreeAfterAlloc(c: Slab.Cache, live: set<Slab.Elem>, h: Slab.Elem)
    requires Slab.Valid(c, live + {h}) && h !in live
    ensures Slab.Valid(Slab.Free(c, h), live)
  {
    Slab.FreeValid(c, live + {h}, h);
    assert live + {h} - {h} == live;
  }

  /** Another kfile cache that accounts for the same handles. */
  lemma WfNewCache(s: Sys, c: Slab.Cache)
    requires Wf(s) && Slab.Valid(c, s.files.Keys)
    ensures Wf(s.(cache := c))
  {
    WfSameHandles(s, s.(cache := c));
  }

  /** The refusals of `fopen` once the path has resolved, in the order the
      source checks them. A driver `open` that fails reports its own status,
      mapped. */
  lemma OpenInodeRefusals(s: Sys, d: Driver, t: InodeId, mode: Mode, nextFd: int)
    requires Sane(s) && t in s.vfs.inodes
    requires nextFd < 0 || (nextFd < |s.fds| && s.fds[nextFd].None?)
    ensures var ino := s.vfs.inodes[t];
            var r := OpenInode(s, d, t, mode, nextFd);
            && (ino.fileOps.None? || !ino.fileOps.value.open ==> r.1 == Error(ENotSupported))
            && (ino.fileOps.Some? && ino.fileOps.value.open && Conflicts(ino, mode) ==> r.1 == Error(EAlreadyOpen))
            && (ino.fileOps.Some? && ino.fileOps.value.open && !Conflicts(ino, mode) && nextFd < 0 ==>
                  r.1 == Error(EMaxFilesOpen))
            && (ino.fileOps.Some? && ino.fileOps.value.open && !Conflicts(ino, mode) && nextFd >= 0 && d.open(t) != Ok ==>
                  r.1 == Error(StatusToSysRet(d.open(t))))
  {
  }

  /** A successful `fopen` of inode `t`: a handle the process did not hold
      before, with cursor 0, the requested mode and the inode's file
      operations, sits in the free slot, and the inode counts one more
      reader or its writer. */
  lemma OpenInodeOpens(s: Sys, d: Driver, t: InodeId, mode: Mode, nextFd: int)
    requires Wf(s) && t in s.vfs.inodes
    requires nextFd < 0 || (nextFd < |s.fds| && s.fds[nextFd].None?)
    requires OpenInode(s, d, t, mode, nextFd).1.Fd?
    ensures var r := OpenInode(s, d, t, mode, nextFd);
            var ino := s.vfs.inodes[t];
            && 0 <= nextFd
            && r.0.fds[nextFd].Some? && r.0.fds == s.fds[nextFd := r.0.fds[nextFd]]
            && r.0.fds[nextFd].value !in s.files
            && r.0.files == s.files[r.0.fds[nextFd].value := KFile(t, 0, mode, ino.fileOps)]
            && r.0.vfs.inodes == s.vfs.inodes[t := Opened(ino, mode)]
  {
    var a := AllocateFile(s.cache);
    Slab.AllocValid(s.cache, s.files.Keys, true);
    assert OpenInode(s, d, t, mode, nextFd).0 == Commit(s, t, mode, nextFd, a.0, a.1);
  }

  /** `fopen` succeeds only through a path that resolved to an inode, and
      its success is then that of opening the inode (see OpenInodeOpens for
      the state it leaves). */
  lemma FopenOpens(s: Sys, d: Driver, path: Option<KStr>, mode: Mode, nextFd: int)
    requires Sane(s) && Namey.LookupSound(s.vfs, d.lookup)
    requires nextFd < 0 || (nextFd < |s.fds| && s.fds[nextFd].None?)
    requires Fopen(s, d, path, mode, nextFd).1.Fd?
    ensures path.Some? && (mode.read || mode.write)
    ensures var n := Namey.Namey(s.vfs, d.lookup, s.cwd, path.value);
            && n.1 == Ok && n.2.Some?
            && Fopen(s, d, path, mode, nextFd) == OpenInode(s.(vfs := n.0), d, n.2.value, mode, nextFd)
  {
    var n := Namey.Namey(s.vfs, d.lookup, s.cwd, path.value);
    if n.1 == Ok {
      FopenWalkSucceeds(s, d, path.value, mode, nextFd);
    } else {
      FopenWalkFails(s, d, path.value, mode, nextFd);
    }
  }

  /** Closing undoes opening: an inode opened without conflict and then
      closed with the same mode has its bookkeeping back, the reader count
      included, modulo 2^32. */
  lemma ClosedOpened(ino: Inode, mode: Mode)
    requires !Conflicts(ino, mode) && ino.nrReaders < TWO_32
    ensures Closed(Opened(ino, mode), mode) == ino
  {
  }

  /** `fclose` of the handle `fopen` just committed gives back the state
      before the open, except that the kfile cache has the element back on
      its free list. */
  lemma FcloseUndoesCommit(s: Sys, t: InodeId, mode: Mode, fd: nat, c: Slab.Cache, h: Slab.Elem)
    requires Sane(s) && DistinctHandles(s.fds) && t in s.vfs.inodes
    requires fd < |s.fds| && s.fds[fd].None? && h !in s.files
    requires Slab.Configured(c)
    requires !Conflicts(s.vfs.inodes[t], mode) && s.vfs.inodes[t].nrReaders < TWO_32
    ensures Sane(Commit(s, t, mode, fd, c, h))
    ensures Fclose(Commit(s, t, mode, fd, c, h), fd).0 == s.(cache := Slab.Free(c, h))
  {
    CommitSane(s, t, mode, fd, c, h);
    ClosedOpened(s.vfs.inodes[t], mode);
    UpdateThenRemove(s.files, h, KFile(t, 0, mode, s.vfs.inodes[t].fileOps));
    UpdateThenRemove(s.vfs.inodes, t, Opened(s.vfs.inodes[t], mode));
    assert s.fds[fd := Some(h)][fd := None] == s.fds;
  }

  /** Adding a key a map did not have and taking it out again; putting back
      a key's own value. */
  lemma UpdateThenRemove<K, V>(m: map<K, V>, k: K, x: V)
    ensures k !in m ==> m[k := x] - {k} == m
    ensures k in m ==> m[k := x][k := m[k]] == m
  {
  }

  /** `fread` and `fwrite` keep the state well formed. */
  lemma TransferKeepsWf(s: Sys, d: Driver, dir: Direction, fd: int, hasBuf: bool, num: u32)
    requires Wf(s)
    ensures Wf(Transfer(s, d, dir, fd, hasBuf, num).0)
  {
    var r := Transfer(s, d, dir, fd, hasBuf, num);
    if !BadFd(s, fd) {
      var h := s.fds[fd].value;
      WfMoveCursor(s, h, AddU32(s.files[h].rwhead, r.1));
    }
  }

  /** `fseek` keeps the state well formed. */
  lemma FseekKeepsWf(s: Sys, d: Driver, fd: int, offset: i32, whence: Whence)
    requires Wf(s)
    ensures Wf(Fseek(s, d, fd, offset, whence).0)
  {
    var r := Fseek(s, d, fd, offset, whence);
    if r.2 == ESuccess {
      WfMoveCursor(s, s.fds[fd].value, r.1);
    }
  }

  /** `fchdir` keeps the state well formed. */
  lemma FchdirKeepsWf(s: Sys, lookup: Namey.Lookup, path: Option<KStr>)
    requires Wf(s) && Namey.LookupSound(s.vfs, lookup)
    ensures Wf(Fchdir(s, lookup, path).0)
  {
    var r := Fchdir(s, lookup, path);
    if path.Some? {
      var w := Namey.ResolvePath(s.vfs, lookup, s.cwd, path.value);
      WfNewVfs(s, w.vfs, r.0.cwd);
    }
  }

  /** The state after `_vfs_init`, with an fd table of free slots over a
      well-formed dirent cache in which no file or directory is open, is
      well formed. */
  lemma InitialWf(v: Vfs, prior: Slab.Cache, fds: seq<Option<Slab.Elem>>, cwd: DirentId)
    requires Valid(v) && Positive(v, cwd) && |fds| < TWO_32
    requires forall j :: 0 <= j < |fds| ==> fds[j].None?
    requires forall i :: i in v.inodes ==> v.inodes[i].nrReaders == 0 && !v.inodes[i].hasWriter
    ensures Wf(Sys(v, map[], VfsInit(prior), fds, cwd))
  {
    var s := Sys(v, map[], VfsInit(prior), fds, cwd);
    assert Sane(s);
    assert Handles(s);
    assert s.files.Keys == {};
    forall i | i in v.inodes && v.inodes[i].itype != Dev ensures Accounted(s, i) {
      CountNone(fds, s.files, i, ReadMode, |fds|);
      CountNone(fds, s.files, i, WriteMode, |fds|);
    }
  }

  /** With no handles, nothing is counted. */
  lemma {:induction false} CountNone(fds: seq<Option<Slab.Elem>>, files: map<Slab.Elem, KFile>, i: InodeId, k: Kind, n: nat)
    requires n <= |fds| && files == map[]
    ensures CountTo(fds, files, i, k, n) == 0
    decreases n
  {
    if n > 0 {
      CountNone(fds, files, i, k, n - 1);
    }
  }

  /** `_vfs_deinit`: every slab the kfile cache obtained, each once, goes
      back to the page allocator. */
  function VfsDeinit(s: Sys): (released: seq<nat>)
    requires Wf(s)
    ensures Distinct(released)
    ensures forall n: nat :: n in released <==> n < s.cache.nextSlab
  {
    Slab.DeinitReleasesEverySlab(s.cache, s.files.Keys);
    Slab.Deinit(s.cache)
  }
}

=== FILE: testfs.dfy ===
/** The test filesystem (src/vfs/testfs/testfs.c) over its fixture tree
    (src/vfs/testfs/bogus_data.c): the concrete driver behind the VFS.

    A `bogus_node_t` embeds its inode, so a node and its inode share one
    id. */
module TestFs {
  import opened Base
  import opened Codes
  import opened KString
  import opened Vfs
  import opened Namey

  /** A fixture node: its name and its children, as node ids, in order. */
  datatype Node = Node(name: KStr, children: seq<InodeId>)

  const ROOT: InodeId := 0
  const ETC: InodeId := 1
  const PASSWD: InodeId := 2
  const GROUP: InodeId := 3
  const USR: InodeId := 4
  const LIB: InodeId := 5
  const LIBGDI: InodeId := 6
  const BIN: InodeId := 7
  const CHATTR: InodeId := 8

  /** The number of distinct fixture nodes. */
  const NUM_NODES: nat := 9

  /** The fixture tree:
      / { etc { passwd, group }, usr { lib { libgdi.so }, bin { chattr } } } */
  function NodeOf(n: InodeId): Node
    requires n < NUM_NODES
  {
    match n
    case 0 => Node([0x2F], [ETC, USR])                                        // "/"
    case 1 => Node([0x65, 0x74, 0x63], [PASSWD, GROUP])                       // "etc"
    case 2 => Node([0x70, 0x61, 0x73, 0x73, 0x77, 0x64], [])                  // "passwd"
    case 3 => Node([0x67, 0x72, 0x6F, 0x75, 0x70], [])                        // "group"
    case 4 => Node([0x75, 0x73, 0x72], [LIB, BIN])                            // "usr"
    case 5 => Node([0x6C, 0x69, 0x62], [LIBGDI])                              // "lib"
    case 6 => Node([0x6C, 0x69, 0x62, 0x67, 0x64, 0x69, 0x2E, 0x73, 0x6F], []) // "libgdi.so"
    case 7 => Node([0x62, 0x69, 0x6E], [CHATTR])                              // "bin"
    case _ => Node([0x63, 0x68, 0x61, 0x74, 0x74, 0x72], [])                  // "chattr"
  }

  /** `bogus_all_nodes`, BOGUS_NUM_NODES long: `passwd` appears twice, at
      indices 2 and 4, and `group` sits at 3. */
  const AllNodes: seq<InodeId> := [ROOT, ETC, PASSWD, GROUP, PASSWD, USR, LIB, LIBGDI, BIN, CHATTR]

  /** TESTFS_SAY_HI's value is not part of this model; it is a parameter. */
  type Action = u32

  /** The file-operation tables: `testfs_dir_ops` and `testfs_file_ops`. */
  const DirOps: FileOps := FileOps(open := true, close := false, iterate := true, read := false,
                                   write := false, ioctl := false, getLength := false)
  const PlainFileOps: FileOps := FileOps(open := true, close := true, iterate := false, read := false,
                                         write := false, ioctl := true, getLength := false)

  /** The node a testfs inode's `i_priv` points at; inodes of any other
      filesystem have none. */
  function Priv(i: InodeId): Option<InodeId> {
    if i < NUM_NODES then Some(i) else None
  }

  // ---------------------------------------------------------------------------
  // testfs_lookup

  /** The position of the first of `names` that compares equal to `name`. */
  function FirstChild(names: seq<KStr>, name: KStr): (r: Option<nat>)
    ensures r.Some? ==> r.value < |names| && KEq(names[r.value], name)
    ensures r.Some? ==> forall j :: 0 <= j < r.value ==> !KEq(names[j], name)
    ensures r.None? ==> forall j :: 0 <= j < |names| ==> !KEq(names[j], name)
  {
    if |names| == 0 then None
    else if KEq(names[0], name) then Some(0)
    else
      var rest := names[1..];
      assert forall j :: 0 <= j < |rest| ==> rest[j] == names[j + 1];
      match FirstChild(rest, name)
      case None => None
      case Some(k) =>
        assert KEq(names[k + 1], name) by { assert names[k + 1] == rest[k]; }
        Some(k + 1)
  }

  /** The names of the children of node `i`, in order. */
  function ChildNames(i: InodeId): (ns: seq<KStr>)
    requires i < NUM_NODES
    ensures |ns| == |Children(i)|
    ensures forall k :: 0 <= k < |ns| ==> ns[k] == NodeOf(Children(i)[k]).name
  {
    var cs := Children(i);
    seq(|cs|, k requires 0 <= k < |cs| => NodeOf(cs[k]).name)
  }

  /** Every child id names a fixture node. */
  lemma ChildrenAreNodes()
    ensures forall n, k :: 0 <= n < NUM_NODES && 0 <= k < |NodeOf(n).children| ==>
              NodeOf(n).children[k] < NUM_NODES
  {
  }

  /** `testfs_lookup(inode, dirent)`: the status, and the inode stored in
      `dirent->d_inode` (None: left untouched, i.e. NULL in a new dirent). */
  function Lookup(i: InodeId, name: KStr): (r: (Status, Option<InodeId>))
    ensures Priv(i).None? ==> r == (NoData, None)
    ensures Priv(i).Some? && |Children(i)| == 0 ==> r == (NoChildren, None)
    ensures r.0 in {Ok, NoData, NoChildren, NoSuchChild}
    ensures r.0 == Ok <==> r.1.Some?
    ensures r.1.Some? ==> Priv(i).Some? && r.1.value < NUM_NODES
    ensures r.1.Some? ==> exists k :: 0 <= k < |Children(i)| && Children(i)[k] == r.1.value &&
                            KEq(NodeOf(r.1.value).name, name) &&
                            forall j :: 0 <= j < k ==> !KEq(NodeOf(Children(i)[j]).name, name)
    ensures r.0 == NoSuchChild <==>
              Priv(i).Some? && |Children(i)| > 0 &&
              forall k :: 0 <= k < |Children(i)| ==> !KEq(NodeOf(Children(i)[k]).name, name)
  {
    if Priv(i).None? then (NoData, None)
    else if |Children(i)| == 0 then (NoChildren, None)
    else match FirstChild(ChildNames(i), name)
      case Some(k) => (Ok, Some(Children(i)[k]))
      case None => (NoSuchChild, None)
  }

  /** The children of a fixture node, which are fixture nodes too. */
  function Children(i: InodeId): (cs: seq<InodeId>)
    requires i < NUM_NODES
    ensures forall k :: 0 <= k < |cs| ==> cs[k] < NUM_NODES
  {
    ChildrenAreNodes();
    NodeOf(i).children
  }

  // ---------------------------------------------------------------------------
  // testfs_iterate_shared, testfs_open, testfs_ioctl

  /** What `testfs_iterate_shared` returns, an `int`: the number of entries
      it wrote, or the status E_NO_DATA. */
  datatype IterRet = Written(count: nat) | ENoData

  /** `testfs_iterate_shared(file, buffer, count)` on a handle whose
      `kf_priv` is `priv`: the return value, and the names written to the
      buffer. */
  function Iterate(priv: Option<InodeId>, count: nat): (r: (IterRet, seq<KStr>))
    requires priv.Some? ==> priv.value < NUM_NODES
    ensures priv.None? ==> r == (ENoData, [])
    ensures priv.Some? ==> r.0 == Written(|r.1|)
    ensures priv.Some? ==> |r.1| == if count < |NodeOf(priv.value).children| then count
                                     else |NodeOf(priv.value).children|
    ensures priv.Some? ==> forall k :: 0 <= k < |r.1| ==>
              r.1[k] == NodeOf(NodeOf(priv.value).children[k]).name
  {
    ChildrenAreNodes();
    if priv.None? then (ENoData, [])
    else
      var cs := NodeOf(priv.value).children;
      var n := if count < |cs| then count else |cs|;
      (Written(n), seq(n, k requires 0 <= k < n => NodeOf(cs[k]).name))
  }

  /** `testfs_open`: always succeeds; the handle's `kf_priv` becomes the
      inode's node. */
  function Open(i: InodeId): (r: (Status, Option<InodeId>))
    ensures r.0 == Ok && r.1 == Priv(i)
  {
    (Ok, Priv(i))
  }

  /** `testfs_ioctl(file, action, data)`, where `sayHi` is TESTFS_SAY_HI and
      `hasData` says whether `data` is non-NULL. */
  function Ioctl(action: Action, sayHi: Action, hasData: bool): (r: Status)
    ensures r == Ok <==> action == sayHi && hasData
    ensures action != sayHi ==> r == BadAction
    ensures action == sayHi && !hasData ==> r == BadParam
  {
    if action != sayHi then BadAction
    else if !hasData then BadParam
    else Ok
  }

  // ---------------------------------------------------------------------------
  // testfs_mount

  /** What `testfs_mount` sets up: the superblock (one for every mount), the
      inodes queued on it in order, each inode's `i_num`, the inode table,
      and the root dirent's name and inode. */
  datatype Mounted = Mounted(
    superblock: nat,
    queue: seq<InodeId>,
    inum: map<InodeId, nat>,
    inodes: map<InodeId, Inode>,
    rootName: KStr,
    rootInode: InodeId)

  /** The inode of a node as mount leaves it: a directory with `lookup` and
      the directory operations when it has children, otherwise a plain file
      with the file operations and no `lookup`. */
  function MountedInode(n: InodeId): (ino: Inode)
    requires n < NUM_NODES
    ensures ino.hasLookup <==> |NodeOf(n).children| > 0
    ensures ino.itype == (if |NodeOf(n).children| > 0 then Dir else File)
    ensures ino.nrReaders == 0 && !ino.hasWriter
    ensures ino.fileOps == Some(if |NodeOf(n).children| > 0 then DirOps else PlainFileOps)
  {
    if |NodeOf(n).children| > 0 then Inode(Dir, 0, false, true, Some(DirOps))
    else Inode(File, 0, false, false, Some(PlainFileOps))
  }

  /** `i` is the last position of `AllNodes` holding `n`. */
  predicate IsLastIndex(n: InodeId, i: nat) {
    i < |AllNodes| && AllNodes[i] == n &&
    forall j :: i < j < |AllNodes| ==> AllNodes[j] != n
  }

  /** The numbering loop of `testfs_mount` over a list of nodes: each node
      gets the index of its last listing as its `i_num`, and the inode of a
      mounted node. */
  method NumberInodes(ns: seq<InodeId>) returns (inum: map<InodeId, nat>, inodes: map<InodeId, Inode>)
    requires forall k :: 0 <= k < |ns| ==> ns[k] < NUM_NODES
    ensures forall n :: n in inodes <==> n in ns
    ensures forall n :: n in inodes ==> inodes[n] == MountedInode(n)
    ensures forall n :: n in inum <==> n in ns
    ensures forall n :: n in inum ==> (inum[n] < |ns| && ns[inum[n]] == n &&
              forall j :: inum[n] < j < |ns| ==> ns[j] != n)
  {
    inum := map[];
    inodes := map[];
    var i := 0;
    while i < |ns|
      invariant 0 <= i <= |ns|
      invariant forall k :: 0 <= k < i ==> ns[k] in inum
      invariant forall n :: n in inodes <==> n in inum
      invariant forall n :: n in inodes ==> n < NUM_NODES && inodes[n] == MountedInode(n)
      invariant forall n :: n in inum ==> (inum[n] < i && ns[inum[n]] == n &&
                  forall j :: inum[n] < j < i ==> ns[j] != n)
    {
      var n := ns[i];
      inum := inum[n := i];
      inodes := inodes[n := MountedInode(n)];
      i := i + 1;
    }
  }

  /** Every fixture node is listed. */
  lemma AllNodesListed()
    ensures forall k :: 0 <= k < |AllNodes| ==> AllNodes[k] < NUM_NODES
    ensures forall n: InodeId :: n in AllNodes <==> n < NUM_NODES
  {
    forall n: InodeId | n in AllNodes
      ensures n < NUM_NODES
    {
      var k :| 0 <= k < |AllNodes| && AllNodes[k] == n;
    }
    forall n: InodeId | n < NUM_NODES
      ensures n in AllNodes
    {
      assert AllNodes[if n <= GROUP then n else n + 1] == n;
    }
  }

  /** `testfs_mount`: `prior` is the static superblock pointer (None: not yet
      allocated) and `newSb` the superblock the allocator would hand out. */
  method Mount(prior: Option<nat>, newSb: nat) returns (m: Mounted)
    ensures m.superblock == if prior.Some? then prior.value else newSb
    ensures m.queue == AllNodes
    ensures MountShape(m)
    ensures forall n: InodeId :: n in m.inum <==> n < NUM_NODES
    ensures forall n :: n in m.inum ==> IsLastIndex(n, m.inum[n])
  {
    var sb := if prior.Some? then prior.value else newSb;
    AllNodesListed();
    var inum, inodes := NumberInodes(AllNodes);
    m := Mounted(sb, AllNodes, inum, inodes, NodeOf(ROOT).name, ROOT);
  }

  /** The inode table and root dirent that `Mount` sets up. */
  ghost predicate MountShape(m: Mounted) {
    && (forall n: InodeId :: n in m.inodes <==> n < NUM_NODES)
    && (forall n :: n in m.inodes ==> m.inodes[n] == MountedInode(n))
    && m.rootName == NodeOf(ROOT).name && m.rootInode == ROOT
  }

  /** The dirent cache right after mounting testfs at the root: the root
      dirent alone, its own parent. It is a well-formed starting point for
      path walks, and the driver's answers stay inside its inode table. */
  function MountedVfs(m: Mounted): (v: Vfs)
    requires MountShape(m)
    ensures Valid(v) && LookupSound(v, Lookup) && AllPositive(v)
    ensures v.root == 0 && ROOT in v.inodes && v.inodes[ROOT].hasLookup
  {
    var v := Vfs(map[0 := Dirent(m.rootName, Some(m.rootInode), 0, [])], m.inodes, 0, 1);
    MountedIsValid(m, v);
    v
  }

  lemma MountedIsValid(m: Mounted, v: Vfs)
    requires MountShape(m)
    requires v == Vfs(map[0 := Dirent(m.rootName, Some(m.rootInode), 0, [])], m.inodes, 0, 1)
    ensures Valid(v) && LookupSound(v, Lookup) && AllPositive(v)
  {
    MountedShapeValid(m, v);
    MountedLookupSound(m, v);
  }

  lemma MountedShapeValid(m: Mounted, v: Vfs)
    requires v == Vfs(map[0 := Dirent(m.rootName, Some(m.rootInode), 0, [])], m.inodes, 0, 1)
    requires m.rootInode in m.inodes
    ensures Valid(v) && AllPositive(v)
  {
    assert Positive(v, 0);
  }

  lemma MountedLookupSound(m: Mounted, v: Vfs)
    requires MountShape(m) && v.inodes == m.inodes
    ensures LookupSound(v, Lookup)
  {
    forall i: InodeId, n: KStr | Lookup(i, n).1.Some?
      ensures Lookup(i, n).1.value in v.inodes
    {
      LookupInTable(m, i, n);
    }
  }

  lemma LookupInTable(m: Mounted, i: InodeId, n: KStr)
    requires MountShape(m)
    ensures Lookup(i, n).1.Some? ==> Lookup(i, n).1.value in m.inodes
  {
  }

  // ---------------------------------------------------------------------------
  // Properties

  /** The last position of each node in `bogus_all_nodes`. */
  function LastPos(n: InodeId): nat {
    if n < PASSWD then n else if n == PASSWD then 4 else if n == GROUP then GROUP else n + 1
  }

  /** A node listed twice keeps the index of its last listing: `passwd` is
      listed (and queued) at 2 and 4 and ends with `i_num` 4; `group` keeps
      3 and every later node its index in the list. */
  lemma MountNumbering(n: InodeId, i: nat)
    requires IsLastIndex(n, i)
    ensures i == LastPos(n)
    ensures n == PASSWD ==> i == 4 && AllNodes[2] == PASSWD
  {
    if n == PASSWD {
      assert AllNodes[4] == PASSWD;
    }
  }

  /** Sibling names differ in their first byte. */
  lemma SiblingNamesDiffer(n: InodeId, j: nat, k: nat)
    requires n < NUM_NODES && j < |NodeOf(n).children| && k < |NodeOf(n).children| && j != k
    ensures !KEq(NodeOf(NodeOf(n).children[j]).name, NodeOf(NodeOf(n).children[k]).name)
  {
    var a := NodeOf(NodeOf(n).children[j]).name;
    var b := NodeOf(NodeOf(n).children[k]).name;
    assert a[..0] == b[..0];
    assert a[0] != b[0];
    StrCmpMismatch(a, b, 0);
  }

  /** Listing a directory and looking up what it lists agree: each of the
      entries `testfs_iterate_shared` reports writing is a name that
      `testfs_lookup` finds, on the child at the same position. */
  lemma IterateThenLookup(n: InodeId, count: nat, k: nat)
    requires n < NUM_NODES && k < Iterate(Some(n), count).0.count
    ensures Lookup(n, Iterate(Some(n), count).1[k]) == (Ok, Some(NodeOf(n).children[k]))
  {
    ChildrenAreNodes();
    var name := Iterate(Some(n), count).1[k];
    var cs := NodeOf(n).children;
    assert name == NodeOf(cs[k]).name;
    assert KEq(name, name);
    forall j | 0 <= j < |cs| && j != k
      ensures !KEq(NodeOf(cs[j]).name, name)
    {
      SiblingNamesDiffer(n, j, k);
    }
    var r := Lookup(n, name);
    var k' :| 0 <= k' < |cs| && cs[k'] == r.1.value && KEq(NodeOf(r.1.value).name, name) &&
               forall j :: 0 <= j < k' ==> !KEq(NodeOf(cs[j]).name, name);
  }

  /** The test driver answers OK only with an inode, and never S_NOTFOUND. */
  lemma LookupAnswers()
    ensures NeverNegative(Lookup) && NeverAnswers(Lookup, NotFound)
  {
  }

  /** With this driver a name that is not there is never cached as a
      negative entry, and no walk from the mounted root ends in S_NOTFOUND:
      the driver reports its own E_NOT_FOUND each time instead. */
  lemma NoNegativeEntries(m: Mounted, toks: seq<KStr>)
    requires MountShape(m)
    ensures AllPositive(WalkTokens(MountedVfs(m), Lookup, 0, toks).vfs)
    ensures WalkTokens(MountedVfs(m), Lookup, 0, toks).status != NotFound
  {
    var v := MountedVfs(m);
    LookupAnswers();
    NoNegativeCaching(v, Lookup, 0, toks);
    DriverStatusIsPassedOn(v, Lookup, 0, toks, NotFound);
  }
}

=== FILE: vfs.dfy ===
/** The VFS data model (src/vfs/vfs.h, src/vfs/vfs.c): the directory-entry
    cache, inodes, open-file handles and the driver callbacks.

    Objects live in arenas: dirents and inodes are maps from ids, so "pointer
    to dirent" is a `DirentId`. The dirent record carries `parent` and
    `children`, as the path walk uses them, although the structure shown in
    vfs.h has not grown those fields yet. */
module Vfs {
  import opened Base
  import opened Codes
  import opened KString

  type DirentId = nat
  type InodeId = nat

  /** S_TYPE_FILE, S_TYPE_DIR, S_TYPE_DEV. */
  datatype InodeType = File | Dir | Dev

  /** Which `kfile_ops` callbacks an inode's file-operation table provides. */
  datatype FileOps = FileOps(
    open: bool,
    close: bool,
    iterate: bool,
    read: bool,
    write: bool,
    ioctl: bool,
    getLength: bool)

  /** `inode_t`: its type, the open-for-read/write bookkeeping, whether its
      `inode_ops` has a `lookup`, and its file-operation table (None is a
      NULL `i_file_ops`). */
  datatype Inode = Inode(
    itype: InodeType,
    nrReaders: nat,
    hasWriter: bool,
    hasLookup: bool,
    fileOps: Option<FileOps>)

  /** `dirent_t`: a name, an inode (None: a negative entry), a parent and
      the children linked under it, oldest first. */
  datatype Dirent = Dirent(
    name: KStr,
    inode: Option<InodeId>,
    parent: DirentId,
    children: seq<DirentId>)

  /** The dirent cache and the inode table, with the root dirent
      (`g_root_dirent`) and the next unused dirent id (the dirent
      allocator). */
  datatype Vfs = Vfs(
    dirents: map<DirentId, Dirent>,
    inodes: map<InodeId, Inode>,
    root: DirentId,
    nextDirent: DirentId)

  /** `kf_mode`: the O_READ and O_WRITE bits. */
  datatype Mode = Mode(read: bool, write: bool)

  /** `kfile_t`: an open-file handle. `ops` is a copy of the inode's file
      operation table, taken at open time. */
  datatype KFile = KFile(
    inode: InodeId,
    rwhead: u32,
    mode: Mode,
    ops: Option<FileOps>)

  /** The driver's callbacks, whatever filesystem provides them.
      - `lookup(dir, name)`: status, and the inode it put into the new dirent;
      - `open(inode)`: status;
      - `read(file, count, offset)` and `write(...)`: status and bytes moved;
      - `iterate(file, count)`: status and entries written;
      - `ioctl(file, action, hasData)`: status;
      - `getLength(file)`: the file length. */
  datatype Driver = Driver(
    lookup: (InodeId, KStr) -> (Status, Option<InodeId>),
    open: InodeId -> Status,
    read: (KFile, u32, u32) -> (Status, u32),
    write: (KFile, u32, u32) -> (Status, u32),
    iterate: (KFile, u32) -> (Status, u32),
    ioctl: (KFile, u32, bool) -> Status,
    getLength: KFile -> u32)

  /** A dirent with an inode. */
  predicate Positive(v: Vfs, d: DirentId) {
    d in v.dirents && v.dirents[d].inode.Some? && v.dirents[d].inode.value in v.inodes
  }

  /** The inode of a positive dirent. */
  function InodeOf(v: Vfs, d: DirentId): (i: InodeId)
    requires Positive(v, d)
    ensures i in v.inodes
  {
    v.dirents[d].inode.value
  }

  /** The shape the walk relies on:
      - the root is a positive dirent and is its own parent (the comment at
        src/vfs/namey.c:40 assumes it; here it is an invariant);
      - parents and children of cached dirents are cached, and parents are
        positive (entries are only linked under the directory being walked);
      - a child's parent is the dirent it is linked under;
      - every inode a dirent names exists;
      - dirent ids below `nextDirent` are the only ones in use. */
  ghost predicate Valid(v: Vfs) {
    && Positive(v, v.root)
    && v.dirents[v.root].parent == v.root
    && (forall d :: d in v.dirents ==> d < v.nextDirent)
    && (forall d {:trigger v.dirents[d].parent} :: d in v.dirents ==> Positive(v, v.dirents[d].parent))
    && (forall d :: d in v.dirents && v.dirents[d].inode.Some? ==> v.dirents[d].inode.value in v.inodes)
    && (forall d, k :: d in v.dirents && 0 <= k < |v.dirents[d].children| ==>
          v.dirents[d].children[k] in v.dirents &&
          v.dirents[v.dirents[d].children[k]].parent == d)
  }

  /** `w` is `v` with more cached: no dirent is changed except that children
      may be appended, the inode table and the root are the same, and ids only
      grow. */
  ghost predicate Extends(v: Vfs, w: Vfs) {
    && w.inodes == v.inodes
    && w.root == v.root
    && v.nextDirent <= w.nextDirent
    && (forall d :: d in v.dirents ==>
          && d in w.dirents
          && w.dirents[d].name == v.dirents[d].name
          && w.dirents[d].inode == v.dirents[d].inode
          && w.dirents[d].parent == v.dirents[d].parent
          && v.dirents[d].children <= w.dirents[d].children)
  }

  lemma ExtendsRefl(v: Vfs)
    ensures Extends(v, v)
  {
  }

  lemma ExtendsTrans(u: Vfs, v: Vfs, w: Vfs)
    requires Extends(u, v) && Extends(v, w)
    ensures Extends(u, w)
  {
  }

  /** First of the dirents `cs` whose name compares equal to `name`. */
  function FirstNamed(v: Vfs, cs: seq<DirentId>, name: KStr): (r: Option<nat>)
    requires forall k :: 0 <= k < |cs| ==> cs[k] in v.dirents
    ensures r.Some? ==> r.value < |cs| && KEq(v.dirents[cs[r.value]].name, name)
    ensures r.Some? ==> forall j :: 0 <= j < r.value ==> !KEq(v.dirents[cs[j]].name, name)
    ensures r.None? ==> forall j :: 0 <= j < |cs| ==> !KEq(v.dirents[cs[j]].name, name)
  {
    if |cs| == 0 then None
    else if KEq(v.dirents[cs[0]].name, name) then Some(0)
    else
      var rest := cs[1..];
      assert forall k :: 0 <= k < |rest| ==> rest[k] == cs[k + 1];
      match FirstNamed(v, rest, name)
      case None => None
      case Some(k) =>
        assert KEq(v.dirents[cs[k + 1]].name, name) by { assert cs[k + 1] == rest[k]; }
        Some(k + 1)
  }

  /** `_vfs_dirent_lookup_child`: the first child of `d` named `name`. */
  function LookupChild(v: Vfs, d: DirentId, name: KStr): (r: Option<DirentId>)
    requires Valid(v) && d in v.dirents
    ensures r.Some? ==> r.value in v.dirents[d].children && r.value in v.dirents
  {
    var cs := v.dirents[d].children;
    match FirstNamed(v, cs, name)
    case None => None
    case Some(k) => Some(cs[k])
  }

  /** The first match among some children is still the first match once more
      children are appended, as long as the old ones keep their names. */
  lemma {:induction false} FirstNamedExtends(v: Vfs, w: Vfs, cs: seq<DirentId>, ds: seq<DirentId>, name: KStr)
    requires forall k :: 0 <= k < |cs| ==> cs[k] in v.dirents
    requires forall k :: 0 <= k < |ds| ==> ds[k] in w.dirents
    requires cs <= ds
    requires forall k :: 0 <= k < |cs| ==> w.dirents[cs[k]].name == v.dirents[cs[k]].name
    requires FirstNamed(v, cs, name).Some?
    ensures FirstNamed(w, ds, name) == FirstNamed(v, cs, name)
    decreases |cs|
  {
    if !KEq(v.dirents[cs[0]].name, name) {
      FirstNamedExtends(v, w, cs[1..], ds[1..], name);
    }
  }

  /** A cache hit stays a hit, on the same dirent, in any extension. */
  lemma LookupChildExtends(v: Vfs, w: Vfs, d: DirentId, name: KStr)
    requires Valid(v) && Valid(w) && Extends(v, w) && d in v.dirents
    requires LookupChild(v, d, name).Some?
    ensures LookupChild(w, d, name) == LookupChild(v, d, name)
  {
    var cs := v.dirents[d].children;
    var ds := w.dirents[d].children;
    FirstNamedExtends(v, w, cs, ds, name);
  }

  /** Appending a freshly named child makes it the match when none was
      cached before. */
  lemma {:induction false} FirstNamedAppend(v: Vfs, cs: seq<DirentId>, c: DirentId, name: KStr)
    requires forall k :: 0 <= k < |cs| ==> cs[k] in v.dirents
    requires c in v.dirents && v.dirents[c].name == name
    requires FirstNamed(v, cs, name).None?
    ensures FirstNamed(v, cs + [c], name) == Some(|cs|)
    decreases |cs|
  {
    if |cs| == 0 {
      assert KEq(name, name);
    } else {
      assert (cs + [c])[1..] == cs[1..] + [c];
      FirstNamedAppend(v, cs[1..], c, name);
    }
  }
}

=== FILE: vgatext.dfy ===
/** The VGA text attribute helpers and the ANSI colour escape parser of
    src/io/vgatext.c: a restricted form of the SGR control sequence
    (section 8.3.117 of ECMA-48) packed into the colour half of a VGA text
    cell (bits 8-11 foreground, bits 12-15 background). */
module VgaText {
  import opened Base

  /** An `unsigned int` attribute word. */
  type Attr = bv32

  // The colour numbers of src/io/vgatext.h.
  const BLACK: bv32 := 0x0
  const BLUE: bv32 := 0x1
  const GREEN: bv32 := 0x2
  const CYAN: bv32 := 0x3
  const RED: bv32 := 0x4
  const MAGENTA: bv32 := 0x5
  const ORANGE: bv32 := 0x6
  const GRAY: bv32 := 0x7

  /** VGA_TEXT_COLOR_WHITE and VGA_TEXT_COLOR_LIGHTEN are used by the parser
      but not defined in the headers; they are taken to be light gray (the
      colour of the default attribute 0x700) and the brighten bit. */
  const WHITE: bv32 := GRAY
  const LIGHTEN: bv32 := 0x8

  /** VGA_TEXT_DEFAULT_COLOR_BYTE: light gray on black. */
  const DEFAULT_COLOR: Attr := 0x700

  /** VGA_TEXT_COLOR_FG_CLEAR_MASK. */
  const FG_CLEAR_MASK: Attr := 0xF0FF

  /** `vga_text_fg`: a colour in the foreground nibble. */
  function Fg(c: bv32): (a: Attr)
    ensures FgOf(a) == c & 0xF && BgOf(a) == 0 && a & 0xFFFF_F0FF == 0
  {
    (c & 0x0F) << 8
  }

  /** `vga_text_bg`: a colour in the background nibble. */
  function Bg(c: bv32): (a: Attr)
    ensures BgOf(a) == c & 0xF && FgOf(a) == 0 && a & 0xFFFF_0FFF == 0
  {
    Fg(c) << 4
  }

  /** The foreground and background colours an attribute holds. */
  function FgOf(a: Attr): bv32 {
    (a >> 8) & 0xF
  }

  function BgOf(a: Attr): bv32 {
    (a >> 12) & 0xF
  }

  /** Foreground and background sit in disjoint nibbles: combining the two
      keeps each colour readable, and nothing else is set. */
  lemma FgBgDisjoint(c: bv32, d: bv32)
    ensures Fg(c) & Bg(d) == 0
    ensures FgOf(Fg(c) | Bg(d)) == c & 0xF && BgOf(Fg(c) | Bg(d)) == d & 0xF
    ensures (Fg(c) | Bg(d)) & 0xFFFF_00FF == 0
  {
  }

  /** The VGA colour of an ANSI colour's last digit. */
  function BaseColor(digit: nat): (c: bv32)
    ensures c <= GRAY
  {
    match digit
    case 0 => BLACK
    case 1 => RED
    case 2 => GREEN
    case 3 => ORANGE
    case 4 => BLUE
    case 5 => MAGENTA
    case 6 => CYAN
    case _ => WHITE
  }

  /** The ANSI digit of a VGA colour below 8: BaseColor's inverse. */
  function BaseDigit(c: bv32): nat {
    if c == BLACK then 0
    else if c == RED then 1
    else if c == GREEN then 2
    else if c == ORANGE then 3
    else if c == BLUE then 4
    else if c == MAGENTA then 5
    else if c == CYAN then 6
    else 7
  }

  /** The eight ANSI digits name the eight VGA colours, one each. */
  lemma BaseColorBijective(d: nat, c: bv32)
    ensures d < 8 ==> BaseDigit(BaseColor(d)) == d
    ensures c < 8 ==> BaseColor(BaseDigit(c)) == c
  {
  }

  /** `ansi_color_to_vga_color`: the tens pick foreground (3), bright
      foreground (9), background (4) or bright background (10); anything else
      gives 0. */
  function Ansi(n: nat): (a: Attr)
    ensures n / 10 == 3 || n / 10 == 9 ==> BgOf(a) == 0
    ensures n / 10 == 4 || n / 10 == 10 ==> FgOf(a) == 0
    ensures n / 10 != 3 && n / 10 != 4 && n / 10 != 9 && n / 10 != 10 ==> a == 0
  {
    var vga := BaseColor(n % 10);
    match n / 10
    case 3 => Fg(vga)
    case 9 => Fg(vga + LIGHTEN)
    case 4 => Bg(vga)
    case 10 => Bg(vga + LIGHTEN)
    case _ => 0
  }

  /** What an attribute from an ANSI code looks like once decoded: codes
      30-37 and 90-97 set only the foreground, 40-47 and 100-107 only the
      background, the bright forms with the brighten bit. */
  lemma AnsiDecodes(d: nat)
    requires d < 8
    ensures FgOf(Ansi(30 + d)) == BaseColor(d) && BgOf(Ansi(30 + d)) == 0
    ensures FgOf(Ansi(90 + d)) == BaseColor(d) + LIGHTEN && BgOf(Ansi(90 + d)) == 0
    ensures BgOf(Ansi(40 + d)) == BaseColor(d) && FgOf(Ansi(40 + d)) == 0
    ensures BgOf(Ansi(100 + d)) == BaseColor(d) + LIGHTEN && FgOf(Ansi(100 + d)) == 0
  {
    var c := BaseColor(d);
    assert c <= 7;
    FgBgDisjoint(c, 0);
    FgBgDisjoint(c + LIGHTEN, 0);
    FgBgDisjoint(0, c);
    FgBgDisjoint(0, c + LIGHTEN);
  }

  // ---------------------------------------------------------------------------
  // The escape sequence parser

  /** A successful parse: the index just past the closing 'm', and the
      attribute stored through `result_color`. */
  datatype Parsed = Parsed(next: nat, color: Attr)

  predicate Octal(ch: char) {
    '0' <= ch <= '7'
  }

  function Digit(ch: char): (n: nat)
    requires Octal(ch)
    ensures n < 8
  {
    (ch - '0') as nat
  }

  /** The foreground code at `i` as written: '0', '3' or '9' for 37, 30 or
      90, always followed by a digit 0-7 that is added. The colour number
      and the index after the code. */
  function FgAsWritten(buf: seq<char>, i: nat): (r: Option<(nat, nat)>)
    ensures r.Some? ==> r.value.1 == i + 2 <= |buf|
  {
    if |buf| <= i + 1 then None
    else
      var base: int := if buf[i] == '0' then 37 else if buf[i] == '3' then 30 else if buf[i] == '9' then 90 else -1;
      if base < 0 || !Octal(buf[i + 1]) then None
      else Some((base + Digit(buf[i + 1]), i + 2))
  }

  /** The background code at `i` as written: '0' for 0, '4' for 40, "10"
      for 100; a digit 0-7 follows and is added unless the code was 0, in
      which case the byte is skipped unread. */
  function BgAsWritten(buf: seq<char>, i: nat): (r: Option<(nat, nat)>)
    ensures r.Some? ==> i + 2 <= r.value.1 <= |buf|
  {
    if |buf| <= i then None
    else
      var base: int := if buf[i] == '0' then 0 else if buf[i] == '4' then 40
                       else if buf[i] == '1' && |buf| > i + 1 && buf[i + 1] == '0' then 100 else -1;
      var j: nat := if base == 100 then i + 2 else i + 1;
      if base < 0 || |buf| <= j then None
      else if base == 0 then Some((0, j + 1))
      else if !Octal(buf[j]) then None
      else Some((base + Digit(buf[j]), j + 1))
  }

  /** `parse_ansi_color_code` as written, on the bytes after the ESC (a read
      past the end of `buf` fails the parse). The attribute of the long form
      is built from the colour numbers, with 0 standing for light gray
      foreground or black background. */
  function ParseAsWritten(buf: seq<char>): (r: Option<Parsed>)
    ensures r.Some? ==> 3 <= r.value.next <= |buf| && buf[r.value.next - 1] == 'm'
    ensures r.Some? ==> buf[0] == '[' && buf[1] == '0'
  {
    if |buf| < 3 || buf[0] != '[' || buf[1] != '0' then None
    else if buf[2] == 'm' then Some(Parsed(3, DEFAULT_COLOR))
    else if buf[2] != ';' then None
    else match FgAsWritten(buf, 3)
      case None => None
      case Some(f) =>
        if |buf| <= 5 then None
        else if buf[5] == 'm' then Some(Parsed(6, ShortAttrAsWritten(f.0)))
        else if buf[5] != ';' then None
        else match BgAsWritten(buf, 6)
          case None => None
          case Some(b) =>
            if |buf| <= b.1 || buf[b.1] != 'm' then None
            else Some(Parsed(b.1 + 1, LongAttrAsWritten(f.0, b.0)))
  }

  /** The attribute of the short form as written: the default attribute
      with its foreground replaced. */
  function ShortAttrAsWritten(n: nat): Attr {
    (DEFAULT_COLOR & FG_CLEAR_MASK) | Ansi(n)
  }

  /** The attribute of the long form as written, with colour number 0
      standing for light gray foreground or black background. */
  function LongAttrAsWritten(n: nat, k: nat): Attr {
    var fgAttr := if n != 0 then Ansi(n) else Fg(WHITE);
    var bgAttr := if k != 0 then Ansi(k) else Bg(BLACK);
    0 | fgAttr | bgAttr
  }

  /** A colour code in an escape sequence: the reset digit '0', a normal
      colour (3x, 4x) or a bright one (9x, 10x), with `d` in 0..7. */
  datatype Shade = Default | Normal(d: nat) | Bright(d: nat)

  predicate ShadeOk(s: Shade) {
    s.Default? || s.d < 8
  }

  /** The escape sequences the parser's comment documents: "[0m",
      "[0;FGm" and "[0;FG;BGm". */
  datatype Sgr = Reset | Fore(fg: Shade) | ForeBack(fg: Shade, bg: Shade)

  predicate SgrOk(x: Sgr) {
    match x
    case Reset => true
    case Fore(f) => ShadeOk(f)
    case ForeBack(f, b) => ShadeOk(f) && ShadeOk(b)
  }

  function DigitChar(d: nat): (ch: char)
    requires d < 8
    ensures Octal(ch) && Digit(ch) == d
  {
    '0' + d as char
  }

  function EncodeFg(s: Shade): (t: string)
    requires ShadeOk(s)
  {
    match s
    case Default => "0"
    case Normal(d) => ['3', DigitChar(d)]
    case Bright(d) => ['9', DigitChar(d)]
  }

  function EncodeBg(s: Shade): (t: string)
    requires ShadeOk(s)
  {
    match s
    case Default => "0"
    case Normal(d) => ['4', DigitChar(d)]
    case Bright(d) => ['1', '0', DigitChar(d)]
  }

  /** The text of a sequence, after the ESC. */
  function Encode(x: Sgr): (t: string)
    requires SgrOk(x)
  {
    match x
    case Reset => "[0m"
    case Fore(f) => "[0;" + EncodeFg(f) + "m"
    case ForeBack(f, b) => "[0;" + EncodeFg(f) + ";" + EncodeBg(b) + "m"
  }

  /** The foreground code at `i`: the shade and the index after it. */
  function DecodeFg(buf: seq<char>, i: nat): (r: Option<(Shade, nat)>)
    ensures r.Some? ==> ShadeOk(r.value.0) && i < r.value.1 <= |buf| && buf[i..r.value.1] == EncodeFg(r.value.0)
  {
    if |buf| <= i then None
    else if buf[i] == '0' then Some((Default, i + 1))
    else if |buf| <= i + 1 || !Octal(buf[i + 1]) then None
    else if buf[i] == '3' then Some((Normal(Digit(buf[i + 1])), i + 2))
    else if buf[i] == '9' then Some((Bright(Digit(buf[i + 1])), i + 2))
    else None
  }

  /** The background code at `i`. */
  function DecodeBg(buf: seq<char>, i: nat): (r: Option<(Shade, nat)>)
    ensures r.Some? ==> ShadeOk(r.value.0) && i < r.value.1 <= |buf| && buf[i..r.value.1] == EncodeBg(r.value.0)
  {
    if |buf| <= i then None
    else if buf[i] == '0' then Some((Default, i + 1))
    else if buf[i] == '4' then
      if |buf| <= i + 1 || !Octal(buf[i + 1]) then None else Some((Normal(Digit(buf[i + 1])), i + 2))
    else if buf[i] == '1' then
      if |buf| <= i + 2 || buf[i + 1] != '0' || !Octal(buf[i + 2]) then None
      else Some((Bright(Digit(buf[i + 2])), i + 3))
    else None
  }

  /** Each code is read back from its own text, whatever follows. */
  lemma DecodeFgEncode(s: Shade, buf: seq<char>, i: nat)
    requires ShadeOk(s) && i + |EncodeFg(s)| <= |buf| && buf[i..i + |EncodeFg(s)|] == EncodeFg(s)
    ensures DecodeFg(buf, i) == Some((s, i + |EncodeFg(s)|))
  {
    var e := EncodeFg(s);
    assert buf[i] == e[0];
    if |e| == 2 {
      assert buf[i + 1] == e[1];
    }
  }

  lemma DecodeBgEncode(s: Shade, buf: seq<char>, i: nat)
    requires ShadeOk(s) && i + |EncodeBg(s)| <= |buf| && buf[i..i + |EncodeBg(s)|] == EncodeBg(s)
    ensures DecodeBg(buf, i) == Some((s, i + |EncodeBg(s)|))
  {
    var e := EncodeBg(s);
    assert buf[i] == e[0];
    if |e| >= 2 {
      assert buf[i + 1] == e[1];
    }
    if |e| == 3 {
      assert buf[i + 2] == e[2];
    }
  }

  /** The sequence at the start of `buf` and its length, read the way the
      parser's comment documents: a reset code '0' stands alone. */
  function Decode(buf: seq<char>): (r: Option<(Sgr, nat)>)
    ensures r.Some? ==> SgrOk(r.value.0) && 3 <= r.value.1 <= |buf| && buf[r.value.1 - 1] == 'm'
  {
    if |buf| < 3 || buf[0] != '[' || buf[1] != '0' then None
    else if buf[2] == 'm' then Some((Reset, 3))
    else if buf[2] != ';' then None
    else match DecodeFg(buf, 3)
      case None => None
      case Some(f) =>
        var i := f.1;
        if |buf| <= i then None
        else if buf[i] == 'm' then Some((Fore(f.0), i + 1))
        else if buf[i] != ';' then None
        else match DecodeBg(buf, i + 1)
          case None => None
          case Some(b) =>
            var j := b.1;
            if |buf| <= j || buf[j] != 'm' then None
            else Some((ForeBack(f.0, b.0), j + 1))
  }

  /** The attribute of a foreground or background code; the reset code
      gives light gray on black. */
  function FgAttr(s: Shade): Attr
    requires ShadeOk(s)
  {
    match s
    case Default => Fg(WHITE)
    case Normal(d) => Ansi(30 + d)
    case Bright(d) => Ansi(90 + d)
  }

  function BgAttr(s: Shade): Attr
    requires ShadeOk(s)
  {
    match s
    case Default => Bg(BLACK)
    case Normal(d) => Ansi(40 + d)
    case Bright(d) => Ansi(100 + d)
  }

  /** The reset codes follow the code and the default attribute: the
      foreground reset is code 37 (light gray), as documented, but the
      background reset is black, code 40, and not the light gray of code 47
      that the comment on the parser names. */
  lemma ResetColors()
    ensures FgAttr(Default) == Ansi(37)
    ensures BgAttr(Default) == Ansi(40) && BgAttr(Default) != Ansi(47)
    ensures FgAttr(Default) | BgAttr(Default) == DEFAULT_COLOR
  {
  }

  /** The attribute a sequence selects. "[0;FGm" keeps the default's
      background, which is black. */
  function Color(x: Sgr): Attr
    requires SgrOk(x)
  {
    match x
    case Reset => DEFAULT_COLOR
    case Fore(f) => (DEFAULT_COLOR & FG_CLEAR_MASK) | FgAttr(f)
    case ForeBack(f, b) => FgAttr(f) | BgAttr(b)
  }

  /** The colour a shade names, brightened for the bright codes. */
  function ShadeColor(s: Shade, reset: bv32): bv32
    requires ShadeOk(s)
  {
    match s
    case Default => reset
    case Normal(d) => BaseColor(d)
    case Bright(d) => BaseColor(d) + LIGHTEN
  }

  /** A foreground code's attribute is its colour in the foreground nibble,
      a background code's its colour in the background nibble. */
  lemma ShadeAttrs(s: Shade)
    requires ShadeOk(s)
    ensures FgAttr(s) == Fg(ShadeColor(s, WHITE))
    ensures BgAttr(s) == Bg(ShadeColor(s, BLACK))
  {
    if !s.Default? {
      assert (30 + s.d) / 10 == 3 && (30 + s.d) % 10 == s.d;
      assert (90 + s.d) / 10 == 9 && (90 + s.d) % 10 == s.d;
      assert (40 + s.d) / 10 == 4 && (40 + s.d) % 10 == s.d;
      assert (100 + s.d) / 10 == 10 && (100 + s.d) % 10 == s.d;
    }
  }

  /** "[0;FGm": the default's foreground is cleared and the new one set. */
  lemma ForeColor(c: bv32)
    requires c < 16
    ensures FgOf((DEFAULT_COLOR & FG_CLEAR_MASK) | Fg(c)) == c
    ensures BgOf((DEFAULT_COLOR & FG_CLEAR_MASK) | Fg(c)) == BLACK
  {
  }

  /** Every sequence selects the foreground and background its codes name;
      the reset codes give light gray on black. */
  lemma ColorDecodes(x: Sgr)
    requires SgrOk(x)
    ensures x.Reset? ==> FgOf(Color(x)) == WHITE && BgOf(Color(x)) == BLACK
    ensures x.Fore? ==> FgOf(Color(x)) == ShadeColor(x.fg, WHITE) && BgOf(Color(x)) == BLACK
    ensures x.ForeBack? ==> FgOf(Color(x)) == ShadeColor(x.fg, WHITE) && BgOf(Color(x)) == ShadeColor(x.bg, BLACK)
  {
    match x
    case Reset =>
      PairColor(WHITE, BLACK);
    case Fore(f) =>
      ForeDecodes(f);
    case ForeBack(f, b) =>
      ForeBackDecodes(f, b);
  }

  lemma ForeDecodes(f: Shade)
    requires ShadeOk(f)
    ensures FgOf(Color(Fore(f))) == ShadeColor(f, WHITE) && BgOf(Color(Fore(f))) == BLACK
  {
    ShadeAttrs(f);
    ForeColor(ShadeColor(f, WHITE));
  }

  lemma ForeBackDecodes(f: Shade, b: Shade)
    requires ShadeOk(f) && ShadeOk(b)
    ensures FgOf(Color(ForeBack(f, b))) == ShadeColor(f, WHITE) && BgOf(Color(ForeBack(f, b))) == ShadeColor(b, BLACK)
  {
    ShadeAttrs(f);
    ShadeAttrs(b);
    PairColor(ShadeColor(f, WHITE), ShadeColor(b, BLACK));
  }

  lemma PairColor(c: bv32, d: bv32)
    ensures FgOf(Fg(c) | Bg(d)) == c & 0xF && BgOf(Fg(c) | Bg(d)) == d & 0xF
    ensures Fg(WHITE) | Bg(BLACK) == DEFAULT_COLOR
  {
    FgBgDisjoint(c, d);
  }

  /** `parse_ansi_color_code` as evidently intended: a reset code '0' stands
      alone in either position. It reports the attribute of the sequence it
      read and the index just past it. */
  function Parse(buf: seq<char>): (r: Option<Parsed>)
    ensures r.Some? <==> Decode(buf).Some?
    ensures r.Some? ==> 3 <= r.value.next <= |buf| && buf[r.value.next - 1] == 'm'
  {
    match Decode(buf)
    case None => None
    case Some(p) => Some(Parsed(p.1, Color(p.0)))
  }

  /** Every documented sequence parses, whatever follows it, to its own
      attribute and length. */
  lemma ParseEncode(x: Sgr, rest: seq<char>)
    requires SgrOk(x)
    ensures Decode(Encode(x) + rest) == Some((x, |Encode(x)|))
    ensures Parse(Encode(x) + rest) == Some(Parsed(|Encode(x)|, Color(x)))
  {
    match x
    case Reset =>
    case Fore(f) => DecodeFore(f, rest);
    case ForeBack(f, b) => DecodeForeBack(f, b, rest);
  }

  lemma DecodeFore(f: Shade, rest: seq<char>)
    requires ShadeOk(f)
    ensures Decode(Encode(Fore(f)) + rest) == Some((Fore(f), |Encode(Fore(f))|))
  {
    var e := EncodeFg(f);
    var buf := Encode(Fore(f)) + rest;
    assert buf == "[0;" + e + ("m" + rest);
    assert buf[3..3 + |e|] == e;
    DecodeFgEncode(f, buf, 3);
    assert buf[3 + |e|] == 'm';
  }

  lemma DecodeForeBack(f: Shade, b: Shade, rest: seq<char>)
    requires ShadeOk(f) && ShadeOk(b)
    ensures Decode(Encode(ForeBack(f, b)) + rest) == Some((ForeBack(f, b), |Encode(ForeBack(f, b))|))
  {
    ForeBackText(f, b, rest);
    DecodeLongText(f, b, EncodeFg(f), EncodeBg(b), rest);
  }

  lemma ForeBackText(f: Shade, b: Shade, rest: seq<char>)
    requires ShadeOk(f) && ShadeOk(b)
    ensures Encode(ForeBack(f, b)) + rest == "[0;" + EncodeFg(f) + (";" + EncodeBg(b) + ("m" + rest))
    ensures |Encode(ForeBack(f, b))| == 5 + |EncodeFg(f)| + |EncodeBg(b)|
  {
  }

  /** The long form read back from its text, with the two codes' texts
      taken as given. */
  lemma DecodeLongText(f: Shade, b: Shade, e: seq<char>, g: seq<char>, rest: seq<char>)
    requires ShadeOk(f) && ShadeOk(b) && e == EncodeFg(f) && g == EncodeBg(b)
    ensures Decode("[0;" + e + (";" + g + ("m" + rest))) == Some((ForeBack(f, b), 5 + |e| + |g|))
  {
    var buf := "[0;" + e + (";" + g + ("m" + rest));
    var i := 3 + |e|;
    LongParts(buf, e, g, rest);
    DecodeFgEncode(f, buf, 3);
    DecodeBgEncode(b, buf, i + 1);
    DecodeLong(buf, f, b, i, i + 1 + |g|);
  }

  /** Where the pieces of a long sequence sit in the text. */
  lemma LongParts(buf: seq<char>, e: seq<char>, g: seq<char>, rest: seq<char>)
    requires buf == "[0;" + e + (";" + g + ("m" + rest))
    ensures var i := 3 + |e|;
            && |buf| > i + 1 + |g| && buf[0] == '[' && buf[1] == '0' && buf[2] == ';'
            && buf[3..i] == e && buf[i] == ';' && buf[i + 1..i + 1 + |g|] == g && buf[i + 1 + |g|] == 'm'
  {
    var i := 3 + |e|;
    var head := "[0;" + e;
    var tail := ";" + g + ("m" + rest);
    assert buf[..i] == head;
    assert buf[3..i] == head[3..];
    assert buf[i..] == tail;
    assert buf[i + 1..i + 1 + |g|] == tail[1..1 + |g|];
  }

  /** The long form, from the bytes and the two codes' readings. */
  lemma DecodeLong(buf: seq<char>, f: Shade, b: Shade, i: nat, j: nat)
    requires |buf| > j > i > 3 && buf[0] == '[' && buf[1] == '0' && buf[2] == ';' && buf[i] == ';' && buf[j] == 'm'
    requires DecodeFg(buf, 3) == Some((f, i)) && DecodeBg(buf, i + 1) == Some((b, j))
    ensures Decode(buf) == Some((ForeBack(f, b), j + 1))
  {
  }

  /** Whatever the parser accepts is exactly one documented sequence. */
  lemma ParseOnlyEncodings(buf: seq<char>)
    requires Decode(buf).Some?
    ensures var p := Decode(buf).value;
            buf[..p.1] == Encode(p.0)
  {
    var p := Decode(buf).value;
    if !p.0.Reset? {
      var f := DecodeFg(buf, 3).value;
      if p.0.Fore? {
        ShortOnlyEncoding(buf, f.1);
      } else {
        LongOnlyEncoding(buf, f.1, DecodeBg(buf, f.1 + 1).value.1);
      }
    }
  }

  lemma ShortOnlyEncoding(buf: seq<char>, i: nat)
    requires 3 < i < |buf|
    requires buf[..3] == "[0;" && buf[i] == 'm'
    requires DecodeFg(buf, 3).Some? && DecodeFg(buf, 3).value.1 == i
    ensures buf[..i + 1] == Encode(Fore(DecodeFg(buf, 3).value.0))
  {
    assert buf[..i + 1] == buf[..3] + buf[3..i] + [buf[i]];
  }

  lemma LongOnlyEncoding(buf: seq<char>, i: nat, j: nat)
    requires 3 < i < j < |buf|
    requires buf[..3] == "[0;" && buf[i] == ';' && buf[j] == 'm'
    requires DecodeFg(buf, 3).Some? && DecodeFg(buf, 3).value.1 == i
    requires DecodeBg(buf, i + 1).Some? && DecodeBg(buf, i + 1).value.1 == j
    ensures buf[..j + 1] == Encode(ForeBack(DecodeFg(buf, 3).value.0, DecodeBg(buf, i + 1).value.0))
  {
    assert buf[..j + 1] == buf[..3] + buf[3..i] + [buf[i]] + buf[i + 1..j] + [buf[j]];
  }

  /** The colour number of a code that is not the reset code. */
  function FgNumber(s: Shade): nat
    requires ShadeOk(s) && !s.Default?
  {
    if s.Normal? then 30 + s.d else 90 + s.d
  }

  function BgNumber(s: Shade): nat
    requires ShadeOk(s) && !s.Default?
  {
    if s.Normal? then 40 + s.d else 100 + s.d
  }

  /** The attribute of a code other than '0' is that of its colour number. */
  lemma AttrNumber(s: Shade)
    requires ShadeOk(s) && !s.Default?
    ensures FgAttr(s) == Ansi(FgNumber(s)) && BgAttr(s) == Ansi(BgNumber(s))
  {
  }

  /** On a code other than '0', the foreground and background readers as
      written agree with the documented reading. */
  lemma FgAsWrittenAgrees(buf: seq<char>, i: nat)
    requires DecodeFg(buf, i).Some? && !DecodeFg(buf, i).value.0.Default?
    ensures var f := DecodeFg(buf, i).value;
            FgAsWritten(buf, i) == Some((FgNumber(f.0), f.1))
  {
  }

  lemma BgAsWrittenAgrees(buf: seq<char>, i: nat)
    requires DecodeBg(buf, i).Some? && !DecodeBg(buf, i).value.0.Default?
    ensures var b := DecodeBg(buf, i).value;
            BgAsWritten(buf, i) == Some((BgNumber(b.0), b.1))
  {
  }

  /** Where neither colour is the reset code, the parser as written reads
      every input as intended. */
  lemma ParseAsWrittenAgrees(buf: seq<char>)
    requires Decode(buf).Some?
    requires var x := Decode(buf).value.0;
             (x.Fore? ==> !x.fg.Default?) && (x.ForeBack? ==> !x.fg.Default? && !x.bg.Default?)
    ensures ParseAsWritten(buf) == Parse(buf)
  {
    var x := Decode(buf).value.0;
    if x.Fore? {
      AgreesFore(buf);
    } else if x.ForeBack? {
      AgreesForeBack(buf);
    }
  }

  /** The short form as written, from the bytes alone. */
  lemma AsWrittenShort(buf: seq<char>, n: nat)
    requires |buf| > 5 && buf[0] == '[' && buf[1] == '0' && buf[2] == ';' && buf[5] == 'm'
    requires FgAsWritten(buf, 3) == Some((n, 5))
    ensures ParseAsWritten(buf) == Some(Parsed(6, ShortAttrAsWritten(n)))
  {
  }

  /** The long form as written, from the bytes alone, with codes other than
      the reset code. */
  lemma AsWrittenLong(buf: seq<char>, n: nat, k: nat, j: nat)
    requires |buf| > j > 5 && buf[0] == '[' && buf[1] == '0' && buf[2] == ';' && buf[5] == ';' && buf[j] == 'm'
    requires FgAsWritten(buf, 3) == Some((n, 5)) && BgAsWritten(buf, 6) == Some((k, j))
    requires n != 0 && k != 0
    ensures ParseAsWritten(buf) == Some(Parsed(j + 1, LongAttrAsWritten(n, k)))
  {
  }

  lemma AgreesFore(buf: seq<char>)
    requires Decode(buf).Some? && Decode(buf).value.0.Fore? && !Decode(buf).value.0.fg.Default?
    ensures ParseAsWritten(buf) == Parse(buf)
  {
    var f := DecodeFg(buf, 3).value;
    FgAsWrittenAgrees(buf, 3);
    assert Decode(buf).value == (Fore(f.0), 6);
    AttrNumber(f.0);
    AsWrittenShort(buf, FgNumber(f.0));
  }

  lemma AgreesForeBack(buf: seq<char>)
    requires Decode(buf).Some? && Decode(buf).value.0.ForeBack?
    requires !Decode(buf).value.0.fg.Default? && !Decode(buf).value.0.bg.Default?
    ensures ParseAsWritten(buf) == Parse(buf)
  {
    var f := DecodeFg(buf, 3).value;
    FgAsWrittenAgrees(buf, 3);
    var b := DecodeBg(buf, 6).value;
    BgAsWrittenAgrees(buf, 6);
    assert Decode(buf).value == (ForeBack(f.0, b.0), b.1 + 1);
    AttrNumber(f.0);
    AttrNumber(b.0);
    AsWrittenLong(buf, FgNumber(f.0), BgNumber(b.0), b.1);
    assert 0 | Ansi(FgNumber(f.0)) | Ansi(BgNumber(b.0)) == Ansi(FgNumber(f.0)) | Ansi(BgNumber(b.0));
  }

  /** The foreground reset code as written: "[0;0m", which the comment
      lists, is refused, and "[0;0" followed by a digit d is read as colour
      37 + d, so "[0;04m" selects a red background. */
  lemma ParseAsWrittenFgReset()
    ensures ParseAsWritten("[0;0m") == None
    ensures Parse("[0;0m") == Some(Parsed(5, DEFAULT_COLOR))
    ensures ParseAsWritten("[0;04m") == Some(Parsed(6, Bg(RED)))
  {
    ParseEncode(Fore(Default), "");
  }

  /** The background reset code as written: the byte after it is skipped
      unread, so "[0;31;0m" is refused while "[0;31;0xm" is accepted. */
  lemma ParseAsWrittenBgReset()
    ensures ParseAsWritten("[0;31;0m") == None
    ensures ParseAsWritten("[0;31;0xm") == Some(Parsed(9, Fg(RED) | Bg(BLACK)))
    ensures Parse("[0;31;0m") == Some(Parsed(8, Fg(RED) | Bg(BLACK)))
    ensures Parse("[0;31;0xm") == None
  {
    BgResetAsWritten();
    BgResetIntended();
  }

  lemma BgResetAsWritten()
    ensures ParseAsWritten("[0;31;0m") == None
    ensures ParseAsWritten("[0;31;0xm") == Some(Parsed(9, Fg(RED) | Bg(BLACK)))
  {
  }

  lemma BgResetIntended()
    ensures Parse("[0;31;0m") == Some(Parsed(8, Fg(RED) | Bg(BLACK)))
    ensures Parse("[0;31;0xm") == None
  {
    ParseEncode(ForeBack(Normal(1), Default), "");
  }
}
